=== FILE: README.md ===
# Pump.fun Twitter bot: a verified model of the auto-buy core

The bot is a browser dashboard with a set of companion Python scripts.

- The dashboard follows a stream of tweets that link to newly launched
  tokens on pump.fun and Dexscreener. It enriches each tweet with token
  data and can buy the token automatically.
- The scripts search Twitter for pump.fun links, watch who posted them and
  send buy and sell instructions to the pump.fun program on Solana.

This project models the decision and bookkeeping core of both parts in
Dafny and proves properties of that model.

- **Eligibility predicates.** There are three, and they disagree: the
  feed's user-list rule, `PumpFunClient.shouldBuyToken` and
  `DexscreenerClient.shouldBuyToken`. Each has its truth table proved, and
  lemmas exhibit where they differ.
- **Attempt guard.** The pump.fun client's `autoBuy` keeps a per-mint
  window of at most three attempts a minute and a two-second global gap.
  It is a class with the attempt map as a field.
- **Transaction pipeline.** Quote, swap, sign, send, confirm and status
  check are classified into a result. The buy and sell flows and the
  Dexscreener buy are built on top of that classification.
- **Tweet stream client.** Reconnects back off from 1 to 10 seconds and
  stop after five attempts. Subscribers, per-type caches and message
  handling are modelled too. Tweets are normalised recursively.
- **The feed.** Covered are auto-buy de-duplication, batch admission with
  storage marks, the newest-first merge capped at 100, mint extraction
  from the first link and the display filter.
- **Stores.**
  - the order list;
  - the case-normalising blacklist and the exact-match buylist;
  - the holdings panel with its sell-amount clamp and one-minute refresh
    throttle;
  - the auto-buy confirmation switch and the key import in the settings
    panel.
- **API proxy.** The pump.fun API proxy has a bounded retry loop, an
  alternate-address fallback and a mapping from errors to HTTP statuses.
- **Codecs.** The bonding-curve account is decoded little-endian, with a
  ten-second cache. The 24-byte buy and sell instruction data is packed,
  and raw instruction hex is decoded back. Packing and decoding are proved
  inverse.
- **Python helpers.** The scripts' tweet filter and id allocation, profile
  de-duplication, buy trigger, recursive `find_data` search and
  `confirm_txn` retry loop.

Everything outside the core becomes a parameter:

- the network, the chain, wallets, clocks and storage;
- a fetch or RPC reply is an input value, or a sequence of them for a loop;
- `now` is an integer in milliseconds or seconds, as the code uses it;
- browser storage is a map or a set of keys.

Code that updates state in place is a class whose methods are proved
against specification functions: the order store, the attempt guard, the
stream client, the feed, the panels and the Python watchers. Pure
normalisation and decision code is functions and lemmas.

One Dafny module models each source file. `Wrappers`, `Text`, `Sorting`,
`LittleEndian` and `Types` hold what several of them share.

## Behaviour worth noting

- A quote with a zero output amount does not stop a buy. The buy
  functions never look at `outAmount`; only `getTokenPrice` does
  (`PumpFunClient.BuyIgnoresOutAmount`).
- Order statuses can move backwards. `updateOrder` merges any status over
  any other (`TradingContext.AnyStatusOverwrites`).
- In `getBaseTokenAddress` a thrown pair lookup aborts the whole
  Dexscreener resolution instead of falling through to the next step.
- The stream cache is append-only with no cap
  (`TwitterService.Service.OnMessage`).
- The pump.fun client's `autoBuy` makes a purchase of its own before it
  reports success, and `handleAutoBuy` then buys again, so an auto-buy
  of a pump.fun token is recorded only after two purchases went through
  (`TwitterFeed.PumpFunAutoBuyBuysTwice`). The first of them is made with
  `tradingSettings.buyAmount` and `tradingSettings.slippage`, which the
  client the feed builds does not hold: it asks for NaN lamports at the
  default 25 basis points (`TwitterFeed.AutoBuyRequestIgnoresSettings`).
- `reconnect()` replaces the socket, but the old socket keeps its
  handlers: its later `close` event still counts a reconnect attempt and
  schedules a `connect()`, which does nothing while the new socket is open
  (`TwitterService.ReplacedSocketCloseKeepsNewOne`).
- The stateful members (`TwitterFeed.Feed.HandleAutoBuy`,
  `PurchasedTokens.Panel.HandleSellToken`,
  `TwitterService.Service.GetCachedTweets`) follow the code as written,
  including the defects listed under Findings; the corrected definitions
  are separate functions with their own lemmas.

## Model

| member | source | states |
|---|---|---|
| BlacklistContext.CleanLoaded | src/contexts/BlacklistContext.tsx:43-44 | every loaded name is non-empty and normalised, and there are no more names than stored values |
| BlacklistContext.CleanLoadedMembers | src/contexts/BlacklistContext.tsx:43-44 | a name is loaded exactly when some stored value is a non-blank string that trims and lower-cases to it |
| BlacklistContext.CleanLoadedAppend | src/contexts/BlacklistContext.tsx:43-44 | the filter and map work element by element: the loaded names of two concatenated lists are the two loaded lists, in order |
| BlacklistContext.CleanLoadedSnoc | src/contexts/BlacklistContext.tsx:43-44 | one more stored value adds its normalised name at the end when it is a non-blank string, and nothing otherwise |
| BlacklistContext.LoadBlacklist | src/contexts/BlacklistContext.tsx:35-57 | every name of the initial list is non-empty and normalised; absent, corrupt and non-array storage give the empty list |
| BlacklistContext.LoadBlacklistMembers | src/contexts/BlacklistContext.tsx:35-57 | the initial list holds exactly the names some stored value loads as; absent, corrupt and non-array storage hold none |
| BlacklistContext.LoadKeepsCaseVariants | src/contexts/BlacklistContext.tsx:42-44 | two distinct stored spellings of one name both survive loading, as two equal entries, because the Set removes duplicates before trimming and lower-casing |
| BlacklistContext.CleanLoadedPair | src/contexts/BlacklistContext.tsx:43-44 | two non-blank stored strings load as their two normalised forms, in order |
| BlacklistContext.LoadOfDistinct | src/contexts/BlacklistContext.tsx:42 | stored values without duplicates pass the Set unchanged |
| BlacklistContext.AddListsEveryVariant | src/contexts/BlacklistContext.tsx:69-86 | after adding a non-blank name, every case and whitespace variant of it is blacklisted |
| BlacklistContext.RemoveUnlistsEveryVariant | src/contexts/BlacklistContext.tsx:76-86 | after removing a non-empty name, no variant of it is blacklisted |
| BlacklistContext.AddKeepsOrder | src/contexts/BlacklistContext.tsx:73 | on a list without duplicates, adding a present name changes nothing and a new one goes to the end |
| BlacklistContext.BlankInputIgnored | src/contexts/BlacklistContext.tsx:70-85 | input blank after trimming is not added and is never reported as blacklisted |
| BlacklistContext.Blacklist.Load | src/contexts/BlacklistContext.tsx:35-57 | the provider starts from the loaded list, every entry clean |
| BlacklistContext.Blacklist.AddToBlacklist | src/contexts/BlacklistContext.tsx:69-74 | the new list is the deduplicated old list plus the normalised name, unchanged for empty or blank input; entries stay clean |
| BlacklistContext.Blacklist.RemoveFromBlacklist | src/contexts/BlacklistContext.tsx:76-80 | every entry equal to the normalised name is removed, nothing for empty input; entries stay clean |
| BuylistContext.AddRemoveMembership | src/contexts/BuylistContext.tsx:36-46 | after add(x), x is listed; after remove(x), it is not; every other name keeps its membership |
| BuylistContext.AddAppendsIfAbsent | src/contexts/BuylistContext.tsx:37 | on a list without duplicates, adding appends only an absent name and keeps the order |
| BuylistContext.MatchIsExact | src/contexts/BuylistContext.tsx:44-46 | a name added as "Alice" does not match "alice" or " Alice": no case folding and no trimming |
| BuylistContext.Buylist.Load | src/contexts/BuylistContext.tsx:22-28 | the provider starts from the stored array of names, or empty when nothing is stored |
| BuylistContext.Buylist.AddToBuylist | src/contexts/BuylistContext.tsx:36-38 | the new list is the old list plus the name, deduplicated |
| BuylistContext.Buylist.RemoveFromBuylist | src/contexts/BuylistContext.tsx:40-42 | every exact match is removed and the rest keep their order |
| CoinData.SafeConvert | src/coinData.ts:14-19 | the conversion fails exactly when the value exceeds 2^53 - 1, with the field named in the message, and otherwise returns the value unchanged |
| CoinData.GetVirtualReserves | src/coinData.ts:27-75 | reserves are read exactly when the data is present and at least 49 bytes long (8 discriminator bytes, then 41), and `complete` is the byte at offset 40 after the discriminator being non-zero; the negative-value check never rejects |
| CoinData.ReadView | src/coinData.ts:49-56 | the five reserves are the little-endian u64 values at offsets 0, 8, 16, 24 and 32 after the discriminator |
| CoinData.U64AtPacked | src/coinData.ts:50-54 | the i-th of several packed u64 values reads back at offset 8i, whatever follows |
| CoinData.ReadBackReserves | src/coinData.ts:33-67 | an account written with any in-range reserves, discriminator and trailing bytes reads back as exactly those reserves |
| CoinData.BuildCoinData | src/coinData.ts:154-162 | coin data is built exactly when the three converted values are safe integers, carrying the mint, the derived accounts and the reserves unchanged; the real reserves never cause a failure |
| CoinData.ReadCoinData | src/coinData.ts:144-170 | a read succeeds only when the accounts were derived and the reserves were read; when both were, the result is the coin data built from them, absent exactly when a converted value is unsafe; it carries the requested mint |
| CoinData.CoinDataStep | src/coinData.ts:136-177 | the data it answers is what it stores under the mint, and every other mint's entry is untouched; `getCoinData` on the module cache: its result and the cache afterwards; `CoinDataStepCases` and `SecondReadIsCached` state what it answers and stores |
| CoinData.CoinDataStepCases | src/coinData.ts:136-177 | a fresh entry (younger than 10000 ms) is returned without reading; otherwise the result is the chain read, a success is stored under the mint and a failure leaves the cache untouched; other mints are never changed |
| CoinData.SecondReadIsCached | src/coinData.ts:138-168 | within ten seconds of a successful read, the same mint is answered from the cache whatever the chain would now say |
| CoinData.CoinDataCache.constructor | src/coinData.ts:123 | the cache starts empty |
| CoinData.CoinDataCache.GetCoinData | src/coinData.ts:132-177 | the result and the new cache are those of the cache step above |
| DexscreenerClient.GetTokenCreationTime | src/dexscreenerClient.ts:377-383 | the creation time is always the current second: the clock reading in milliseconds lies within that second |
| DexscreenerClient.WithinAgeMinutesIsMinutesTest | src/dexscreenerClient.ts:409-412 | the age test multiplied through by 60 is the source's test, age in minutes at most `maxCreationTime` |
| DexscreenerClient.ShouldBuyToken | src/dexscreenerClient.ts:385-432 | buys if and only if auto-buy is on, the follower check is off, and, when the age check is on, a truthy creation time passes the age test; missing settings use the destructuring defaults |
| DexscreenerClient.ShouldBuyTokenCases | src/dexscreenerClient.ts:386-431 | missing settings never buy; an enabled follower check never buys; auto-buy with neither check always buys |
| DexscreenerClient.CurrentSecondIsAlwaysYoung | src/dexscreenerClient.ts:377-412 | since the creation time is the current second, the age check passes for every non-negative limit |
| DexscreenerClient.PredicatesDisagreeWithoutChecks | src/dexscreenerClient.ts:399-431 | with auto-buy on and neither check enabled, the pump.fun predicate refuses and the Dexscreener predicate buys |
| DexscreenerClient.FirstSolanaPair | src/dexscreenerClient.ts:160-162 | the index of the first pair on chain 'solana', none before it, or none at all |
| DexscreenerClient.GetBaseTokenAddress | src/dexscreenerClient.ts:139-173 | a non-empty pair lookup gives its first pair's base token; otherwise the token lookup's first Solana pair gives its base token, and when the token lookup has no pairs or no Solana pair the result is the error `Could not find base token address for <id>`; a throw in either lookup is passed on |
| DexscreenerClient.BuyTokenFlow | src/dexscreenerClient.ts:257-306 | success exactly when the base token, quote and swap were obtained and execution succeeded with a signature, which is then returned; every failure has an error and no signature; quotes always ask for 100 bps |
| DexscreenerClient.BuyToken | src/dexscreenerClient.ts:257-306 | returns what the flow above describes for the same answers |
| DexscreenerClient.BuyTokenDropsSignature | src/dexscreenerClient.ts:289-297 | when a sent transaction fails on chain, execution has a signature but `buyToken` reports none |
| HeliusService.NumberOr | src/services/heliusService.ts:60 | a number or its fallback: the value when present and non-zero, the fallback when absent or zero |
| HeliusService.Pow10 | src/services/heliusService.ts:64 | the decimal scale is at least one, so dividing by it never grows a supply |
| HeliusService.Seconds | src/services/heliusService.ts:55 | the whole second in which a millisecond time falls, rounding down |
| HeliusService.CreatedSeconds | src/services/heliusService.ts:55 | the creation second is the one in which the asset's own time falls, or the current time when it has none |
| HeliusService.AssetTokenInfo | src/services/heliusService.ts:49-67 | missing symbol, name and image get their defaults; the price is the price information's price, or zero, and zero without price information; with price information, a non-zero supply and decimals the market cap is price times supply over 10^decimals, and zero otherwise; the creation second is the asset's own, or the current one; no mint address |
| HeliusService.GetAsset | src/services/heliusService.ts:10-79 | an asset comes back exactly when the request succeeded, the reply has no error and it has a result, and then it is that result's token information |
| HeliusService.AssetMarketCap | src/services/heliusService.ts:59-66 | with a non-zero price, supply and decimals, the market cap is price times supply over ten to the decimals, and is non-zero |
| HeliusService.PumpAssets | src/services/heliusService.ts:109 | keeps exactly the items whose lower-cased id ends with 'pump', and never more items than given |
| HeliusService.PumpAssetsAppend | src/services/heliusService.ts:109 | the filter keeps reply order: filtering a concatenation concatenates the filtered parts |
| HeliusService.ItemTokenInfo | src/services/heliusService.ts:110-124 | defaults for missing symbol, name and image; the price is the item's price as given; the market cap is non-zero exactly when price and supply are, and then is price times supply over 10^decimals; the creation second is the item's own, or the current one |
| HeliusService.SearchAssets | src/services/heliusService.ts:81-130 | every failure gives the empty list; otherwise one entry per pump.fun item, in reply order, each that item's token information |
| HeliusService.PumpSuffixIgnoresCase | src/services/heliusService.ts:109 | a mint ending in 'PUMP', 'pump' or 'Pump' all count as pump.fun mints |
| HeliusService.GetPairTokenInfo | src/services/heliusService.ts:132-168 | token information exactly when the request succeeded and the reply has a pair; it carries the base token's address as mint, the pair's creation second, and the defaults for missing or zero values |
| LittleEndian.FromToLE | find_instruction.py:19 | reading back the `n` least significant bytes of a value below 256^n gives the value |
| LittleEndian.ToFromLE | find_instruction.py:19 | writing back the value of a byte string at its own width gives the bytes |
| LittleEndian.DecodeU64 | find_instruction.py:19 | `struct.unpack('<Q')` on eight bytes gives an unsigned 64-bit integer; `DecodeEncodeU64` and `EncodeDecodeU64` make it the inverse of `EncodeU64` |
| LittleEndian.EncodeU64 | pump_twitter.py:87-88 | `struct.pack('<Q')` of an unsigned 64-bit integer is eight bytes, which `DecodeU64` reads back |
| LittleEndian.DecodeEncodeU64 | find_instruction.py:19 | `struct.unpack('<Q')` inverts `struct.pack('<Q')` on every unsigned 64-bit integer |
| LittleEndian.EncodeDecodeU64 | find_instruction.py:19 | `struct.pack('<Q')` inverts `struct.unpack('<Q')` on every 8-byte string |
| LittleEndian.PackU64s | pump_twitter.py:87-88 | packing succeeds exactly when every value is an unsigned 64-bit integer, and gives eight bytes per value |
| LittleEndian.UnpackU64s | find_instruction.py:19 | one unsigned 64-bit integer per eight bytes; `UnpackPack` makes it the inverse of `PackU64s` |
| LittleEndian.UnpackPack | pump_twitter.py:87-88 | unpacking packed integers gives the integers back |
| FindInstruction.Segments | find_instruction.py:11 | as many segments as `ceil(len / 16)`, each non-empty and at most 16 characters |
| FindInstruction.SegmentsConcat | find_instruction.py:11 | the segments put together give the string back, and all but the last are full |
| FindInstruction.FromHex | find_instruction.py:19 | `bytes.fromhex` gives at most one byte per two characters |
| FindInstruction.FromToHex | find_instruction.py:19 | reading hex gives back the bytes it was written from |
| FindInstruction.DecodeSegments | find_instruction.py:19 | decoding succeeds exactly when every segment is hex for exactly eight bytes, and then gives one unsigned 64-bit integer per segment |
| FindInstruction.DecodeInstructionData | find_instruction.py:8-19 | a decoded result has one integer per segment, each below 2^64; the integers the script prints for a hex string: its segments decoded; `DecodePacked` shows that packed integers decode back to themselves |
| FindInstruction.DecodePacked | find_instruction.py:8-19 | the hex of integers packed as the trading script packs them decodes to those integers |
| FindInstruction.BuyDiscriminatorBytes | find_instruction.py:5-8 | the buy data's first eight bytes `66063d1201daebea` are the buy discriminator packed little-endian |
| FindInstruction.BuyDiscriminatorDecodes | find_instruction.py:28 | those eight bytes decode to 16927863322537952870 |
| FindInstruction.SellDiscriminatorBytes | find_instruction.py:6 | the sell data's first eight bytes `33e685a4017f83ad` are the sell discriminator packed little-endian |
| FindInstruction.SellDiscriminatorDecodes | find_instruction.py:29 | those eight bytes decode to 12502976635542562355 |
| PumpProxy.Thrown | src/app/api/pump-proxy/route.ts:80-94 | a thrown error ends the retries exactly when it is 'Token not found' or 'Endpoint unavailable', and keeps its message either way |
| PumpProxy.Retrying | src/app/api/pump-proxy/route.ts:25-97 | it fetches at least once and never past the fifth attempt, waiting between fetches; the fetch loop from a given attempt on; `RetryingWaits`, `RetryingOutcome`, `RetryingShape` and `NotFoundIsNotRetried` state its waits, result and stopping rule |
| PumpProxy.Classify | src/app/api/pump-proxy/route.ts:30-76 | an HTML page is 'Endpoint unavailable', a 404 'Token not found', a 500 a retryable 'Internal server error'; data is returned exactly for a non-HTML OK response with non-empty JSON; only the two non-retried errors are fatal |
| PumpProxy.RetryingWaits | src/app/api/pump-proxy/route.ts:28-94 | between one and three fetches, with a wait of `1000 * 2^i` after every fetch `i` but the last |
| PumpProxy.RetryingOutcome | src/app/api/pump-proxy/route.ts:28-96 | every fetch but the last was retryable; the result is success exactly when the last fetch returned data, and carries that fetch's data or error |
| PumpProxy.RetryingShape | src/app/api/pump-proxy/route.ts:25-97 | the two lemmas above together: at most three fetches, doubling waits between them, and the last fetch decides the result |
| PumpProxy.NotFoundIsNotRetried | src/app/api/pump-proxy/route.ts:84-87 | a first fetch that fails with a non-retried error is the only fetch, with no wait |
| PumpProxy.RetryWaits | src/app/api/pump-proxy/route.ts:79-93 | the waits are one second and then two seconds, as many as there were retries |
| PumpProxy.FetchWithRetry | src/app/api/pump-proxy/route.ts:25-97 | the loop gives the same result, waits and fetch count as the recursive definition |
| PumpProxy.BaseMintAddress | src/app/api/pump-proxy/route.ts:18-20 | an address ending in 'pump' loses exactly that suffix; any other address is kept |
| PumpProxy.AlternateAddress | src/app/api/pump-proxy/route.ts:126-146 | the second address always differs from the first: the address without 'pump' when it ends so, otherwise with 'pump' added |
| PumpProxy.ErrorResponse | src/app/api/pump-proxy/route.ts:151-202 | status 404 exactly for 'Token not found', 503 exactly for 'Endpoint unavailable', 500 with the message as details for every other error |
| PumpProxy.Proxy | src/app/api/pump-proxy/route.ts:6-203 | a 400 exactly when the mint parameter is absent or empty, and at most two addresses fetched; the route's answer and the addresses it fetched; `ProxyOutcomes` states its cases both ways |
| PumpProxy.ProxyOutcomes | src/app/api/pump-proxy/route.ts:6-203 | a missing address is exactly the 400 case and fetches nothing; otherwise the given address is fetched first, and the alternate is fetched exactly when the first fetch ended in 'Token not found'; a 200 carries the last fetch's data, and every other answer is the error response for the last fetch's error |
| PumpProxy.Get | src/app/api/pump-proxy/route.ts:6-203 | the route's method gives what the definition above gives |
| PumpTwitter.SwapAccounts | pump_twitter.py:63-76 | a swap always names twelve accounts |
| PumpTwitter.SwapAccountsShape | pump_twitter.py:181-194 | in both swaps the wallet is the only signer, exactly the fee recipient, the curve, its token account, the user's token account and the wallet are writable, and the mint, the user's token account and the program sit at their fixed places |
| PumpTwitter.FeeTransfer | pump_twitter.py:100-108 | the fee transfer is a System Program instruction signed by the wallet whose eight data bytes read back as the fee amount |
| PumpTwitter.SwapData | pump_twitter.py:80-88 | the data exists exactly when both amounts are unsigned 64-bit integers, and is then 24 bytes long |
| PumpTwitter.Truncate | pump_twitter.py:45 | `int(x)` rounds toward zero: down for non-negative values, up for negative ones |
| PumpTwitter.Buy | pump_twitter.py:15-129 | no coin data and a slippage above 1 return early; a transaction is sent exactly when the keys parse, the SOL reserves are non-zero and all three amounts fit in 64 bits; it holds the compute-budget pair, the account creation only when the wallet has no token account, the buy swap and the fee transfer, in that order |
| PumpTwitter.Assemble | pump_twitter.py:92-109 | the instructions are the compute-unit price and limit, then the optional account creation, the swap and the optional fee transfer, in that order |
| PumpTwitter.Sell | pump_twitter.py:132-233 | no coin data and a slippage above 1 return early; an unparsable mint string or zero token reserves raise before the balance is read; a zero balance, given or fetched, then sells nothing even when the coin data's account keys do not parse; otherwise a transaction is sent exactly when a balance is known, the coin keys parse and both amounts fit in 64 bits, and it holds the compute-budget pair and the sell swap of `int(balance * 10**6)` tokens |
| PumpTwitter.PackedRoundTrip | pump_twitter.py:87-88 | packed integers unpack, and read back from their hex, as the same integers |
| PumpTwitter.BuyDataRoundTrip | pump_twitter.py:79-88 | buy data unpacks, and decodes from hex, to the buy discriminator, the token amount and the maximum SOL cost |
| PumpTwitter.SellDataRoundTrip | pump_twitter.py:197-206 | sell data unpacks, and decodes from hex, to the sell discriminator, the amount and the minimum SOL output |
| PumpTwitter.BuyDataStartsWithDiscriminator | pump_twitter.py:79-88 | whatever the amounts, buy data starts with the bytes `66063d1201daebea` |
| PumpTwitter.SellDataStartsWithDiscriminator | pump_twitter.py:197-206 | whatever the amounts, sell data starts with the bytes `33e685a4017f83ad` |
| Pumpbot.LoadExistingData | pumpbot.py:98-106 | a file holding a list gives that list; a missing or unparseable file gives the empty list |
| Pumpbot.LoadOrCreate | pumpbot.py:25-36 | reads like the later loader, and a missing file is created holding `[]` while any other file is left alone |
| Pumpbot.InitializeJsonFile | pumpbot.py:92-95 | afterwards the file exists and loads as before; an existing file is not touched |
| Pumpbot.ExpandedUrls | pumpbot.py:54 | keeps exactly the present links that start with 'https://pump.fun/' and end with 'pump', never more than the tweet has |
| Pumpbot.MaxId | pumpbot.py:42 | the largest id: no record exceeds it and some record has it |
| Pumpbot.NextId | pumpbot.py:39-42 | 1 for an empty file; otherwise above every id and exactly one more than the largest |
| Pumpbot.Filtered | pumpbot.py:44-63 | no more records than tweets, each with at least one URL; the records `filter_tweets` yields, numbered from the next id; `FilteredShape`, `FilteredAppend` and `FilteredOne` state their shape and order |
| Pumpbot.FilteredShape | pumpbot.py:44-63 | at most one record per tweet, ids consecutive from the next id, each record with a non-empty list of pump.fun links only |
| Pumpbot.FilteredAppend | pumpbot.py:47-62 | filtering a concatenation gives the first part's records followed by the second's, numbered on from where the first stopped |
| Pumpbot.FilteredOne | pumpbot.py:56-61 | a tweet gives a record exactly when it links a pump.fun token, and the record holds the next id, the screen name or '' and those links |
| Pumpbot.FilterTweets | pumpbot.py:44-63 | the loop gives the records of the definition, numbered from the file's next id |
| Pumpbot.UpdateJsonFile | pumpbot.py:67-74 | the file afterwards holds the old entries followed by the new records |
| Pumpbot.UpdateKeepsIdsDistinct | pumpbot.py:39-70 | appending filtered records to a file with distinct ids keeps the ids distinct |
| Pumpbot.SearchPass | pumpbot.py:136-159 | a reply with tweets appends their records to the results file; any other reply or failed request leaves it as it was |
| Pumpbot.ScreenNames | pumpbot.py:111 | every stored profile's screen name is in the set |
| Pumpbot.NewProfiles | pumpbot.py:114 | keeps exactly the batch's profiles whose screen name is not stored |
| Pumpbot.UpdateProfilesFile | pumpbot.py:109-120 | a batch with nothing new leaves the file as it was, and any change grows it; the profiles file after `update_profiles_file`; `UpdateProfilesAppends`, `BatchDuplicatesAllAppended` and `UpdateProfilesTwice` state what it appends |
| Pumpbot.UpdateProfilesAppends | pumpbot.py:109-120 | profiles with a stored screen name are skipped, the others appended after the stored ones, and nothing is rewritten when there is nothing to add |
| Pumpbot.BatchDuplicatesAllAppended | pumpbot.py:111-117 | two new profiles with the same screen name in one batch are both appended, since only the file is checked |
| Pumpbot.NewProfilesCovered | pumpbot.py:111-114 | every profile of a batch is either already named or among the added names |
| Pumpbot.NewProfilesNone | pumpbot.py:114-116 | a batch whose names are all stored adds nothing |
| Pumpbot.UpdateProfilesTwice | pumpbot.py:109-120 | saving the same batch a second time changes nothing |
| Pumpbot.FirstProfile | pumpbot.py:175-185 | at most one profile per tweet, carrying the tweet's id and one of its links |
| Pumpbot.IdsFrom | pumpbot.py:172-174 | exactly the ids of the results from the given index on |
| Pumpbot.PassProfiles | pumpbot.py:171-183 | at most one profile per remaining result; the profiles one pass collects from the results; `PassProfilesOncePerId` and `KnownResultsSkipped` state that each new id is handled once and known ids are skipped |
| Pumpbot.PassProfilesOncePerId | pumpbot.py:172-185 | the profiles of a pass have distinct ids, none already known, each from a result with that id and one of its links |
| Pumpbot.KnownResultsSkipped | pumpbot.py:173 | a pass over results whose ids are all known collects nothing, whatever the profile lookups answer |
| Pumpbot.LookUpAuthor | pumpbot.py:175-185 | the loop over a result's links stops at the first answered lookup and gives the profile of the definition |
| Pumpbot.PassStep | pumpbot.py:172-185 | one result of a pass: skipped when its id is known; otherwise its profile is collected and its id becomes known |
| Pumpbot.FollowersCheck.constructor | pumpbot.py:166 | the known ids start as the ids in the profiles file |
| Pumpbot.FollowersCheck.Pass | pumpbot.py:168-188 | the profiles collected are those of the definition, and every id of the results file is known afterwards |
| Pumpbot.LastPiece | pumpbot.py:204 | `split(sep)[-1]`: the whole string when the separator does not occur, otherwise a suffix that does not contain the separator and is preceded by it |
| Pumpbot.SuffixOfDrop | pumpbot.py:204 | a suffix of what is left after dropping a prefix is a suffix of the whole |
| Pumpbot.MintOfPumpUrl | pumpbot.py:203-204 | a pump.fun link with a mint that does not contain the prefix gives back that mint |
| Pumpbot.Triggered | pumpbot.py:202-206 | at most one mint per current profile |
| Pumpbot.TriggeredMembers | pumpbot.py:202-206 | a mint is bought exactly when a profile not seen in the previous pass, with a pump.fun link to it and more than 10000 followers, is in the file |
| Pumpbot.UnchangedFileBuysNothing | pumpbot.py:199-208 | a pass over profiles that were all there the previous pass buys nothing |
| Pumpbot.BuyWatcher.constructor | pumpbot.py:196-197 | the previous profiles start as the profiles file's contents |
| Pumpbot.BuyWatcher.Pass | pumpbot.py:199-208 | the mints bought are those of the definition, and the current profiles become the previous ones |
| Pumpbot.TriggeredSnoc | pumpbot.py:202-206 | the loop buys in file order: one more profile adds its mint at the end exactly when it triggers |
| Utils.ValueOf | utils.py:10-11 | `d[key]` is the value of an entry of the object with that key |
| Utils.FindData | utils.py:8-22 | a dict holding the field answers its value, and a scalar answers `None`; `find_data`: the field's own value when the object holds it, otherwise the first non-`None` answer from its values or a list's items; `FindDataSound`, `FindDataComplete` and `OwnNoneHidesNested` state what it finds |
| Utils.FindDataSound | utils.py:8-22 | whatever the search returns other than `None` is a value of the field reachable through objects that do not hold the field themselves |
| Utils.FindInValuesSound | utils.py:13-16 | the same for the search through an object's values |
| Utils.FindInItemsSound | utils.py:17-21 | the same for the search through a list's items |
| Utils.FindDataComplete | utils.py:8-22 | the search misses nothing: a reachable value other than `None` means a result other than `None` |
| Utils.FindInValuesComplete | utils.py:13-16 | the same for the search through an object's values |
| Utils.FindInItemsComplete | utils.py:17-21 | the same for the search through a list's items |
| Utils.OwnNoneHidesNested | utils.py:10-11 | an object holding the field answers with its value even when that is `None`, hiding a nested value |
| Utils.CountRaised | utils.py:85-87 | the number of exceptions is at most the number of attempts |
| Utils.Confirm | utils.py:70-90 | at the retry limit it gives up, a confirmation needs a poll with no error, and a failure needs a truthy error; how `confirm_txn` ends over a sequence of polls; `GaveUpCountsExceptions`, `ExceptionsGiveUp`, `FalsyErrNeverEnds` and `ConfirmedAfter` state its outcomes |
| Utils.ConfirmTxn | utils.py:70-90 | the loop ends as the definition says: confirmed on an `err` of `None`, failed on a truthy `err`, given up after `max_retries` exceptions |
| Utils.GaveUpCountsExceptions | utils.py:74-89 | giving up needs at least as many exceptions as retries were left; other attempts never count |
| Utils.ExceptionsGiveUp | utils.py:85-90 | exceptions on every attempt give up after exactly `max_retries` of them |
| Utils.FalsyErrNeverEnds | utils.py:78-84 | a falsy `err` that is not `None` neither confirms nor fails nor counts a retry, however often it comes |
| Utils.ConfirmedAfter | utils.py:74-80 | an `err` of `None` confirms when fewer exceptions than the limit, and only falsy errors, came before it |
| Utils.GetCoinData | utils.py:46-68 | the parsed body of a 200 reply; `None` for any other status, an unparseable body or an exception |
| Utils.GetTokenBalance | utils.py:24-44 | `None` when the request raises or the body is not JSON; otherwise the first `uiAmount` `find_data` reaches decides: a number is the balance, `True`/`False` give 1 and 0, anything else gives `None` |
| Sorting.Insert | src/components/TwitterFeed.tsx:807-809 | inserting one tweet makes the list one longer |
| Sorting.InsertPermutes | src/components/TwitterFeed.tsx:807-809 | inserting adds that tweet and keeps every other |
| Sorting.InsertSorted | src/components/TwitterFeed.tsx:807-809 | inserting into a list ordered newest first keeps it ordered |
| Sorting.SortDesc | src/components/TwitterFeed.tsx:807-809 | sorting keeps the length |
| Sorting.SortDescPermutes | src/components/TwitterFeed.tsx:807-809 | sorting keeps exactly the same tweets, duplicates included |
| Sorting.SortDescSorted | src/components/TwitterFeed.tsx:807-809 | the sorted list is newest first by creation time |
| Sorting.SortConstantKey | src/components/TwitterFeed.tsx:807-809 | when every element has the same key the sort returns the list unchanged, the case a comparator that always answers "equal" reaches |
| Sorting.PrefixKeepsNewest | src/components/TwitterFeed.tsx:807-811 | cutting a newest-first list after `n` elements drops nothing newer than anything it keeps |
| Text.IndexOf | src/components/TwitterFeed.tsx:877-878 | the leftmost position where the text occurs, or none when it occurs nowhere |
| Text.ToLower | src/contexts/BlacklistContext.tsx:71 | lower-casing keeps the length and maps every character on its own |
| Text.TrimStart | src/contexts/BlacklistContext.tsx:71 | removes exactly the leading whitespace: what is left is a suffix that starts with a non-space, and everything removed is whitespace |
| Text.TrimEnd | src/contexts/BlacklistContext.tsx:71 | removes exactly the trailing whitespace, symmetrically |
| Text.Trim | src/contexts/BlacklistContext.tsx:71 | a non-empty trimmed string starts and ends with a non-space |
| Text.LowerCharKeepsSpace | src/contexts/BlacklistContext.tsx:71 | lower-casing a character neither creates nor removes whitespace |
| Text.TrimStartOfLower | src/contexts/BlacklistContext.tsx:71 | lower-casing commutes with trimming the start |
| Text.TrimEndOfLower | src/contexts/BlacklistContext.tsx:71 | lower-casing commutes with trimming the end |
| Text.TrimOfLower | src/contexts/BlacklistContext.tsx:71 | lower-casing commutes with trimming |
| Text.TrimStartIdempotent | src/contexts/BlacklistContext.tsx:71 | trimming the start twice is trimming it once |
| Text.TrimIdempotent | src/contexts/BlacklistContext.tsx:71 | trimming twice is trimming once |
| Text.ToLowerIdempotent | src/contexts/BlacklistContext.tsx:71 | lower-casing twice is lower-casing once |
| Text.NormalizeIdempotent | src/contexts/BlacklistContext.tsx:71-85 | normalising an already normalised name changes nothing, so stored names match their own lookups |
| Text.NormalizeOfTrim | src/components/TradingSettings.tsx:501-502 | trimming before the context normalises changes nothing |
| Text.NormalizeEmptyIffBlank | src/contexts/BlacklistContext.tsx:43-44 | a name normalises to the empty string exactly when it is blank |
| Text.DedupMembers | src/contexts/BlacklistContext.tsx:73 | `[...new Set(s)]` has exactly the values of `s`, each once |
| Text.DedupOfDistinct | src/contexts/BlacklistContext.tsx:73 | a list without duplicates is its own deduplication |
| Text.RemoveAll | src/contexts/BlacklistContext.tsx:79 | the filter keeps exactly the other values, never grows the list, and changes nothing when the value is absent |
| Text.RemoveAllAppend | src/contexts/BlacklistContext.tsx:79 | filtering a concatenation filters each part |
| Text.DecimalString | src/app/api/pump-proxy/route.ts:61 | `String(n)` is a non-empty string of digits, of at least two digits from ten on |
| Text.DecimalStringReadsBack | src/app/api/pump-proxy/route.ts:61 | the digits of `String(n)` read back, most significant first, as `n` |
| TradingContext.Placed | src/contexts/TradingContext.tsx:195-200 | the new order is the given order with the generated id and the clock reading, and nothing else changed |
| TradingContext.Merge | src/contexts/TradingContext.tsx:215 | an update's status replaces the order's; an update of the status alone changes only the status |
| TradingContext.WithoutId | src/contexts/TradingContext.tsx:211-221 | keeps exactly the orders with another id; a list without that id is unchanged |
| TradingContext.MergeInto | src/contexts/TradingContext.tsx:214-216 | same length; orders with another id are untouched and every order with the id gets the update |
| TradingContext.WithoutRemoved | src/contexts/TradingContext.tsx:162 | keeps exactly the orders not marked removed |
| TradingContext.UpdatedOrders | src/contexts/TradingContext.tsx:205-218 | no update leaves the list as it was, removal drops exactly the id's orders, and a merge keeps the length; the list `updateOrder` leaves; `RemovedStatusDeletes`, `AnyStatusOverwrites` and `OrderStore.UpdateOrder` state its cases |
| TradingContext.OrderStore.constructor | src/contexts/TradingContext.tsx:151 | the order list starts empty |
| TradingContext.OrderStore.AddOrder | src/contexts/TradingContext.tsx:195-203 | the new order goes to the front of the list and is returned |
| TradingContext.OrderStore.UpdateOrder | src/contexts/TradingContext.tsx:205-218 | falsy updates change nothing; a removal deletes every order with the id; any other update merges into every order with the id |
| TradingContext.OrderStore.RemoveOrder | src/contexts/TradingContext.tsx:220-222 | every order with the id goes and the rest keep their order |
| TradingContext.OrderStore.CleanupRemoved | src/contexts/TradingContext.tsx:157-165 | the clean-up drops the orders marked removed and keeps the rest in order |
| TradingContext.RemovedStatusDeletes | src/contexts/TradingContext.tsx:210-212 | marking an order removed deletes every order with that id and keeps all the others |
| TradingContext.AnyStatusOverwrites | src/contexts/TradingContext.tsx:214-216 | there is no transition check: any status but 'removed' overwrites any other, in place |
| TradingContext.CleanupKeepsLiveOrders | src/contexts/TradingContext.tsx:162 | after the clean-up no order is marked removed and every other order is still there |
| TradingContext.NumberOr | src/contexts/TradingContext.tsx:118 | the stored number or its default: a non-zero number is kept; an absent item, NaN and zero give the default |
| TradingContext.LoadSettings | src/contexts/TradingContext.tsx:79-149 | without a window or storage every setting is its default; otherwise each flag is on exactly when its stored item is 'true', the key is the stored one or empty, and each numeric setting is the stored number unless that is missing, NaN or zero, when it is the default; no numeric setting is ever zero |
| Types.TweetTypeNamed | src/services/twitterService.ts:214-219 | a query type names a tweet type exactly when it is 'pumpfun' or 'dexscreener', and the type's name is that text |
| Types.OrElse | src/services/heliusService.ts:50-52 | a string or its fallback: the string when present and non-empty, the fallback otherwise |
| Transaction.Classify | src/pumpFunClient.ts:160-221 | success exactly when the transaction was sent and neither the confirmation nor the status check reports an error; a signature exactly when it was sent and then either succeeded or failed on chain, and it is the one `sendRawTransaction` returned; an error exactly on failure; a failed signing without the wallet's signature is 'Transaction signing failed' |
| Transaction.VersionedTransaction.constructor | src/pumpFunClient.ts:160-162 | the transaction starts with the given blockhash and signing state |
| Transaction.ExecuteTransaction | src/pumpFunClient.ts:160-221 | the steps in order give the result above; the blockhash is set once one is obtained, and the wallet's signature is added when signing succeeds |
| Transaction.ChainErrorKeepsSignature | src/pumpFunClient.ts:196-211 | a chain error fails the execution, keeps the signature and reports 'Transaction failed: ' followed by the error |
| PumpFunClient.WithinAgeIsSecondsTest | src/pumpFunClient.ts:412-415 | the age test kept in whole milliseconds is the source's test in seconds against the limit in minutes |
| PumpFunClient.AutoBuyCriteria | src/pumpFunClient.ts:390-431 | when it holds, the follower check or the age check passed; auto-buy on, some check enabled and every enabled check passing; `ShouldBuyToken` is true exactly when it holds, given settings and tweet data |
| PumpFunClient.ShouldBuyToken | src/pumpFunClient.ts:376-440 | missing settings or tweet data always buy; otherwise it buys exactly when auto-buy is on, at least one check is enabled and every enabled check passes |
| PumpFunClient.ShouldBuyTokenTable | src/pumpFunClient.ts:384-439 | the outcome for each combination of enabled checks, and no buy with the age check on and a missing or zero creation time |
| PumpFunClient.NextAttemptBound | src/pumpFunClient.ts:457-470 | a stored attempt count always stays between 1 and 3 |
| PumpFunClient.FourAttemptsInWindow | src/pumpFunClient.ts:457-470 | four attempts on a fresh mint within one minute: the first three pass and the fourth is refused |
| PumpFunClient.WindowExpiryResets | src/pumpFunClient.ts:460-462 | once more than a minute has passed since the window opened, the count starts over at 1 |
| PumpFunClient.BuyVerdict | src/pumpFunClient.ts:492-508 | `autoBuy` reports success exactly when the inner buy succeeded with a non-empty signature, and passes that signature on; any failure carries a non-empty error and no signature |
| PumpFunClient.QuoteRequest | src/pumpFunClient.ts:223-230 | the quote request of `buy`: the lamports are absent (NaN) exactly when the amount is, otherwise the amount in SOL times 10^9; the basis points are the floor of the slippage times 100, and 25 for the default slippage |
| PumpFunClient.Client.constructor | src/pumpFunClient.ts:81-92 | the client starts with its settings, no last buy and no attempts |
| PumpFunClient.Client.AutoBuy | src/pumpFunClient.ts:442-517 | within two seconds of the last buy it is rate-limited with nothing changed; a fourth attempt within the window is refused with nothing changed; otherwise the attempt is counted, and only a call with coin data that meets the criteria records the buy time and reports the inner buy's verdict; the inner buy is made exactly then, with settings, and its quote request is `QuoteRequest` of the settings' buy amount and slippage |
| PumpFunClient.BuyFlow | src/pumpFunClient.ts:223-297 | success exactly when quote and swap were obtained, the token account existed or was created, and the swap succeeded; the swap is executed exactly then and always last; account creation, when executed, comes first |
| PumpFunClient.Buy | src/pumpFunClient.ts:223-297 | the method returns and executes what the flow above describes |
| PumpFunClient.BuyFailsEarly | src/pumpFunClient.ts:241-249 | a missing quote or swap transaction fails before anything is executed |
| PumpFunClient.BuyStopsAfterFailedAccountCreation | src/pumpFunClient.ts:258-285 | a failed account creation ends the buy with 'Failed to create token account' and no swap |
| PumpFunClient.BuyIgnoresOutAmount | src/pumpFunClient.ts:241-288 | the quote's `outAmount` is never read: any two quotes give the same outcome |
| PumpFunClient.SellFlow | src/pumpFunClient.ts:299-336 | success exactly when quote and swap were obtained and the swap succeeded; a missing quote gives 'Failed to get quote' |
| PumpFunClient.Sell | src/pumpFunClient.ts:299-336 | the method returns what the flow above describes |
| PumpFunClient.QuoteSlippageBps | src/pumpFunClient.ts:130 | the slippage in basis points is the floor of `slippage * 100` when that is non-zero, and 100 when it is zero (so any slippage below 0.01 asks for 100) |
| PumpFunClient.PriceQuoteAmount | src/pumpFunClient.ts:340 | a missing or zero amount from the settings is replaced by 0.1 SOL; any other amount is used as it is |
| PumpFunClient.GetTokenPrice | src/pumpFunClient.ts:338-374 | a price exactly when the quote has a non-zero integer `outAmount`, and then price times `outAmount` is the lamports quoted |
| PurchasedTokens.SolOf | src/components/PurchasedTokens.tsx:55 | the balance in SOL times `LAMPORTS_PER_SOL` is the balance in lamports, and it has the same sign |
| PurchasedTokens.MapMint | src/components/PurchasedTokens.tsx:248-260 | same length; holdings of the mint are transformed and every other holding is kept |
| PurchasedTokens.FindIndex | src/components/PurchasedTokens.tsx:266-267 | the first holding of the mint, or none exactly when no holding has that mint |
| PurchasedTokens.ClampSellAmount | src/components/PurchasedTokens.tsx:252-253 | the amount clamped to between zero and the balance; an amount already in range is kept |
| PurchasedTokens.SetSellAmount | src/components/PurchasedTokens.tsx:247-261 | only holdings of the mint change, and only in their sell amount, now within the balance, and their cleared error; an amount in range is taken as it is |
| PurchasedTokens.SetSellAmountTwice | src/components/PurchasedTokens.tsx:247-261 | setting an amount twice keeps only the second |
| PurchasedTokens.SellArgumentAsWritten | src/components/PurchasedTokens.tsx:279 | as written, `sell` receives the share sold in percent: more than 0 and at most 100, the chosen amount over the balance times 100 |
| PurchasedTokens.SellArgument | src/components/PurchasedTokens.tsx:270-286 | corrected, `sell` receives the chosen token amount, so the quote asks for exactly that many tokens |
| PurchasedTokens.PercentageSoldAsTokens | src/components/PurchasedTokens.tsx:279-286 | choosing 500 of 1000 tokens asks, as written, for a quote on 50 tokens, where the corrected call asks for 500 |
| PurchasedTokens.AsWrittenAgreesOnlyAtHundred | src/components/PurchasedTokens.tsx:279-286 | the two arguments agree exactly when the balance is 100 tokens |
| PurchasedTokens.AfterSell | src/components/PurchasedTokens.tsx:287-304 | after a sell the mint's holdings stop loading, and their sell amount is zero on success and unchanged otherwise |
| PurchasedTokens.FailedSellClearsAmountAsWritten | src/components/PurchasedTokens.tsx:286-290 | a failed sell still clears the chosen amount as written, since the result object is always truthy; the corrected test keeps it |
| PurchasedTokens.ReplyError | src/components/PurchasedTokens.tsx:102-131 | the panel's error for a failed reply: the HTTP status message, the RPC error's message, or the thrown message with its fallback |
| PurchasedTokens.PumpOnly | src/components/PurchasedTokens.tsx:112 | keeps exactly the items whose lower-cased id ends with 'pump' |
| PurchasedTokens.PumpOnlyAppend | src/components/PurchasedTokens.tsx:112 | the filter keeps reply order: filtering a concatenation concatenates the filtered parts |
| PurchasedTokens.CarriedSellAmount | src/components/PurchasedTokens.tsx:121 | the sell amount of the first old holding of the mint, or zero for a new mint |
| PurchasedTokens.Rebuild | src/components/PurchasedTokens.tsx:111-122 | no more holdings than items, none loading and none in error; the holdings rebuilt from a reply; `RebuildKeepsSellAmounts` and `RebuildKeepsPumpMints` state which items and sell amounts they hold |
| PurchasedTokens.RebuildKeepsSellAmounts | src/components/PurchasedTokens.tsx:111-122 | the rebuilt list holds exactly the pump.fun items in reply order, none loading or in error, each keeping the sell amount its mint had, zero for a new mint |
| PurchasedTokens.RebuildKeepsPumpMints | src/components/PurchasedTokens.tsx:111-112 | every rebuilt holding is a pump.fun mint |
| PurchasedTokens.NumberOrKeep | src/components/PurchasedTokens.tsx:186-187 | a non-zero reported price replaces the old one; a missing or zero one keeps it |
| PurchasedTokens.FindPrice | src/components/PurchasedTokens.tsx:180-182 | the price item found is the first of the reply's items with that mint (no earlier item has it), and none means no item has that mint |
| PurchasedTokens.UpdatePrices | src/components/PurchasedTokens.tsx:179-189 | the same mints and sell amounts in the same order; the holdings with a reply's prices merged in; `UpdatePricesOnlyPrices` states what changes |
| PurchasedTokens.UpdatePricesOnlyPrices | src/components/PurchasedTokens.tsx:179-189 | merging prices changes only the two price fields, a price changes only to a non-zero value reported for that mint, and a mint the reply lacks is unchanged |
| PurchasedTokens.WaitSeconds | src/components/PurchasedTokens.tsx:312 | the seconds still to wait, rounded up: at least 1 and at most 60 |
| PurchasedTokens.HoldingsAfterSale | src/components/PurchasedTokens.tsx:281-292 | without a refreshed reply the holdings keep their mints and length, and the sold mint is no longer loading; the holdings a sale leaves as written; `Panel.HandleSellToken` and `Panel.SellHolding` state that the sale ends with them |
| PurchasedTokens.Panel.constructor | src/components/PurchasedTokens.tsx:31-42 | the panel starts with no holdings, a zero balance, no error and no refresh yet |
| PurchasedTokens.Panel.HandleSellAmountChange | src/components/PurchasedTokens.tsx:247-261 | the holdings become those of `SetSellAmount`; nothing else changes |
| PurchasedTokens.Panel.FetchTokenHoldings | src/components/PurchasedTokens.tsx:65-137 | without a key or during a refresh it only records that one is needed; unforced within a minute it does nothing; otherwise it refreshes: the balance in SOL, the rebuilt holdings and the refresh time on success, the reply's error with the holdings kept on failure, and the update always ends |
| PurchasedTokens.Panel.Refresh | src/components/PurchasedTokens.tsx:75-136 | the refresh itself: the balance error or the reply's error, the rebuilt holdings and the new refresh time exactly when the reply has items, and the loading flag down again |
| PurchasedTokens.Panel.FetchTokenPrices | src/components/PurchasedTokens.tsx:139-197 | an empty list or a failed reply changes nothing; otherwise the holdings get the merged prices; nothing else changes |
| PurchasedTokens.Panel.HandleSellToken | src/components/PurchasedTokens.tsx:263-305 | a missing key, client or holding changes nothing; an invalid amount marks the holding and changes nothing else; otherwise `sell` is called with the share chosen in percent (`SellArgumentAsWritten`) and its result is the sell flow's; the refresh starts exactly when none is running and a minute has passed; the holdings are `HoldingsAfterSale` (amount cleared whether or not the sale succeeded, rebuilt from the reply after a started refresh, the mint no longer loading), and the error, time and balance are the refresh's when it started and unchanged otherwise |
| PurchasedTokens.Panel.SellHolding | src/components/PurchasedTokens.tsx:278-304 | the sale is recorded with the percentage `SellArgumentAsWritten` passes to `sell`; the success branch runs whatever `sell` reports; the refresh starts exactly when none is running and a minute has passed; the holdings are `HoldingsAfterSale` of the old list, and error, time and balance are the refresh's when it started, unchanged otherwise; loading and the update flag are unchanged |
| PurchasedTokens.Panel.ResetAfterSale | src/components/PurchasedTokens.tsx:289-292 | the amount goes back to zero and an unforced refresh is asked for; it starts exactly when none is running and a minute has passed, and then rebuilds the cleared list from the reply and sets the error, time and balance as a refresh does; otherwise nothing else changes |
| PurchasedTokens.Panel.HandleRefreshClick | src/components/PurchasedTokens.tsx:307-315 | once a minute has passed it starts a forced refresh exactly when there is a key and no refresh running; before that it only shows the seconds left |
| TwitterFeed.ShouldBuyBasedOnUserTable | src/components/TwitterFeed.tsx:330-360 | a blacklisted user is never bought from; a buylisted one always is; anyone else only when some check is enabled and every enabled check passes |
| TwitterFeed.ShouldBuyBasedOnUser | src/components/TwitterFeed.tsx:330-360 | a yes needs a user that is not blacklisted and is buylisted or meets an enabled check; the user decision of `shouldBuyBasedOnUser`; `ShouldBuyBasedOnUserTable` gives its truth table |
| TwitterFeed.FeedAgeMatchesClientAge | src/components/TwitterFeed.tsx:339-345 | the feed's age in minutes is within the limit exactly when the pump.fun client's age test in seconds passes |
| TwitterFeed.CheckAndAutoBuyGuards | src/components/TwitterFeed.tsx:314-375 | no auto-buy without an enable time, for a tweet older than it, from a blacklisted user, for a tweet already given a signature, or for a mint already bought |
| TwitterFeed.CheckAndAutoBuy | src/components/TwitterFeed.tsx:314-375 | a tweet is handed on only with a mint not yet purchased and auto-buy on; when `checkAndAutoBuy` hands a tweet on; `CheckAndAutoBuyGuards` and `BuylistedUserIgnoresCriteria` state its guards |
| TwitterFeed.BuylistedUserIgnoresCriteria | src/components/TwitterFeed.tsx:330-373 | for a buylisted user who is not blacklisted, the decision does not depend on the follower count or on the token's age |
| TwitterFeed.AutoBuyStageOf | src/components/TwitterFeed.tsx:197-312 | a buy is recorded only for a fresh mint and tweet, with a client, past its source's gate and with a result that has a signature, which it keeps; a failed buy has a non-empty message |
| TwitterFeed.BoughtOnlyOnce | src/components/TwitterFeed.tsx:200-265 | once a mint was bought, no later call buys that mint, or anything for that tweet, again |
| TwitterFeed.DexGateIgnoresRefusal | src/components/TwitterFeed.tsx:230-235 | with the follower check on, the Dexscreener client refuses every token; as written the gate still lets the buy through, and the awaited gate stops it |
| TwitterFeed.AwaitedDexGateHonoursClient | src/components/TwitterFeed.tsx:230-235 | with the answer awaited, a Dexscreener tweet is bought only when the client approves, and a refusal stops a fresh tweet at the gate |
| TwitterFeed.PumpFunAutoBuyBuysTwice | src/components/TwitterFeed.tsx:225-253 | a pump.fun tweet is recorded as bought only when the purchase inside `autoBuy` and the feed's own buy both succeeded with a signature: two purchases |
| TwitterFeed.AutoBuyRequestIgnoresSettings | src/components/TwitterFeed.tsx:695-706 | the client the feed builds has no buy amount or slippage, so the purchase inside `autoBuy` asks for NaN lamports at 25 basis points whatever the trading settings hold |
| TwitterFeed.FirstMatch | src/components/TwitterFeed.tsx:673 | the leftmost position from where the search starts at which the pattern matches, and none exactly when there is no match there or after |
| TwitterFeed.AlnumRun | src/components/TwitterFeed.tsx:673 | the longest prefix made of letters and digits: every character is one, and the next character is not |
| TwitterFeed.MatchCapture | src/components/TwitterFeed.tsx:672-678 | the captured group is a non-empty run of letters and digits, and there is none exactly when the pattern matches nowhere |
| TwitterFeed.ExtractMintAddress | src/components/TwitterFeed.tsx:668-680 | a tweet without links has no mint address, and an address found is never empty |
| TwitterFeed.AlnumRunOfAlnum | src/components/TwitterFeed.tsx:673 | the run taken from a word of letters and digits followed by anything else is that word |
| TwitterFeed.FirstMatchAt | src/components/TwitterFeed.tsx:673 | a search finds a matching position when every position before it does not match |
| TwitterFeed.NoMatchInScheme | src/components/TwitterFeed.tsx:673 | the pump.fun pattern cannot start inside a link's `https://` |
| TwitterFeed.ExtractFromCoinUrl | src/components/TwitterFeed.tsx:668-675 | the link `https://pump.fun/coin/<mint>` followed by a non-alphanumeric tail yields exactly the mint |
| TwitterFeed.ExtractReadsFirstUrlOnly | src/components/TwitterFeed.tsx:669 | adding links after the first never changes the mint address |
| TwitterFeed.Localize | src/components/TwitterFeed.tsx:766-790 | the local tweet keeps the id and time and takes the batch's source type |
| TwitterFeed.Admit | src/components/TwitterFeed.tsx:758-800 | no more tweets are kept than came in, and on an initial load all of them are |
| TwitterFeed.AdmitCons | src/components/TwitterFeed.tsx:758-798 | a marked tweet is skipped; an unmarked one is kept, and is marked before the next check exactly when it has no mint address to look up |
| TwitterFeed.MarkedTweetsDropped | src/components/TwitterFeed.tsx:760-763 | on a non-initial load no tweet marked before the batch is kept |
| TwitterFeed.RepeatedTweetInBatch | src/components/TwitterFeed.tsx:758-798 | a tweet twice in one batch is kept once when it has no mint address and twice when it has one, since its mark is stored only after its lookups |
| TwitterFeed.AdmitBatch | src/components/TwitterFeed.tsx:758-800 | the loop keeps exactly the tweets of `Admit`, and afterwards every kept tweet is marked unless the load is initial |
| TwitterFeed.MergeFeed | src/components/TwitterFeed.tsx:803-811 | at most 100 tweets; the new tweets and the shown ones, newest first, cut at 100; `MergeFeedKeepsNewest` states its order, bound and evictions |
| TwitterFeed.MergeFeedKeepsNewest | src/components/TwitterFeed.tsx:803-811 | the merged list is sorted newest first, holds at most 100 tweets, all from the new and the shown ones, loses none while they fit, and every tweet dropped past 100 is no newer than every tweet kept |
| TwitterFeed.FilteredTweets | src/components/TwitterFeed.tsx:870-890 | a tweet is shown exactly when it is in the list and matches the search in its text or its user's name, its source is active and it passes the follower filter |
| TwitterFeed.UnfilteredShowsAll | src/components/TwitterFeed.tsx:870-884 | with no search, both sources active and the follower filter off, the whole list is shown in order |
| TwitterFeed.TruncateText | src/components/TwitterFeed.tsx:453-456 | short text is kept; longer text becomes its first `maxLength` characters followed by `...` |
| TwitterFeed.Feed.constructor | src/components/TwitterFeed.tsx:51-87 | the feed starts empty and unpaused, with the saved mints as already processed and no signatures or loading buttons |
| TwitterFeed.Feed.HandleAutoBuy | src/components/TwitterFeed.tsx:197-312 | the call ends at the stage `AutoBuyStageOf` gives for the un-awaited Dexscreener check, so a Dexscreener tweet never stops at the gate; only a buy records the mint, the tweet and the signature; an order is placed and settled exactly when a buy was attempted; the shown tweets are unchanged |
| TwitterFeed.Feed.PlaceOrder | src/components/TwitterFeed.tsx:237-311 | a pending order is placed, then marked successful with the signature, or failed with the error or 'Transaction failed'; only success records the mint, tweet and signature; the button stops loading |
| TwitterFeed.Feed.Absorb | src/components/TwitterFeed.tsx:757-812 | the admitted tweets are merged into the shown list when there are any, and their marks are stored |
| TwitterFeed.Feed.HandleNewTweets | src/components/TwitterFeed.tsx:748-821 | a paused feed changes nothing; otherwise the admitted tweets are merged newest first and their marks stored; the auto-buy state is untouched |
| TwitterService.TokenInfoOf | src/services/twitterService.ts:122-129 | token information exists exactly when the raw tweet carries it, and keeps its symbol and price |
| TwitterService.TransformTweet | src/services/twitterService.ts:104-186 | the id, counters, mint address and token information are carried over and the source type starts as pump.fun; the text is `full_text`, else `text`, and empty exactly when neither is present; a tweet without text gets no links, no quoted tweet and the current time, any other the links followed by the media and its own time (else the current one) |
| TwitterService.RawQuoteIds | src/services/twitterService.ts:39 | the chain of quoted raw tweets starts with the tweet itself |
| TwitterService.QuoteIds | src/services/twitterService.ts:180-182 | the chain of quoted tweets starts with the tweet itself |
| TwitterService.TransformKeepsQuoteChain | src/services/twitterService.ts:104-186 | the transformed quote chain is a prefix of the raw one, and a tweet without any text loses its quoted tweet |
| TwitterService.TransformBatch | src/services/twitterService.ts:212-216 | one tweet per raw tweet, in order, each with its id and the message's query type |
| TwitterService.Pow2 | src/services/twitterService.ts:261 | a power of two is at least 1 |
| TwitterService.ReconnectDelay | src/services/twitterService.ts:261 | the delay is between one and ten seconds, and is either the cap or one second doubled once per earlier attempt |
| TwitterService.ReconnectDelays | src/services/twitterService.ts:261 | the delays of attempts 0 to 4 are 1, 2, 4, 8 and 10 seconds |
| TwitterService.ScheduleFromAttempts | src/services/twitterService.ts:255-266 | consecutive closes schedule the delays of the attempts that remain, one each, until five attempts are used, then nothing |
| TwitterService.ScheduleFromOpen | src/services/twitterService.ts:255-266 | after an open, closes schedule at most the delays 1, 2, 4, 8 and 10 seconds, in this order |
| TwitterService.SubscriptionsFor | src/services/twitterService.ts:242-253 | one subscription message per search configuration, in order, carrying its URL pattern and type |
| TwitterService.DeliveriesTo | src/services/twitterService.ts:223-225 | every subscriber is called once with the batch and its type, in subscription order |
| TwitterService.Batch | src/services/twitterService.ts:205-226 | a message yields a batch exactly when it is a `tweets` envelope with an array of tweets and a known query type; the batch has that type and one tweet per item |
| TwitterService.CachedOrderIsNewestFirst | src/services/twitterService.ts:277-279 | the intended cache order is newest first and holds the same tweets |
| TwitterService.CachedOrderAsWritten | src/services/twitterService.ts:277-279 | a permutation of the cache; the order the as-written comparator gives; `CachedOrderAsWrittenIsArrival` proves it is the arrival order |
| TwitterService.CachedOrderAsWrittenIsArrival | src/services/twitterService.ts:277-279 | as written the comparator only sees NaN, so the cache comes back in arrival order |
| TwitterService.CachedOrderAsWrittenNotNewestFirst | src/services/twitterService.ts:277-279 | an older tweet that arrived first stays first as written, where the intended order puts it second |
| TwitterService.SubscribeThenUnsubscribe | src/services/twitterService.ts:268-275 | subscribing and then calling the returned function leaves the list as `unsubscribe` alone does, and as it was when the callback was not in it |
| TwitterService.Service.constructor | src/services/twitterService.ts:80-95 | the service starts with no attempts, no subscribers and empty caches, and creates its first socket, connecting, only in a browser |
| TwitterService.Service.Connect | src/services/twitterService.ts:188-194 | while the current socket is open nothing changes; otherwise a new socket is created, connecting, and becomes the current one |
| TwitterService.Service.OnOpen | src/services/twitterService.ts:199-203 | the socket that opened, current or replaced, is open; the attempts start over; one subscription per configuration is sent exactly when the current socket is open afterwards; `this.ws` is unchanged |
| TwitterService.Service.OnClose | src/services/twitterService.ts:232-235 | the socket that closed, current or replaced, is closed and `this.ws` is unchanged, so a replaced socket's close leaves the current socket as it was; the next delay is scheduled while fewer than five attempts were made, and the attempt counted |
| TwitterService.Service.OnMessage | src/services/twitterService.ts:205-230 | a message with a batch appends it to its type's cache alone and calls every subscriber once with it; any other message changes nothing |
| TwitterService.Service.Subscribe | src/services/twitterService.ts:268-271 | the callback is added at the end of the subscribers |
| TwitterService.Service.Unsubscribe | src/services/twitterService.ts:273-275 | every occurrence of the callback is removed and every other subscriber stays, in order |
| TwitterService.Service.GetCachedTweets | src/services/twitterService.ts:277-279 | returns the type's cache in the order the as-written comparator leaves it, which is the arrival order, leaves the cache itself unchanged, and leaves the other type's cache unchanged |
| TwitterService.Service.Disconnect | src/services/twitterService.ts:281-291 | the current socket is closed, and then no socket, no subscribers and both caches empty |
| TwitterService.Service.Reconnect | src/services/twitterService.ts:293-300 | the current socket is closed, the attempts start over and a new, connecting socket becomes the current one |
| TwitterService.AfterClose | src/services/twitterService.ts:295-297 | `close()` makes a connecting or open socket closing and leaves a closing or closed one as it is; it is never open afterwards |
| TwitterService.ReplacedSocketCloseKeepsNewOne | src/services/twitterService.ts:293-300 | after `reconnect()` and the new socket's open event, the old socket's close keeps the new socket current and open, counts one attempt and schedules one reconnect after a second; the scheduled `connect()` creates no third socket |
| TradingSettings.SettingsPanel.constructor | src/components/TradingSettings.tsx:51-62 | the panel starts with no wallet shown, no error, no dialog and empty inputs, and keeps the stored key and switch |
| TradingSettings.SettingsPanel.HandleAutoBuyToggle | src/components/TradingSettings.tsx:173-182 | switching on only opens the confirmation and never enables auto-buy; switching off takes effect at once; the dialog stays open exactly while a switch-on is pending |
| TradingSettings.SettingsPanel.ConfirmAutoBuy | src/components/TradingSettings.tsx:184-188 | auto-buy is on and the dialog is closed |
| TradingSettings.SettingsPanel.CancelAutoBuy | src/components/TradingSettings.tsx:190-193 | the dialog closes and the switch shows the setting as it was |
| TradingSettings.SettingsPanel.HandlePrivateKeyChange | src/components/TradingSettings.tsx:113-121 | a value that decodes is stored and clears the error; any other value keeps the key and sets 'Invalid private key format' |
| TradingSettings.SettingsPanel.HandleImportClick | src/components/TradingSettings.tsx:152-171 | the first click clears the wallet and opens the import; the next revalidates a non-empty key and closes the import, or asks for a key and stays open |
| TradingSettings.SettingsPanel.AddBlacklistedUser | src/components/TradingSettings.tsx:500-505 | blank input does nothing; otherwise the trimmed name is added to the blacklist and the input emptied |
| TradingSettings.SettingsPanel.AddBuylistedToken | src/components/TradingSettings.tsx:543-548 | blank input does nothing; otherwise the trimmed entry is added to the buylist, is then in it, and the input is emptied |

## Left out

- Network, chain and wallet access is not modelled. Every HTTP, RPC,
  WebSocket and Jupiter call becomes an input value or a sequence of
  replies.
- Cryptography is not modelled: signing and serialising transactions,
  base58 (`bs58`), `Keypair`, program-derived and associated token
  addresses. Whether a key decodes is a boolean parameter. Derived
  addresses are given.
- `Signature.from_string` and `VersionedTransaction.deserialize` parse
  foreign formats and become given values.
- Floating point is not modelled. Prices, lamport conversions and market
  caps are exact `real` arithmetic with no rounding. `toFixed`, number
  formatting and the `parseFloat` input handlers are left out.
- Date parsing and formatting are left out. Timestamps are integers, and
  `tweet_created_at` arrives already converted.
- Timers (`setTimeout`, `setInterval`, `time.sleep`) are left out.
  - A scheduled reconnect is recorded by its delay.
  - A retry wait is recorded in a list of waits.
  - The 15-second removal of settled orders is the separate call
    `UpdateOrder` with the removed status.
- Logging, toasts and `console` output are left out.
- The Python threads in `pumpbot.py` are left out. Each watcher's pass is
  one method call.
- JSX rendering is left out, except the display filter and
  `truncateText`.
- JavaScript `toLowerCase` and `trim` are modelled on ASCII letters and
  the ASCII whitespace characters. Unicode case mapping and Unicode
  spaces are not.
- `constants.py` is not part of this model. The compute-unit price and
  limit instructions are present, but their values are not.
- The sample hex strings of `find_instruction.py` are not evaluated as a
  whole. Their first segments are decoded as the discriminators.
- `Utils.GetTokenBalance`: a `uiAmount` that arrives as a numeric string,
  which Python's `float` would parse, gives no balance here. The model
  takes numbers only.
- The route's `OPTIONS` handler is left out. It is a fixed 204 reply with
  CORS headers.
- `TradingContext.LoadSettings`: storage that throws is modelled as
  throwing for every key at once. The source catches each key separately.
- The `localStorage` persistence effects of `TradingContext` (lines
  168-193) are left out. They only write the settings back.
- `PurchasedTokens.Panel.FetchTokenHoldings`: `needsUpdate` is kept only
  as a flag.
  - The callback reads a stale copy of the holdings when it carries sell
    amounts over. The model reads the current list.
- Catch branches the modelled callees can never reach are left out. For
  example, `PumpFunClient.sell` catches its own errors, so the catch in
  `handleSellToken` (PurchasedTokens.tsx:294-299) never runs.
- `onTokenPurchase` notifications are left out.
- `BuylistContext.Buylist.Load`: the stored item is taken as an array of
  strings or nothing. `JSON.parse` throwing on a corrupt item, a stored
  string (which would make `includes` a substring test and `add` spread
  its characters) and a stored `null` or other non-array (whose
  `includes` throws) are not modelled.
- The double purchase of a pump.fun auto-buy is stated
  (`TwitterFeed.PumpFunAutoBuyBuysTwice`) but no single-purchase variant
  of `handleAutoBuy` is modelled: the stage function takes the result of
  `autoBuy`'s own purchase as given.
- PumpFunClient.Client.AutoBuy: the inner `buy`'s quote request is
  stated (`PumpFunClient.QuoteRequest`), but how the quote service
  answers it, a NaN amount included, is the `buyResult` input.
- The Dexscreener client's `getTokenPrice` (dexscreenerClient.ts:175-218)
  is left out. It has the same quote guard as the pump.fun client's,
  which `PumpFunClient.GetTokenPrice` models once.
- The Dexscreener client's `executeTransaction`
  (dexscreenerClient.ts:308-375) is step for step the pump.fun client's.
  `Transaction.Classify` models both.
- The 30-second price refresh of the feed (`updateTweetPrices`,
  TwitterFeed.tsx:620-666) is left out, including its sort. It changes
  only prices fetched from the network. The sort it applies is the one
  `MergeFeedKeepsNewest` states.
- `fetchTokenInfo` (TwitterFeed.tsx:516-618) is left out. Its result is
  the map `tokenInfos` passed to the batch handler.
- `handleBuy` (manual buy), wallet generation and the QR code are left
  out. They are outside the auto-buy core.
- `get_since_time` is left out. It only reads the clock.

## Findings

| source | as written | input that shows it | evidently intended | confidence | as-written member | corrected member |
|---|---|---|---|---|---|---|
| src/components/TwitterFeed.tsx:231 | `!dexscreenerClient.shouldBuyToken(mint)` negates a Promise, which is always truthy, so the Dexscreener gate never skips | follower check on: the client refuses every token, yet the buy goes ahead | await the answer and skip when the client refuses | high (not executed) | TwitterFeed.DexGateIgnoresRefusal | TwitterFeed.AwaitedDexGateHonoursClient |
| src/components/PurchasedTokens.tsx:286-293 | `if (signature)` tests the result object, which is always truthy, so a failed sell clears the chosen amount | a sell that returns `success: false` | test `success` and keep the amount on failure | high (not executed) | PurchasedTokens.FailedSellClearsAmountAsWritten | PurchasedTokens.AfterSell |
| src/components/PurchasedTokens.tsx:279-286 | the share sold, in percent, is passed where `sell` expects a token amount | 500 of a 1000-token balance asks for a quote on 50 tokens | pass the chosen token amount | high (not executed) | PurchasedTokens.PercentageSoldAsTokens | PurchasedTokens.SellArgument |
| src/services/twitterService.ts:278 | the comparator parses millisecond strings as dates, gets NaN for both and treats every pair as equal, so the cache keeps arrival order | an older tweet that arrived before a newer one stays first | sort newest first by creation time | medium (not executed) | TwitterService.CachedOrderAsWrittenNotNewestFirst | TwitterService.CachedOrderIsNewestFirst |

=== FILE: blacklist_context.dfy ===
/**
 * The blacklist of Twitter user names. Names are stored trimmed and
 * lower-cased, so every case and whitespace variant of a name matches.
 */
module BlacklistContext {
  import opened Text

  /** One element of the stored JSON array: a string, or any other JSON value. */
  datatype StoredValue = JsonString(s: string) | JsonOther(tag: nat)

  /** The stored item: absent, unparsable, parsed but not an array, or an array. */
  datatype SavedList = Absent | Corrupt | NotAnArray | Items(items: seq<StoredValue>)

  /** A stored name: non-empty and already normalised. */
  predicate Clean(u: string) {
    u != [] && Normalize(u) == u
  }

  /** `.filter(user => typeof user === 'string' && user.trim().length > 0).map(user => user.trim().toLowerCase())` */
  function CleanLoaded(xs: seq<StoredValue>): (r: seq<string>)
    ensures forall u :: u in r ==> Clean(u)
    ensures |r| <= |xs|
  {
    if |xs| == 0 then []
    else
      var rest := CleanLoaded(xs[1..]);
      match xs[0]
      case JsonString(s) =>
        if Trim(s) == [] then rest
        else
          NormalizeIdempotent(s);
          [Normalize(s)] + rest
      case JsonOther(_) => rest
  }

  /** The initial list: deduplicated BEFORE normalising, so case variants survive as duplicates. */
  function LoadBlacklist(saved: SavedList): (r: seq<string>)
    ensures forall u :: u in r ==> Clean(u)
    ensures !saved.Items? ==> r == []
  {
    match saved
    case Items(xs) => CleanLoaded(Dedup(xs))
    case _ => []
  }

  /** The stored value `v` is loaded as the name `u`: a non-blank string that normalises to `u`. */
  predicate Loads(v: StoredValue, u: string) {
    v.JsonString? && Trim(v.s) != [] && Normalize(v.s) == u
  }

  /** A name is loaded exactly when some stored value loads as it. */
  lemma {:induction false} CleanLoadedMembers(xs: seq<StoredValue>, u: string)
    ensures u in CleanLoaded(xs) <==> exists i :: 0 <= i < |xs| && Loads(xs[i], u)
    decreases |xs|
  {
    if |xs| > 0 {
      var tail := xs[1..];
      CleanLoadedMembers(tail, u);
      if xs[0].JsonString? && Trim(xs[0].s) != [] {
        CleanLoadedHead(xs);
      } else {
        assert CleanLoaded(xs) == CleanLoaded(tail);
        assert !Loads(xs[0], u);
      }
      if exists i :: 0 <= i < |tail| && Loads(tail[i], u) {
        var i :| 0 <= i < |tail| && Loads(tail[i], u);
        assert Loads(xs[i + 1], u);
      }
      if exists i :: 0 <= i < |xs| && Loads(xs[i], u) {
        var i :| 0 <= i < |xs| && Loads(xs[i], u);
        if i > 0 {
          assert Loads(tail[i - 1], u);
        }
      }
    }
  }

  /** Loading works element by element: the loaded names of a concatenation are the two loaded lists, in order. */
  lemma {:induction false} CleanLoadedAppend(a: seq<StoredValue>, b: seq<StoredValue>)
    ensures CleanLoaded(a + b) == CleanLoaded(a) + CleanLoaded(b)
    decreases |a|
  {
    if |a| == 0 {
      assert a + b == b;
    } else {
      assert (a + b)[0] == a[0];
      assert (a + b)[1..] == a[1..] + b;
      CleanLoadedAppend(a[1..], b);
    }
  }

  /** Appending one stored value appends its normalised name when it is a non-blank string, and nothing otherwise. */
  lemma CleanLoadedSnoc(xs: seq<StoredValue>, v: StoredValue)
    ensures CleanLoaded(xs + [v]) == CleanLoaded(xs) + (if v.JsonString? && Trim(v.s) != [] then [Normalize(v.s)] else [])
  {
    CleanLoadedAppend(xs, [v]);
    assert [v][1..] == [];
  }

  /** The loaded blacklist holds exactly the names some stored value loads as; anything else stored loads nothing. */
  lemma LoadBlacklistMembers(saved: SavedList, u: string)
    ensures u in LoadBlacklist(saved) <==> saved.Items? && exists i :: 0 <= i < |saved.items| && Loads(saved.items[i], u)
  {
    if saved.Items? {
      var xs := saved.items;
      CleanLoadedMembers(Dedup(xs), u);
      DedupMembers(xs);
      SameValuesLoadSame(Dedup(xs), xs, u);
    }
  }

  /** Two lists holding the same values have the same values loading as `u`. */
  lemma SameValuesLoadSame(a: seq<StoredValue>, b: seq<StoredValue>, u: string)
    requires forall v :: v in a <==> v in b
    ensures (exists i :: 0 <= i < |a| && Loads(a[i], u)) <==> (exists j :: 0 <= j < |b| && Loads(b[j], u))
  {
    if exists i :: 0 <= i < |a| && Loads(a[i], u) {
      var i :| 0 <= i < |a| && Loads(a[i], u);
      assert a[i] in b;
    }
    if exists j :: 0 <= j < |b| && Loads(b[j], u) {
      var j :| 0 <= j < |b| && Loads(b[j], u);
      assert b[j] in a;
    }
  }

  /** A first element that is a non-blank string is kept, normalised. */
  lemma CleanLoadedHead(xs: seq<StoredValue>)
    requires |xs| > 0 && xs[0].JsonString? && Trim(xs[0].s) != []
    ensures CleanLoaded(xs) == [Normalize(xs[0].s)] + CleanLoaded(xs[1..])
  {
  }

  lemma CleanLoadedPair(s: string, t: string)
    requires Trim(s) != [] && Trim(t) != []
    ensures CleanLoaded([JsonString(s), JsonString(t)]) == [Normalize(s), Normalize(t)]
  {
    var xs := [JsonString(s), JsonString(t)];
    CleanLoadedHead(xs);
    CleanLoadedHead(xs[1..]);
    assert xs[1..][1..] == [];
  }

  /** Stored values without duplicates are loaded as they are, cleaned. */
  lemma LoadOfDistinct(xs: seq<StoredValue>)
    requires NoDuplicates(xs)
    ensures LoadBlacklist(Items(xs)) == CleanLoaded(xs)
  {
    DedupOfDistinct(xs);
  }

  /**
   * Loading removes duplicates before normalising: two stored spellings of
   * one name (such as "Foo" and "foo") both survive, as equal entries.
   */
  lemma LoadKeepsCaseVariants(s: string, t: string)
    requires s != t && Trim(s) != [] && Trim(t) != []
    ensures LoadBlacklist(Items([JsonString(s), JsonString(t)])) == [Normalize(s), Normalize(t)]
  {
    var xs := [JsonString(s), JsonString(t)];
    assert NoDuplicates(xs) by {
      assert xs[0] != xs[1];
    }
    LoadOfDistinct(xs);
    CleanLoadedPair(s, t);
  }

  /** The list `addToBlacklist(username)` leaves. */
  function AddedUsers(users: seq<string>, username: string): seq<string> {
    if username == [] then users
    else
      var clean := Normalize(username);
      if clean == [] then users else Dedup(users + [clean])
  }

  /** The list `removeFromBlacklist(username)` leaves. */
  function RemovedUsers(users: seq<string>, username: string): seq<string> {
    if username == [] then users else RemoveAll(users, Normalize(username))
  }

  /** `isBlacklisted(username)` over the list `users`. */
  predicate Listed(users: seq<string>, username: string) {
    username != [] && Normalize(username) in users
  }

  /** After adding `x`, every variant of `x` that normalises the same way is blacklisted. */
  lemma AddListsEveryVariant(users: seq<string>, x: string, v: string)
    requires Trim(x) != [] && Normalize(v) == Normalize(x)
    ensures Listed(AddedUsers(users, x), v)
  {
    NormalizeEmptyIffBlank(x);
    DedupMembers(users + [Normalize(x)]);
  }

  /** After removing `x`, no variant of `x` is blacklisted. */
  lemma RemoveUnlistsEveryVariant(users: seq<string>, x: string, v: string)
    requires x != [] && Normalize(v) == Normalize(x)
    ensures !Listed(RemovedUsers(users, x), v)
  {
  }

  /** Adding keeps the order: a new name goes to the end, a present one changes nothing. */
  lemma AddKeepsOrder(users: seq<string>, x: string)
    requires NoDuplicates(users) && Trim(x) != []
    ensures Normalize(x) in users ==> AddedUsers(users, x) == users
    ensures Normalize(x) !in users ==> AddedUsers(users, x) == users + [Normalize(x)]
  {
    NormalizeEmptyIffBlank(x);
    DedupOfDistinct(users);
    assert (users + [Normalize(x)])[..|users|] == users;
  }

  /** Input that is blank after trimming is ignored by add and never blacklisted. */
  lemma BlankInputIgnored(users: seq<string>, x: string)
    requires Trim(x) == []
    requires forall u :: u in users ==> Clean(u)
    ensures AddedUsers(users, x) == users
    ensures !Listed(users, x)
  {
    NormalizeEmptyIffBlank(x);
  }

  class Blacklist {
    var users: seq<string>

    /** Every stored name is non-empty and normalised. */
    ghost predicate Valid()
      reads this
    {
      forall u :: u in users ==> Clean(u)
    }

    /** The provider's initial state, read from storage. */
    constructor Load(saved: SavedList)
      ensures Valid()
      ensures users == LoadBlacklist(saved)
    {
      users := LoadBlacklist(saved);
    }

    predicate IsBlacklisted(username: string)
      reads this
    {
      Listed(users, username)
    }

    method AddToBlacklist(username: string)
      requires Valid()
      modifies this
      ensures Valid()
      ensures users == AddedUsers(old(users), username)
    {
      if username == [] {
        return;
      }
      var clean := Normalize(username);
      if clean == [] {
        return;
      }
      NormalizeIdempotent(username);
      DedupMembers(users + [clean]);
      users := Dedup(users + [clean]);
    }

    method RemoveFromBlacklist(username: string)
      requires Valid()
      modifies this
      ensures Valid()
      ensures users == RemovedUsers(old(users), username)
    {
      if username == [] {
        return;
      }
      users := RemoveAll(users, Normalize(username));
    }
  }
}

=== FILE: buylist_context.dfy ===
/** The buylist: exact, case-sensitive user names with no normalisation. */
module BuylistContext {
  import opened Wrappers
  import opened Text

  /** The list `addToBuylist(token)` leaves: `[...new Set([...prev, token])]`. */
  function AddedTokens(tokens: seq<string>, token: string): seq<string> {
    Dedup(tokens + [token])
  }

  /** The list `removeFromBuylist(token)` leaves. */
  function RemovedTokens(tokens: seq<string>, token: string): seq<string> {
    RemoveAll(tokens, token)
  }

  /** After add(x), x is listed; after remove(x), it is not; other names keep their membership. */
  lemma AddRemoveMembership(tokens: seq<string>, x: string, y: string)
    ensures x in AddedTokens(tokens, x)
    ensures x !in RemovedTokens(tokens, x)
    ensures y != x ==> (y in AddedTokens(tokens, x) <==> y in tokens)
    ensures y != x ==> (y in RemovedTokens(tokens, x) <==> y in tokens)
  {
    DedupMembers(tokens + [x]);
  }

  /** Adding appends only a name that is absent, and keeps the order. */
  lemma AddAppendsIfAbsent(tokens: seq<string>, x: string)
    requires NoDuplicates(tokens)
    ensures x in tokens ==> AddedTokens(tokens, x) == tokens
    ensures x !in tokens ==> AddedTokens(tokens, x) == tokens + [x]
  {
    DedupOfDistinct(tokens);
    assert (tokens + [x])[..|tokens|] == tokens;
  }

  /** Matching is exact: a listed name in other case or with spaces does not match. */
  lemma MatchIsExact()
    ensures "alice" !in AddedTokens([], "Alice")
    ensures " Alice" !in AddedTokens([], "Alice")
  {
    DedupMembers([] + ["Alice"]);
  }

  class Buylist {
    var tokens: seq<string>

    /** The provider's initial state: the stored array, or empty when nothing is stored. */
    constructor Load(saved: Option<seq<string>>)
      ensures tokens == saved.GetOr([])
    {
      tokens := saved.GetOr([]);
    }

    predicate IsBuylisted(token: string)
      reads this
    {
      token in tokens
    }

    method AddToBuylist(token: string)
      modifies this
      ensures tokens == AddedTokens(old(tokens), token)
    {
      tokens := Dedup(tokens + [token]);
    }

    method RemoveFromBuylist(token: string)
      modifies this
      ensures tokens == RemovedTokens(old(tokens), token)
    {
      tokens := RemoveAll(tokens, token);
    }
  }

}

=== FILE: coin_data.dfy ===
/**
 * Bonding-curve reading (`coinData.ts`): the layout of a pump.fun bonding
 * curve account, the guard against integers JavaScript numbers cannot hold
 * exactly, and the ten-second cache of coin data per mint.
 *
 * The chain is a parameter: the derived bonding-curve accounts (absent
 * when derivation fails) and the account's bytes (absent when the account
 * is missing or the read fails).
 */
module CoinData {
  import opened Wrappers
  import opened LittleEndian

  /** The reserves stored in a bonding curve account, after its 8-byte discriminator. */
  datatype VirtualReserves = VirtualReserves(
    virtualTokenReserves: nat,
    virtualSolReserves: nat,
    realTokenReserves: nat,
    realSolReserves: nat,
    tokenTotalSupply: nat,
    complete: bool)

  datatype CoinData = CoinData(
    mint: string,
    bondingCurve: string,
    associatedBondingCurve: string,
    virtualTokenReserves: nat,
    virtualSolReserves: nat,
    tokenTotalSupply: nat,
    complete: bool)

  /** `Number.MAX_SAFE_INTEGER`, 2^53 - 1. */
  const MAX_SAFE_INTEGER: nat := 0x1F_FFFF_FFFF_FFFF
  const DISCRIMINATOR_SIZE: nat := 8
  /** Bytes the reserves need after the discriminator: five u64 values and the flag. */
  const RESERVES_SIZE: nat := 41
  const CACHE_DURATION: int := 10000

  /** `safeConvertBigIntToNumber(value, fieldName)` */
  function SafeConvert(value: nat, fieldName: string): (r: Result<nat, string>)
    ensures r.Success? <==> value <= MAX_SAFE_INTEGER
    ensures r.Success? ==> r.value == value
    ensures r.Failure? ==> r.error == fieldName + " exceeds maximum safe integer value"
  {
    if value > MAX_SAFE_INTEGER then Failure(fieldName + " exceeds maximum safe integer value")
    else Success(value)
  }

  /** The u64 at `offset` of the data after the discriminator. */
  function U64At(view: seq<Byte>, offset: nat): (r: nat)
    requires offset + 8 <= |view|
    ensures r < U64_LIMIT
  {
    DecodeU64(view[offset..offset + 8])
  }

  /**
   * `getVirtualReserves`: absent for missing data or fewer than 41 bytes,
   * and also when fewer than 41 bytes follow the discriminator, so an
   * account needs 49 bytes. The values are unsigned, so the check for
   * negative reserves never rejects anything.
   */
  function GetVirtualReserves(data: Option<seq<Byte>>): (r: Option<VirtualReserves>)
    ensures r.Some? <==> data.Some? && |data.value| >= DISCRIMINATOR_SIZE + RESERVES_SIZE
    ensures r.Some? ==> r.value.complete == (data.value[DISCRIMINATOR_SIZE + 40] != 0)
  {
    if data.None? || |data.value| < RESERVES_SIZE then None
    else
      var view := data.value[DISCRIMINATOR_SIZE..];
      if |view| < RESERVES_SIZE then None
      else
        Some(VirtualReserves(U64At(view, 0), U64At(view, 8), U64At(view, 16), U64At(view, 24), U64At(view, 32),
                             view[40] != 0))
  }

  /** The five integers of the reserves, in account order. */
  function ReserveFields(v: VirtualReserves): (r: seq<int>)
    ensures |r| == 5
  {
    [v.virtualTokenReserves, v.virtualSolReserves, v.realTokenReserves, v.realSolReserves, v.tokenTotalSupply]
  }

  /** The bytes of an account holding `v` after `discriminator`, followed by `rest`. */
  function EncodeAccount(discriminator: seq<Byte>, v: VirtualReserves, rest: seq<Byte>): (r: seq<Byte>)
    requires |discriminator| == DISCRIMINATOR_SIZE
    requires v.virtualTokenReserves < U64_LIMIT && v.virtualSolReserves < U64_LIMIT
    requires v.realTokenReserves < U64_LIMIT && v.realSolReserves < U64_LIMIT && v.tokenTotalSupply < U64_LIMIT
    ensures |r| == DISCRIMINATOR_SIZE + RESERVES_SIZE + |rest|
  {
    var fields := ReserveFields(v);
    assert AllU64(fields);
    discriminator + (PackU64s(fields).value + ([if v.complete then 1 else 0] + rest))
  }

  /** The `i`-th of several packed integers, followed by anything, reads back as that integer. */
  lemma {:induction false} U64AtPacked(xs: seq<int>, r: seq<Byte>, i: nat)
    requires AllU64(xs) && i < |xs|
    ensures U64At(PackU64s(xs).value + r, 8 * i) == xs[i]
  {
    var head := EncodeU64(xs[0]);
    var tail := PackU64s(xs[1..]).value;
    assert PackU64s(xs).value + r == head + (tail + r);
    if i == 0 {
      assert (head + (tail + r))[0..8] == head;
      DecodeEncodeU64(xs[0]);
    } else {
      U64AtPacked(xs[1..], r, i - 1);
      assert (head + (tail + r))[8 * i..8 * i + 8] == (tail + r)[8 * (i - 1)..8 * (i - 1) + 8];
    }
  }

  /** The reserves read from data long enough, field by field. */
  lemma ReadView(data: seq<Byte>)
    requires |data| >= DISCRIMINATOR_SIZE + RESERVES_SIZE
    ensures var view := data[DISCRIMINATOR_SIZE..];
      GetVirtualReserves(Some(data))
      == Some(VirtualReserves(U64At(view, 0), U64At(view, 8), U64At(view, 16), U64At(view, 24), U64At(view, 32),
                              view[40] != 0))
  {
  }

  /** Reading an account back gives the reserves it was written with. */
  lemma ReadBackReserves(discriminator: seq<Byte>, v: VirtualReserves, rest: seq<Byte>)
    requires |discriminator| == DISCRIMINATOR_SIZE
    requires v.virtualTokenReserves < U64_LIMIT && v.virtualSolReserves < U64_LIMIT
    requires v.realTokenReserves < U64_LIMIT && v.realSolReserves < U64_LIMIT && v.tokenTotalSupply < U64_LIMIT
    ensures GetVirtualReserves(Some(EncodeAccount(discriminator, v, rest))) == Some(v)
  {
    var fields := ReserveFields(v);
    assert AllU64(fields);
    var flag: seq<Byte> := [if v.complete then 1 else 0] + rest;
    var view := PackU64s(fields).value + flag;
    var data := EncodeAccount(discriminator, v, rest);
    assert data[DISCRIMINATOR_SIZE..] == view;
    ReadView(data);
    U64AtPacked(fields, flag, 0);
    U64AtPacked(fields, flag, 1);
    U64AtPacked(fields, flag, 2);
    U64AtPacked(fields, flag, 3);
    U64AtPacked(fields, flag, 4);
    assert view[40] == flag[0];
  }

  /**
   * The coin data built from derived accounts and reserves: absent when
   * one of the three converted values is not a safe integer. The real
   * reserves are not converted, so they never cause a failure.
   */
  function BuildCoinData(mint: string, accounts: (string, string), v: VirtualReserves): (r: Option<CoinData>)
    ensures r.Some? <==> v.virtualTokenReserves <= MAX_SAFE_INTEGER && v.virtualSolReserves <= MAX_SAFE_INTEGER
                         && v.tokenTotalSupply <= MAX_SAFE_INTEGER
    ensures r.Some? ==> r.value == CoinData(mint, accounts.0, accounts.1, v.virtualTokenReserves,
                                            v.virtualSolReserves, v.tokenTotalSupply, v.complete)
  {
    var a := SafeConvert(v.virtualTokenReserves, "virtualTokenReserves");
    var b := SafeConvert(v.virtualSolReserves, "virtualSolReserves");
    var c := SafeConvert(v.tokenTotalSupply, "tokenTotalSupply");
    if a.Failure? || b.Failure? || c.Failure? then None
    else Some(CoinData(mint, accounts.0, accounts.1, a.value, b.value, c.value, v.complete))
  }

  /** The chain read of `getCoinData`: derivation, reserves, conversion; any failure gives nothing. */
  function ReadCoinData(mintStr: string, derived: Option<(string, string)>, accountData: Option<seq<Byte>>): (r: Option<CoinData>)
    ensures r.Some? ==> derived.Some? && r.value.mint == mintStr
    ensures r.Some? ==> GetVirtualReserves(accountData).Some?
    ensures derived.Some? && GetVirtualReserves(accountData).Some? ==>
              r == BuildCoinData(mintStr, derived.value, GetVirtualReserves(accountData).value)
  {
    if derived.None? then None
    else
      match GetVirtualReserves(accountData)
      case None => None
      case Some(v) => BuildCoinData(mintStr, derived.value, v)
  }

  datatype CacheEntry = CacheEntry(data: CoinData, timestamp: int)

  /** A cached entry is used while it is younger than ten seconds. */
  predicate Fresh(entries: map<string, CacheEntry>, mintStr: string, now: int) {
    mintStr in entries && now - entries[mintStr].timestamp < CACHE_DURATION
  }

  /** `getCoinData` on a cache: its result and the cache afterwards. */
  function CoinDataStep(entries: map<string, CacheEntry>, mintStr: string, now: int,
                        derived: Option<(string, string)>, accountData: Option<seq<Byte>>)
    : (r: (Option<CoinData>, map<string, CacheEntry>))
    ensures r.0.Some? ==> mintStr in r.1 && r.1[mintStr].data == r.0.value
    ensures forall m :: m != mintStr ==> (m in r.1 <==> m in entries) && (m in r.1 ==> r.1[m] == entries[m])
  {
    if Fresh(entries, mintStr, now) then (Some(entries[mintStr].data), entries)
    else
      match ReadCoinData(mintStr, derived, accountData)
      case None => (None, entries)
      case Some(d) => (Some(d), entries[mintStr := CacheEntry(d, now)])
  }

  /**
   * The cache's contract: a fresh entry is answered without reading the
   * chain; otherwise a successful read is stored under the mint with the
   * current time, and a failure leaves the cache as it was.
   */
  lemma CoinDataStepCases(entries: map<string, CacheEntry>, mintStr: string, now: int,
                          derived: Option<(string, string)>, accountData: Option<seq<Byte>>)
    ensures var (r, after) := CoinDataStep(entries, mintStr, now, derived, accountData);
      && (Fresh(entries, mintStr, now) ==> r == Some(entries[mintStr].data) && after == entries)
      && (!Fresh(entries, mintStr, now) ==> r == ReadCoinData(mintStr, derived, accountData))
      && (!Fresh(entries, mintStr, now) && r.None? ==> after == entries)
      && (r.Some? ==> mintStr in after && after[mintStr].data == r.value)
      && (forall m :: m != mintStr ==> (m in after <==> m in entries) && (m in after ==> after[m] == entries[m]))
  {
  }

  /** Within ten seconds of a successful read, the same mint is answered from the cache whatever the chain says. */
  lemma SecondReadIsCached(entries: map<string, CacheEntry>, mintStr: string, now: int, later: int,
                           derived: Option<(string, string)>, accountData: Option<seq<Byte>>,
                           derived2: Option<(string, string)>, accountData2: Option<seq<Byte>>)
    requires now <= later < now + CACHE_DURATION
    requires !Fresh(entries, mintStr, now) && ReadCoinData(mintStr, derived, accountData).Some?
    ensures var (r, after) := CoinDataStep(entries, mintStr, now, derived, accountData);
            CoinDataStep(after, mintStr, later, derived2, accountData2) == (r, after)
  {
    var (r, after) := CoinDataStep(entries, mintStr, now, derived, accountData);
    assert after[mintStr] == CacheEntry(r.value, now);
  }

  /** The module-level cache of `getCoinData`. */
  class CoinDataCache {
    var entries: map<string, CacheEntry>

    constructor()
      ensures entries == map[]
    {
      entries := map[];
    }

    /** `getCoinData(connection, mintStr)` at time `now`. */
    method GetCoinData(mintStr: string, now: int, derived: Option<(string, string)>, accountData: Option<seq<Byte>>)
      returns (r: Option<CoinData>)
      modifies this
      ensures (r, entries) == CoinDataStep(old(entries), mintStr, now, derived, accountData)
    {
      if mintStr in entries && now - entries[mintStr].timestamp < CACHE_DURATION {
        return Some(entries[mintStr].data);
      }
      r := ReadCoinData(mintStr, derived, accountData);
      if r.Some? {
        entries := entries[mintStr := CacheEntry(r.value, now)];
      }
    }
  }
}

=== FILE: dexscreener_client.dfy ===
/**
 * The Dexscreener trading client: its own eligibility predicate (which
 * disagrees with the pump.fun one), the base-token selection over the two
 * lookups, and the `buyToken` flow. Execution is the shared
 * `Transaction.ExecuteTransaction`; the price guard is the same as
 * `PumpFunClient.GetTokenPrice`.
 */
module DexscreenerClient {
  import opened Wrappers
  import opened Types
  import opened Transaction
  import PumpFunClient

  /** The destructuring defaults used when the client has no settings. */
  const DEFAULT_SETTINGS := ClientSettings(false, false, 0.0, false, 60.0, None, None)

  /** `getTokenCreationTime`: always the current second. */
  function GetTokenCreationTime(nowMs: int): (r: int)
    ensures r * 1000 <= nowMs < r * 1000 + 1000
  {
    nowMs / 1000
  }

  /** `(Math.floor(Date.now()/1000) - creation)/60 <= maxCreationTime`, multiplied through by 60. */
  predicate WithinAgeMinutes(nowMs: int, creationSeconds: int, maxMinutes: real) {
    (nowMs / 1000 - creationSeconds) as real <= 60.0 * maxMinutes
  }

  lemma WithinAgeMinutesIsMinutesTest(nowMs: int, creationSeconds: int, maxMinutes: real)
    ensures WithinAgeMinutes(nowMs, creationSeconds, maxMinutes)
        <==> (nowMs / 1000 - creationSeconds) as real / 60.0 <= maxMinutes
  {
  }

  /**
   * `shouldBuyToken(mintAddress)`: `tokenCreationTime` is what
   * `getTokenCreationTime` returned and `nowMs` the clock reading.
   */
  function ShouldBuyToken(settings: Option<ClientSettings>, tokenCreationTime: Option<int>, nowMs: int): (r: bool)
    ensures r <==> var s := settings.GetOr(DEFAULT_SETTINGS);
                   && s.autoBuyEnabled
                   && !s.followerCheckEnabled
                   && (s.creationTimeEnabled ==>
                         Truthy(tokenCreationTime) && WithinAgeMinutes(nowMs, tokenCreationTime.value, s.maxCreationTime))
  {
    var s := settings.GetOr(DEFAULT_SETTINGS);
    if !s.autoBuyEnabled then false
    else if s.creationTimeEnabled && !Truthy(tokenCreationTime) then false
    else
      var creationTimeCheckPassed :=
        !s.creationTimeEnabled || WithinAgeMinutes(nowMs, tokenCreationTime.value, s.maxCreationTime);
      if s.followerCheckEnabled then false
      else creationTimeCheckPassed
  }

  /** Missing settings never buy; an enabled follower check never buys; no checks at all always buys. */
  lemma ShouldBuyTokenCases(settings: Option<ClientSettings>, t: Option<int>, nowMs: int)
    ensures settings.None? ==> !ShouldBuyToken(settings, t, nowMs)
    ensures settings.Some? && settings.value.followerCheckEnabled ==> !ShouldBuyToken(settings, t, nowMs)
    ensures settings.Some? && settings.value.autoBuyEnabled
            && !settings.value.followerCheckEnabled && !settings.value.creationTimeEnabled ==>
              ShouldBuyToken(settings, t, nowMs)
  {
  }

  /** Since the creation time is the current second, the age test always passes for a non-negative limit. */
  lemma CurrentSecondIsAlwaysYoung(s: ClientSettings, nowMs: int)
    requires s.autoBuyEnabled && !s.followerCheckEnabled && s.maxCreationTime >= 0.0
    requires nowMs >= 1000
    ensures ShouldBuyToken(Some(s), Some(GetTokenCreationTime(nowMs)), nowMs)
  {
  }

  /** With auto-buy on and neither check enabled, the pump.fun predicate refuses and this one buys. */
  lemma PredicatesDisagreeWithoutChecks(s: ClientSettings, created: Option<int>, twitter: PumpFunClient.TwitterData,
                                        creation: Option<int>, nowMs: int)
    requires s.autoBuyEnabled && !s.followerCheckEnabled && !s.creationTimeEnabled
    ensures !PumpFunClient.ShouldBuyToken(Some(s), created, Some(twitter), nowMs)
    ensures ShouldBuyToken(Some(s), creation, nowMs)
  {
  }

  // ---------------------------------------------------------------------
  // getBaseTokenAddress
  // ---------------------------------------------------------------------

  datatype Pair = Pair(chainId: string, baseTokenAddress: string)

  /** A lookup response; `pairs` is absent when the response has none. */
  datatype Lookup = Lookup(pairs: Option<seq<Pair>>)

  predicate HasPairs(l: Lookup) {
    l.pairs.Some? && |l.pairs.value| > 0
  }

  /** `pairs.find(pair => pair.chainId === 'solana')`, as an index. */
  function FirstSolanaPair(pairs: seq<Pair>): (r: Option<nat>)
    ensures r.Some? ==> r.value < |pairs| && pairs[r.value].chainId == "solana"
    ensures r.Some? ==> forall j :: 0 <= j < r.value ==> pairs[j].chainId != "solana"
    ensures r.None? ==> forall j :: 0 <= j < |pairs| ==> pairs[j].chainId != "solana"
  {
    if |pairs| == 0 then None
    else if pairs[0].chainId == "solana" then Some(0)
    else
      match FirstSolanaPair(pairs[1..])
      case None => None
      case Some(k) => Some(k + 1)
  }

  function NotFound(id: string): string {
    "Could not find base token address for " + id
  }

  /**
   * `getBaseTokenAddress(pairIdOrAddress)` over the pair lookup and the token
   * lookup; a failure carries the thrown message (absent for a non-`Error`).
   */
  function GetBaseTokenAddress(id: string, pairLookup: Step<Lookup>, tokenLookup: Step<Lookup>): (r: Result<string, Option<string>>)
    ensures pairLookup.Threw? ==> r == Failure(pairLookup.message)
    ensures pairLookup.Done? && HasPairs(pairLookup.value) ==>
              r == Success(pairLookup.value.pairs.value[0].baseTokenAddress)
    ensures r.Success? && !(pairLookup.Done? && HasPairs(pairLookup.value)) ==>
              && tokenLookup.Done? && tokenLookup.value.pairs.Some?
              && var i := FirstSolanaPair(tokenLookup.value.pairs.value);
                 i.Some? && r.value == tokenLookup.value.pairs.value[i.value].baseTokenAddress
    ensures pairLookup.Done? && !HasPairs(pairLookup.value) && tokenLookup.Threw? ==> r == Failure(tokenLookup.message)
    ensures pairLookup.Done? && !HasPairs(pairLookup.value) && tokenLookup.Done? ==>
              if HasPairs(tokenLookup.value) && FirstSolanaPair(tokenLookup.value.pairs.value).Some? then
                r == Success(tokenLookup.value.pairs.value[FirstSolanaPair(tokenLookup.value.pairs.value).value].baseTokenAddress)
              else
                r == Failure(Some(NotFound(id)))
  {
    match pairLookup
    case Threw(m) => Failure(m)
    case Done(data) =>
      if HasPairs(data) then Success(data.pairs.value[0].baseTokenAddress)
      else
        match tokenLookup
        case Threw(m) => Failure(m)
        case Done(tokenData) =>
          if HasPairs(tokenData) then
            match FirstSolanaPair(tokenData.pairs.value)
            case Some(i) => Success(tokenData.pairs.value[i].baseTokenAddress)
            case None => Failure(Some(NotFound(id)))
          else Failure(Some(NotFound(id)))
  }

  // ---------------------------------------------------------------------
  // buyToken
  // ---------------------------------------------------------------------

  datatype DexBuyOracle = DexBuyOracle(
    pairLookup: Step<Lookup>,
    tokenLookup: Step<Lookup>,
    quote: Step<Option<PumpFunClient.Quote>>,
    swapTx: Step<bool>,
    exec: ExecOracle)

  /** The result, and the slippage the quote was requested with (absent when no quote was requested). */
  datatype DexBuyOutcome = DexBuyOutcome(result: TxResult, quotedSlippageBps: Option<int>)

  const QUOTE_SLIPPAGE_BPS := 100
  const NO_BASE_TOKEN := "Could not get base token address"
  const TRANSACTION_FAILED := "Transaction failed"

  /** The base token was resolved to a non-empty address, and a quote and a swap transaction were obtained. */
  predicate BuyTokenReachesExecution(id: string, o: DexBuyOracle) {
    var base := GetBaseTokenAddress(id, o.pairLookup, o.tokenLookup);
    base.Success? && base.value != [] && o.quote.Done? && o.quote.value.Some? && o.swapTx == Done(true)
  }

  /** What `buyToken` returns for the given answers. */
  function BuyTokenFlow(id: string, o: DexBuyOracle): (f: DexBuyOutcome)
    ensures f.quotedSlippageBps.Some? ==> f.quotedSlippageBps.value == QUOTE_SLIPPAGE_BPS
    ensures f.result.success <==> BuyTokenReachesExecution(id, o) && SucceededWithSignature(Classify(o.exec))
    ensures f.result.success ==> f.result.signature == Classify(o.exec).signature
    ensures !f.result.success ==> f.result.signature.None? && f.result.error.Some?
  {
    match GetBaseTokenAddress(id, o.pairLookup, o.tokenLookup)
    case Failure(m) => DexBuyOutcome(Caught(m, PumpFunClient.UNKNOWN_ERROR), None)
    case Success(base) =>
      if base == [] then DexBuyOutcome(Failed(NO_BASE_TOKEN), None)
      else
        match o.quote
        case Threw(m) => DexBuyOutcome(Caught(m, PumpFunClient.UNKNOWN_ERROR), Some(QUOTE_SLIPPAGE_BPS))
        case Done(None) => DexBuyOutcome(Failed(PumpFunClient.NO_QUOTE), Some(QUOTE_SLIPPAGE_BPS))
        case Done(Some(_)) =>
          match o.swapTx
          case Threw(m) => DexBuyOutcome(Caught(m, PumpFunClient.UNKNOWN_ERROR), Some(QUOTE_SLIPPAGE_BPS))
          case Done(false) => DexBuyOutcome(Failed(PumpFunClient.NO_SWAP), Some(QUOTE_SLIPPAGE_BPS))
          case Done(true) =>
            var executed := Classify(o.exec);
            if SucceededWithSignature(executed) then
              DexBuyOutcome(TxResult(true, executed.signature, None), Some(QUOTE_SLIPPAGE_BPS))
            else
              DexBuyOutcome(Failed(OrElse(executed.error, TRANSACTION_FAILED)), Some(QUOTE_SLIPPAGE_BPS))
  }

  /** `buyToken(pairIdOrAddress, amountInSol)` over the given answers. */
  method BuyToken(id: string, o: DexBuyOracle) returns (r: TxResult, quotedSlippageBps: Option<int>)
    ensures DexBuyOutcome(r, quotedSlippageBps) == BuyTokenFlow(id, o)
  {
    var base := GetBaseTokenAddress(id, o.pairLookup, o.tokenLookup);
    if base.Failure? {
      return Caught(base.error, PumpFunClient.UNKNOWN_ERROR), None;
    }
    if base.value == [] {
      return Failed(NO_BASE_TOKEN), None;
    }
    quotedSlippageBps := Some(QUOTE_SLIPPAGE_BPS);
    if o.quote.Threw? {
      return Caught(o.quote.message, PumpFunClient.UNKNOWN_ERROR), quotedSlippageBps;
    }
    if o.quote.value.None? {
      return Failed(PumpFunClient.NO_QUOTE), quotedSlippageBps;
    }
    if o.swapTx.Threw? {
      return Caught(o.swapTx.message, PumpFunClient.UNKNOWN_ERROR), quotedSlippageBps;
    }
    if !o.swapTx.value {
      return Failed(PumpFunClient.NO_SWAP), quotedSlippageBps;
    }
    var swapTx := new VersionedTransaction("", false);
    var executed := ExecuteTransaction(swapTx, o.exec);
    if SucceededWithSignature(executed) {
      r := TxResult(true, executed.signature, None);
    } else {
      r := Failed(OrElse(executed.error, TRANSACTION_FAILED));
    }
  }

  /** A chain error after sending is reported without the signature `executeTransaction` had. */
  lemma BuyTokenDropsSignature(id: string, o: DexBuyOracle)
    requires BuyTokenReachesExecution(id, o)
    requires WasSent(o.exec) && ChainError(o.exec)
    ensures Classify(o.exec).signature.Some?
    ensures BuyTokenFlow(id, o).result.signature.None?
  {
  }
}

=== FILE: find_instruction.dfy ===
/**
 * Reading raw instruction data (`find_instruction.py`): a hex string as
 * shown by a block explorer is cut into 16-character segments, and each
 * segment is read as a little-endian unsigned 64-bit integer. This is the
 * inverse of the packing the trading script sends.
 */
module FindInstruction {
  import opened Wrappers
  import opened LittleEndian

  /** `[s[i:i+16] for i in range(0, len(s), 16)]`: the last segment may be shorter. */
  function Segments(s: string): (r: seq<string>)
    ensures |r| == (|s| + 15) / 16
    ensures forall i :: 0 <= i < |r| ==> 0 < |r[i]| <= 16
    decreases |s|
  {
    if |s| == 0 then []
    else if |s| <= 16 then [s]
    else [s[..16]] + Segments(s[16..])
  }

  function Concat(segments: seq<string>): string {
    if |segments| == 0 then [] else segments[0] + Concat(segments[1..])
  }

  /** Cutting loses nothing: the segments put back together give the string, and all but the last are full. */
  lemma {:induction false} SegmentsConcat(s: string)
    ensures Concat(Segments(s)) == s
    ensures forall i :: 0 <= i < |Segments(s)| - 1 ==> |Segments(s)[i]| == 16
  {
    if |s| > 16 {
      SegmentsConcat(s[16..]);
      assert s == s[..16] + s[16..];
      var r := Segments(s);
      assert r[1..] == Segments(s[16..]);
    } else if |s| > 0 {
      assert Concat([s]) == s + Concat([]);
    }
  }

  /** The whitespace `bytes.fromhex` skips between byte pairs. */
  predicate IsAsciiSpace(c: char) {
    c == ' ' || c == '\t' || c == '\n' || c == '\r' || c == '\U{0B}' || c == '\U{0C}'
  }

  function HexDigit(c: char): (r: Option<nat>)
    ensures r.Some? ==> r.value < 16
  {
    if '0' <= c <= '9' then Some(c as int - '0' as int)
    else if 'a' <= c <= 'f' then Some(c as int - 'a' as int + 10)
    else if 'A' <= c <= 'F' then Some(c as int - 'A' as int + 10)
    else None
  }

  /**
   * `bytes.fromhex(s)`: pairs of hex digits, with whitespace allowed
   * before each pair; anything else (a lone digit, a stray character) is a
   * `ValueError`, here `None`.
   */
  function FromHex(s: string): (r: Option<seq<Byte>>)
    ensures r.Some? ==> |r.value| <= |s| / 2
    decreases |s|
  {
    if |s| == 0 then Some([])
    else if IsAsciiSpace(s[0]) then FromHex(s[1..])
    else if |s| < 2 then None
    else
      match (HexDigit(s[0]), HexDigit(s[1]))
      case (Some(hi), Some(lo)) =>
        (match FromHex(s[2..])
         case None => None
         case Some(rest) => Some([16 * hi + lo] + rest))
      case _ => None
  }

  function LowerHexDigit(d: nat): (r: char)
    requires d < 16
    ensures HexDigit(r) == Some(d)
  {
    if d < 10 then ('0' as int + d) as char else ('a' as int + d - 10) as char
  }

  /** `bytes.hex()`: two lower-case digits per byte, as the explorer shows raw data. */
  function ToHex(b: seq<Byte>): (r: string)
    ensures |r| == 2 * |b|
  {
    if |b| == 0 then [] else [LowerHexDigit(b[0] / 16), LowerHexDigit(b[0] % 16)] + ToHex(b[1..])
  }

  lemma {:induction false} ToHexAppend(a: seq<Byte>, b: seq<Byte>)
    ensures ToHex(a + b) == ToHex(a) + ToHex(b)
  {
    if |a| > 0 {
      assert (a + b)[1..] == a[1..] + b;
      ToHexAppend(a[1..], b);
    } else {
      assert a + b == b;
    }
  }

  /** Reading hex back gives the bytes it was written from. */
  lemma {:induction false} FromToHex(b: seq<Byte>)
    ensures FromHex(ToHex(b)) == Some(b)
  {
    if |b| > 0 {
      var h := ToHex(b);
      assert h[2..] == ToHex(b[1..]);
      assert HexDigit(h[0]) == Some(b[0] / 16) && HexDigit(h[1]) == Some(b[0] % 16);
      assert !IsAsciiSpace(h[0]);
      FromToHex(b[1..]);
      assert 16 * (b[0] / 16) + b[0] % 16 == b[0];
      assert [b[0]] + b[1..] == b;
    }
  }

  /** `struct.unpack('<Q', bytes.fromhex(segment))[0]` for every segment: a segment not of exactly 8 bytes raises. */
  function DecodeSegments(segments: seq<string>): (r: Option<seq<nat>>)
    ensures r.Some? ==> |r.value| == |segments| && forall i :: 0 <= i < |r.value| ==> r.value[i] < U64_LIMIT
    ensures r.Some? <==> forall i :: 0 <= i < |segments| ==>
                           FromHex(segments[i]).Some? && |FromHex(segments[i]).value| == 8
  {
    if |segments| == 0 then Some([])
    else
      var bytes := FromHex(segments[0]);
      if bytes.None? || |bytes.value| != 8 then None
      else
        match DecodeSegments(segments[1..])
        case None => None
        case Some(rest) => Some([DecodeU64(bytes.value)] + rest)
  }

  /** The integers of a hex string of raw instruction data. */
  function DecodeInstructionData(hex: string): (r: Option<seq<nat>>)
    ensures r.Some? ==> |r.value| == |Segments(hex)| && forall i :: 0 <= i < |r.value| ==> r.value[i] < U64_LIMIT
  {
    DecodeSegments(Segments(hex))
  }

  /** A full first segment is cut off as it is. */
  lemma SegmentsCons(h: string, t: string)
    requires |h| == 16
    ensures Segments(h + t) == [h] + Segments(t)
  {
    if |t| == 0 {
      assert h + t == h;
    } else {
      assert (h + t)[..16] == h && (h + t)[16..] == t;
    }
  }

  /** A first segment holding the hex of an encoded integer decodes to that integer. */
  lemma DecodeSegmentsCons(seg: string, segments: seq<string>, x: nat, rest: seq<nat>)
    requires x < U64_LIMIT && FromHex(seg) == Some(EncodeU64(x))
    requires DecodeSegments(segments) == Some(rest)
    ensures DecodeSegments([seg] + segments) == Some([x] + rest)
  {
    assert ([seg] + segments)[1..] == segments;
    DecodeEncodeU64(x);
  }

  /** Decoding inverts packing: the hex of packed integers reads back as the same integers. */
  lemma {:induction false} DecodePacked(xs: seq<int>)
    requires AllU64(xs)
    ensures PackU64s(xs).Some?
    ensures DecodeInstructionData(ToHex(PackU64s(xs).value)) == Some(xs)
  {
    if |xs| > 0 {
      DecodePacked(xs[1..]);
      var first := EncodeU64(xs[0]);
      var rest := PackU64s(xs[1..]).value;
      assert PackU64s(xs).value == first + rest;
      ToHexAppend(first, rest);
      SegmentsCons(ToHex(first), ToHex(rest));
      FromToHex(first);
      DecodeSegmentsCons(ToHex(first), Segments(ToHex(rest)), xs[0], xs[1..]);
      assert [xs[0]] + xs[1..] == xs;
    }
  }

  /**
   * The explorer's buy data starts with `66063d1201daebea`: these eight
   * bytes are the buy discriminator, least significant first.
   */
  lemma BuyDiscriminatorBytes()
    ensures EncodeU64(16927863322537952870) == [0x66, 0x06, 0x3d, 0x12, 0x01, 0xda, 0xeb, 0xea]
  {
    var b: seq<Byte> := [0x66, 0x06, 0x3d, 0x12, 0x01, 0xda, 0xeb, 0xea];
    assert FromLE(b) == 16927863322537952870;
    ToFromLE(b);
  }

  /** Read back, the first segment of the buy data gives the buy discriminator. */
  lemma BuyDiscriminatorDecodes()
    ensures DecodeU64([0x66, 0x06, 0x3d, 0x12, 0x01, 0xda, 0xeb, 0xea]) == 16927863322537952870
  {
    BuyDiscriminatorBytes();
    DecodeEncodeU64(16927863322537952870);
  }

  /** The explorer's sell data starts with `33e685a4017f83ad`, the sell discriminator's bytes. */
  lemma SellDiscriminatorBytes()
    ensures EncodeU64(12502976635542562355) == [0x33, 0xe6, 0x85, 0xa4, 0x01, 0x7f, 0x83, 0xad]
  {
    var b: seq<Byte> := [0x33, 0xe6, 0x85, 0xa4, 0x01, 0x7f, 0x83, 0xad];
    assert FromLE(b) == 12502976635542562355;
    ToFromLE(b);
  }

  /** Read back, the first segment of the sell data gives the sell discriminator. */
  lemma SellDiscriminatorDecodes()
    ensures DecodeU64([0x33, 0xe6, 0x85, 0xa4, 0x01, 0x7f, 0x83, 0xad]) == 12502976635542562355
  {
    SellDiscriminatorBytes();
    DecodeEncodeU64(12502976635542562355);
  }
}

=== FILE: helius_service.dfy ===
/**
 * Token metadata lookups (`HeliusService`): a single asset by mint, the
 * pump.fun tokens a wallet holds, and a Dexscreener pair's base token.
 *
 * Every network reply is a parameter. A reply that is not OK, that throws,
 * or whose JSON carries an `error` member is a failure, which each lookup
 * turns into "nothing" (undefined, or an empty list).
 */
module HeliusService {
  import opened Wrappers
  import opened Types
  import opened Text

  const UNKNOWN_SYMBOL := "???"
  const UNKNOWN_NAME := "Unknown Token"

  /** `x || fallback` for an optional number: absent and zero both fall back. */
  function NumberOr(x: Option<real>, fallback: real): (r: real)
    ensures x.Some? && x.value != 0.0 ==> r == x.value
    ensures x.None? || x.value == 0.0 ==> r == fallback
  {
    if x.Some? && x.value != 0.0 then x.value else fallback
  }

  /** `Math.pow(10, n)` */
  function Pow10(n: nat): (r: real)
    ensures r >= 1.0
  {
    if n == 0 then 1.0 else 10.0 * Pow10(n - 1)
  }

  /** `Math.floor(ms / 1000)`: Dafny's division by a positive divisor rounds down. */
  function Seconds(ms: int): (r: int)
    ensures r * 1000 <= ms < (r + 1) * 1000
  {
    ms / 1000
  }

  /** The creation time in seconds: the asset's own when it has one, otherwise the current time. */
  function CreatedSeconds(createdAtMs: Option<int>, nowMs: int): (r: int)
    ensures r * 1000 <= createdAtMs.GetOr(nowMs) < r * 1000 + 1000
  {
    match createdAtMs
    case Some(ms) => Seconds(ms)
    case None => Seconds(nowMs)
  }

  // ---------------------------------------------------------------------
  // getAsset
  // ---------------------------------------------------------------------

  datatype PriceInfo = PriceInfo(pricePerToken: Option<real>)

  /** The `result` of a `getAsset` reply. */
  datatype Asset = Asset(
    symbol: Option<string>,
    name: Option<string>,
    image: Option<string>,
    createdAtMs: Option<int>,
    priceInfo: Option<PriceInfo>,
    supply: Option<real>,
    decimals: Option<nat>)

  /** A JSON-RPC reply: a failed request, or a body with an optional error and an optional result. */
  datatype RpcReply<T> = RequestFailed | Body(error: Option<string>, result: Option<T>)

  /** The token information built from an asset. */
  function AssetTokenInfo(asset: Asset, nowMs: int): (r: TokenInfo)
    ensures r.symbol == OrElse(asset.symbol, UNKNOWN_SYMBOL) && r.name == OrElse(asset.name, UNKNOWN_NAME)
    ensures r.imageUrl == OrElse(asset.image, "") && r.mintAddress.None?
    ensures r.createdTimestamp == CreatedSeconds(asset.createdAtMs, nowMs)
    ensures r.price.Some? && (asset.priceInfo.None? ==> r.price.value == 0.0)
    ensures asset.priceInfo.Some? ==> r.price == Some(NumberOr(asset.priceInfo.value.pricePerToken, 0.0))
    ensures r.marketCap != 0.0 ==> asset.priceInfo.Some? && asset.supply.Some? && asset.supply.value != 0.0
                                   && asset.decimals.Some?
    ensures asset.priceInfo.Some? && asset.supply.Some? && asset.supply.value != 0.0 && asset.decimals.Some? ==>
              r.marketCap == r.price.value * (asset.supply.value / Pow10(asset.decimals.value))
  {
    var price := if asset.priceInfo.Some? then NumberOr(asset.priceInfo.value.pricePerToken, 0.0) else 0.0;
    var marketCap :=
      if asset.priceInfo.Some? && asset.supply.Some? && asset.supply.value != 0.0 && asset.decimals.Some?
      then price * (asset.supply.value / Pow10(asset.decimals.value))
      else 0.0;
    TokenInfo(OrElse(asset.symbol, UNKNOWN_SYMBOL), OrElse(asset.name, UNKNOWN_NAME), OrElse(asset.image, ""),
              Some(price), marketCap, CreatedSeconds(asset.createdAtMs, nowMs), None)
  }

  /** `getAsset(mintAddress)` */
  function GetAsset(reply: RpcReply<Asset>, nowMs: int): (r: Option<TokenInfo>)
    ensures r.Some? <==> reply.Body? && reply.error.None? && reply.result.Some?
    ensures r.Some? ==> r.value == AssetTokenInfo(reply.result.value, nowMs)
  {
    match reply
    case RequestFailed => None
    case Body(error, result) =>
      if error.Some? then None
      else if result.None? then None
      else Some(AssetTokenInfo(result.value, nowMs))
  }

  /** A price with supply and decimals gives the market cap as price times the supply in whole tokens. */
  lemma AssetMarketCap(asset: Asset, nowMs: int, price: real, supply: real, decimals: nat)
    requires asset.priceInfo == Some(PriceInfo(Some(price))) && price != 0.0
    requires asset.supply == Some(supply) && supply != 0.0 && asset.decimals == Some(decimals)
    ensures AssetTokenInfo(asset, nowMs).price == Some(price)
    ensures AssetTokenInfo(asset, nowMs).marketCap == price * supply / Pow10(decimals)
    ensures AssetTokenInfo(asset, nowMs).marketCap != 0.0
  {
    var p := Pow10(decimals);
    assert price * (supply / p) == price * supply / p;
    assert price * supply != 0.0;
  }

  // ---------------------------------------------------------------------
  // searchAssets
  // ---------------------------------------------------------------------

  /** One item of a `searchAssets` reply. */
  datatype SearchItem = SearchItem(
    id: string,
    symbol: Option<string>,
    name: Option<string>,
    image: Option<string>,
    pricePerToken: Option<real>,
    supply: Option<real>,
    decimals: Option<nat>,
    createdAtMs: Option<int>)

  /** A pump.fun mint: its lower-cased address ends with 'pump'. */
  predicate IsPumpMint(id: string) {
    IsSuffix("pump", ToLower(id))
  }

  predicate IsPumpAsset(item: SearchItem) {
    IsPumpMint(item.id)
  }

  /** `items.filter(asset => asset.id.toLowerCase().endsWith('pump'))` */
  function PumpAssets(items: seq<SearchItem>): (r: seq<SearchItem>)
    ensures |r| <= |items|
    ensures forall x :: x in r <==> x in items && IsPumpAsset(x)
  {
    if |items| == 0 then []
    else if IsPumpAsset(items[0]) then [items[0]] + PumpAssets(items[1..])
    else PumpAssets(items[1..])
  }

  /** The filter keeps the reply's order: it distributes over concatenation. */
  lemma {:induction false} PumpAssetsAppend(xs: seq<SearchItem>, ys: seq<SearchItem>)
    ensures PumpAssets(xs + ys) == PumpAssets(xs) + PumpAssets(ys)
  {
    if |xs| > 0 {
      assert (xs + ys)[0] == xs[0] && (xs + ys)[1..] == xs[1..] + ys;
      PumpAssetsAppend(xs[1..], ys);
    } else {
      assert xs + ys == ys;
    }
  }

  /** The token information built from a search item. */
  function ItemTokenInfo(item: SearchItem, nowMs: int): (r: TokenInfo)
    ensures r.symbol == OrElse(item.symbol, UNKNOWN_SYMBOL) && r.name == OrElse(item.name, UNKNOWN_NAME)
    ensures r.imageUrl == OrElse(item.image, "") && r.price == item.pricePerToken
    ensures r.createdTimestamp == CreatedSeconds(item.createdAtMs, nowMs)
    ensures r.marketCap != 0.0 <==> item.pricePerToken.Some? && item.pricePerToken.value != 0.0
                                    && item.supply.Some? && item.supply.value != 0.0
    ensures r.marketCap != 0.0 ==>
              r.marketCap == item.pricePerToken.value * (item.supply.value / Pow10(item.decimals.GetOr(0)))
  {
    var supply := NumberOr(item.supply, 0.0);
    var decimals := if item.decimals.Some? then item.decimals.value else 0;
    var adjustedSupply := supply / Pow10(decimals);
    var marketCap := if item.pricePerToken.Some? && item.pricePerToken.value != 0.0 && supply != 0.0
                     then item.pricePerToken.value * adjustedSupply else 0.0;
    TokenInfo(OrElse(item.symbol, UNKNOWN_SYMBOL), OrElse(item.name, UNKNOWN_NAME), OrElse(item.image, ""),
              item.pricePerToken, marketCap, CreatedSeconds(item.createdAtMs, nowMs), None)
  }

  /** `searchAssets(ownerAddress)`: the pump.fun tokens, in reply order; nothing on any failure. */
  function SearchAssets(reply: RpcReply<seq<SearchItem>>, nowMs: int): (r: seq<TokenInfo>)
    ensures reply.RequestFailed? || reply.error.Some? || reply.result.None? ==> r == []
    ensures reply.Body? && reply.error.None? && reply.result.Some? ==>
      |r| == |PumpAssets(reply.result.value)|
      && forall i :: 0 <= i < |r| ==> r[i] == ItemTokenInfo(PumpAssets(reply.result.value)[i], nowMs)
  {
    match reply
    case RequestFailed => []
    case Body(error, result) =>
      if error.Some? || result.None? then []
      else
        var kept := PumpAssets(result.value);
        seq(|kept|, i requires 0 <= i < |kept| => ItemTokenInfo(kept[i], nowMs))
  }

  /** The suffix test ignores case: 'PUMP' counts as 'pump'. */
  lemma PumpSuffixIgnoresCase(stem: string)
    ensures IsPumpMint(stem + "PUMP") && IsPumpMint(stem + "pump") && IsPumpMint(stem + "Pump")
  {
    var a, b, c := ToLower(stem + "PUMP"), ToLower(stem + "pump"), ToLower(stem + "Pump");
    assert a[|a| - 4..] == "pump";
    assert b[|b| - 4..] == "pump";
    assert c[|c| - 4..] == "pump";
  }

  // ---------------------------------------------------------------------
  // getPairTokenInfo
  // ---------------------------------------------------------------------

  /**
   * The `pair` of a Dexscreener pair reply. `priceUsd` is what `parseFloat`
   * makes of the price (absent for NaN).
   */
  datatype Pair = Pair(
    baseSymbol: Option<string>,
    baseName: Option<string>,
    baseAddress: string,
    imageUrl: Option<string>,
    priceUsd: Option<real>,
    marketCap: Option<real>,
    pairCreatedAtMs: int)

  /** A Dexscreener reply: a failed request, or a body with an optional `pair` (no `error` member is read). */
  datatype PairReply = PairRequestFailed | PairBody(pair: Option<Pair>)

  /** `getPairTokenInfo(pairId)` */
  function GetPairTokenInfo(reply: PairReply): (r: Option<TokenInfo>)
    ensures r.Some? <==> reply.PairBody? && reply.pair.Some?
    ensures r.Some? ==>
      var pair := reply.pair.value;
      && r.value.mintAddress == Some(pair.baseAddress)
      && r.value.createdTimestamp * 1000 <= pair.pairCreatedAtMs < (r.value.createdTimestamp + 1) * 1000
      && r.value.symbol == OrElse(pair.baseSymbol, UNKNOWN_SYMBOL) && r.value.name == OrElse(pair.baseName, UNKNOWN_NAME)
      && r.value.price == Some(NumberOr(pair.priceUsd, 0.0)) && r.value.marketCap == NumberOr(pair.marketCap, 0.0)
  {
    match reply
    case PairRequestFailed => None
    case PairBody(None) => None
    case PairBody(Some(pair)) =>
        Some(TokenInfo(OrElse(pair.baseSymbol, UNKNOWN_SYMBOL), OrElse(pair.baseName, UNKNOWN_NAME),
                       OrElse(pair.imageUrl, ""), Some(NumberOr(pair.priceUsd, 0.0)), NumberOr(pair.marketCap, 0.0),
                       Seconds(pair.pairCreatedAtMs), Some(pair.baseAddress)))
  }
}

=== FILE: little_endian.dfy ===
/** Little-endian unsigned integers of a fixed byte width. */
module LittleEndian {
  import opened Wrappers

  type Byte = x: int | 0 <= x < 256

  /** 2^64, the bound of an unsigned 64-bit integer. */
  const U64_LIMIT: nat := 0x1_0000_0000_0000_0000

  function Pow256(n: nat): (r: nat)
    ensures r >= 1
  {
    if n == 0 then 1 else 256 * Pow256(n - 1)
  }

  /** The value of `b` read least significant byte first. */
  function FromLE(b: seq<Byte>): (r: nat)
    ensures r < Pow256(|b|)
  {
    if |b| == 0 then 0 else b[0] + 256 * FromLE(b[1..])
  }

  /** The `n` least significant bytes of `x`, least significant first. */
  function ToLE(x: nat, n: nat): (r: seq<Byte>)
    ensures |r| == n
  {
    if n == 0 then [] else [x % 256] + ToLE(x / 256, n - 1)
  }

  lemma {:induction false} FromToLE(x: nat, n: nat)
    requires x < Pow256(n)
    ensures FromLE(ToLE(x, n)) == x
  {
    if n > 0 {
      FromToLE(x / 256, n - 1);
      assert ToLE(x, n)[1..] == ToLE(x / 256, n - 1);
    }
  }

  lemma {:induction false} ToFromLE(b: seq<Byte>)
    ensures ToLE(FromLE(b), |b|) == b
  {
    if |b| > 0 {
      var x := FromLE(b);
      assert x % 256 == b[0] && x / 256 == FromLE(b[1..]);
      ToFromLE(b[1..]);
    }
  }

  lemma Pow256Of8()
    ensures Pow256(8) == U64_LIMIT
  {
  }

  /** `struct.unpack('<Q', b)` and `DataView.getBigUint64(offset, true)` on an 8-byte slice. */
  function DecodeU64(b: seq<Byte>): (r: nat)
    requires |b| == 8
    ensures r < U64_LIMIT
  {
    Pow256Of8();
    FromLE(b)
  }

  /** `struct.pack('<Q', x)`; Python raises `struct.error` outside [0, 2^64). */
  function EncodeU64(x: nat): (r: seq<Byte>)
    requires x < U64_LIMIT
    ensures |r| == 8
  {
    ToLE(x, 8)
  }

  lemma DecodeEncodeU64(x: nat)
    requires x < U64_LIMIT
    ensures DecodeU64(EncodeU64(x)) == x
  {
    Pow256Of8();
    FromToLE(x, 8);
  }

  lemma EncodeDecodeU64(b: seq<Byte>)
    requires |b| == 8
    ensures EncodeU64(DecodeU64(b)) == b
  {
    ToFromLE(b);
  }

  predicate AllU64(xs: seq<int>) {
    forall i :: 0 <= i < |xs| ==> 0 <= xs[i] < U64_LIMIT
  }

  /** `b''.join(struct.pack('<Q', x) for x in xs)`, or `None` when a value is out of range. */
  function PackU64s(xs: seq<int>): (r: Option<seq<Byte>>)
    ensures r.Some? <==> AllU64(xs)
    ensures r.Some? ==> |r.value| == 8 * |xs|
  {
    if |xs| == 0 then Some([])
    else if !(0 <= xs[0] < U64_LIMIT) then None
    else
      match PackU64s(xs[1..])
      case None => None
      case Some(rest) => Some(EncodeU64(xs[0]) + rest)
  }

  /** Consecutive 8-byte groups of `b` read as unsigned 64-bit integers. */
  function UnpackU64s(b: seq<Byte>): (r: seq<nat>)
    requires |b| % 8 == 0
    ensures |r| == |b| / 8
    ensures forall i :: 0 <= i < |r| ==> r[i] < U64_LIMIT
  {
    if |b| == 0 then [] else [DecodeU64(b[..8])] + UnpackU64s(b[8..])
  }

  /** Unpacking inverts packing. */
  lemma {:induction false} UnpackPack(xs: seq<int>)
    requires AllU64(xs)
    ensures PackU64s(xs).Some?
    ensures UnpackU64s(PackU64s(xs).value) == xs
  {
    if |xs| > 0 {
      UnpackPack(xs[1..]);
      var b := PackU64s(xs).value;
      assert b[..8] == EncodeU64(xs[0]);
      assert b[8..] == PackU64s(xs[1..]).value;
      DecodeEncodeU64(xs[0]);
    }
  }

}

=== FILE: pump_proxy.dfy ===
/**
 * The `/api/pump-proxy` route: it looks a mint address up on pump.fun's
 * coin endpoint, retrying failed fetches with doubling waits, tries one
 * alternate spelling of the address when the token is not found, and maps
 * the final error to an HTTP status.
 *
 * The network is a parameter: `respond(url, i)` is what the `i`-th fetch of
 * `url` produces. Waits are recorded by their length.
 */
module PumpProxy {
  import opened Wrappers
  import opened Text

  /** The parsed body of an OK response: not JSON, falsy or `{}`, or real data. */
  datatype JsonBody = Unparseable(message: string) | EmptyData | Payload(value: string)

  datatype Response = Response(contentType: Option<string>, status: nat, bodyText: string, json: JsonBody)

  /** A fetch either yields a response or throws; `message` is absent when the thrown value is not an `Error`. */
  datatype FetchOutcome = Responded(response: Response) | FetchThrew(message: Option<string>)

  /** What one attempt of `fetchWithRetry` leads to. */
  datatype Attempt = Returned(data: string) | Fatal(error: string) | Retryable(error: string)

  /** The result of `fetchWithRetry`, the waits it made and how many fetches it performed. */
  datatype Fetch = Fetch(result: Result<string, string>, waits: seq<nat>, fetches: nat)

  const TOKEN_NOT_FOUND := "Token not found"
  const ENDPOINT_UNAVAILABLE := "Endpoint unavailable"
  const INTERNAL_SERVER_ERROR := "Internal server error"
  const EMPTY_RESPONSE := "Empty or invalid response data"
  const UNKNOWN_ERROR := "Unknown error occurred"
  const RETRIES: nat := 3
  const BASE_DELAY: nat := 1000
  const COINS_ENDPOINT := "https://frontend-api.pump.fun/coins/"

  function Pow2(n: nat): (r: nat)
    ensures r >= 1
  {
    if n == 0 then 1 else 2 * Pow2(n - 1)
  }

  /** The wait after a failed attempt `i`: `delay * Math.pow(2, i)`. */
  function Backoff(i: nat): nat {
    BASE_DELAY * Pow2(i)
  }

  predicate IsHtml(r: Response) {
    r.contentType.Some? && Contains(r.contentType.value, "text/html")
  }

  predicate IsOk(r: Response) {
    200 <= r.status <= 299
  }

  /** An error the `catch` block rethrows at once: a missing token or an HTML error page. */
  predicate NotRetried(message: string) {
    message == TOKEN_NOT_FOUND || message == ENDPOINT_UNAVAILABLE
  }

  /** The error thrown inside the `try` for an error message: rethrown at once or retried. */
  function Thrown(message: string): (r: Attempt)
    ensures r.Fatal? <==> NotRetried(message)
    ensures !r.Returned? && r.error == message
  {
    if NotRetried(message) then Fatal(message) else Retryable(message)
  }

  /**
   * One attempt: an HTML page first, then 404, then 500, then an OK
   * response whose data must be non-empty; any other status fails with its
   * text.
   */
  function Classify(o: FetchOutcome): (r: Attempt)
    ensures r.Fatal? ==> NotRetried(r.error)
    ensures o.Responded? && IsHtml(o.response) ==> r == Fatal(ENDPOINT_UNAVAILABLE)
    ensures o.Responded? && !IsHtml(o.response) && o.response.status == 404 ==> r == Fatal(TOKEN_NOT_FOUND)
    ensures o.Responded? && !IsHtml(o.response) && o.response.status == 500 ==> r == Retryable(INTERNAL_SERVER_ERROR)
    ensures r.Returned? <==> o.Responded? && !IsHtml(o.response) && IsOk(o.response) && o.response.json.Payload?
  {
    match o
    case FetchThrew(None) => Retryable(UNKNOWN_ERROR)
    case FetchThrew(Some(m)) => Thrown(m)
    case Responded(resp) =>
      if IsHtml(resp) then Thrown(ENDPOINT_UNAVAILABLE)
      else if resp.status == 404 then Thrown(TOKEN_NOT_FOUND)
      else if resp.status == 500 then Thrown(INTERNAL_SERVER_ERROR)
      else if IsOk(resp) then
        match resp.json
        case Payload(v) => Returned(v)
        case EmptyData => Thrown(EMPTY_RESPONSE)
        case Unparseable(m) => Thrown(m)
      else
        Retryable("API responded with status: " + DecimalString(resp.status) + " - " + resp.bodyText)
  }

  /** `fetchWithRetry(url, options)` from attempt `i` on. */
  function Retrying(respond: (string, nat) -> FetchOutcome, url: string, i: nat): (r: Fetch)
    requires i < RETRIES
    ensures i < r.fetches <= RETRIES
    ensures |r.waits| == r.fetches - 1 - i
    decreases RETRIES - i
  {
    match Classify(respond(url, i))
    case Returned(v) => Fetch(Success(v), [], i + 1)
    case Fatal(e) => Fetch(Failure(e), [], i + 1)
    case Retryable(e) =>
      if i == RETRIES - 1 then Fetch(Failure(e), [], RETRIES)
      else
        var rest := Retrying(respond, url, i + 1);
        rest.(waits := [Backoff(i)] + rest.waits)
  }

  /** The fetch count and the waits: one wait, doubling from the base delay, after every fetch but the last. */
  lemma {:induction false} RetryingWaits(respond: (string, nat) -> FetchOutcome, url: string, i: nat)
    requires i < RETRIES
    ensures var f := Retrying(respond, url, i);
      && i < f.fetches <= RETRIES
      && f.waits == seq(f.fetches - 1 - i, k requires 0 <= k => Backoff(i + k))
    decreases RETRIES - i
  {
    if Classify(respond(url, i)).Retryable? && i < RETRIES - 1 {
      RetryingWaits(respond, url, i + 1);
    }
  }

  /** Every fetch but the last was retryable, and the result is the last fetch's data or error. */
  lemma {:induction false} RetryingOutcome(respond: (string, nat) -> FetchOutcome, url: string, i: nat)
    requires i < RETRIES
    ensures var f := Retrying(respond, url, i);
      && i < f.fetches
      && (forall k :: i <= k < f.fetches - 1 ==> Classify(respond(url, k)).Retryable?)
      && (f.result.Success? <==> Classify(respond(url, f.fetches - 1)).Returned?)
      && (f.result.Success? ==> f.result.value == Classify(respond(url, f.fetches - 1)).data)
      && (f.result.Failure? ==> f.result.error == Classify(respond(url, f.fetches - 1)).error)
    decreases RETRIES - i
  {
    if Classify(respond(url, i)).Retryable? && i < RETRIES - 1 {
      RetryingOutcome(respond, url, i + 1);
      var rest := Retrying(respond, url, i + 1);
      assert Retrying(respond, url, i).result == rest.result;
      assert Retrying(respond, url, i).fetches == rest.fetches;
    }
  }

  /**
   * At most three fetches; every fetch but the last was retryable and was
   * followed by its wait; the result is the last fetch's data or error.
   */
  lemma RetryingShape(respond: (string, nat) -> FetchOutcome, url: string, i: nat)
    requires i < RETRIES
    ensures var f := Retrying(respond, url, i);
      && i < f.fetches <= RETRIES
      && f.waits == seq(f.fetches - 1 - i, k requires 0 <= k => Backoff(i + k))
      && (forall k :: i <= k < f.fetches - 1 ==> Classify(respond(url, k)).Retryable?)
      && (f.result.Success? <==> Classify(respond(url, f.fetches - 1)).Returned?)
      && (f.result.Success? ==> f.result.value == Classify(respond(url, f.fetches - 1)).data)
      && (f.result.Failure? ==> f.result.error == Classify(respond(url, f.fetches - 1)).error)
  {
    RetryingWaits(respond, url, i);
    RetryingOutcome(respond, url, i);
  }

  /** A missing token or an unavailable endpoint ends the retries at once. */
  lemma NotFoundIsNotRetried(respond: (string, nat) -> FetchOutcome, url: string)
    requires Classify(respond(url, 0)).Fatal?
    ensures Retrying(respond, url, 0) == Fetch(Failure(Classify(respond(url, 0)).error), [], 1)
  {
  }

  /** The waits between the three attempts are one and then two seconds. */
  lemma RetryWaits(respond: (string, nat) -> FetchOutcome, url: string)
    ensures Retrying(respond, url, 0).waits == [1000, 2000][..Retrying(respond, url, 0).fetches - 1]
  {
    RetryingShape(respond, url, 0);
    var f := Retrying(respond, url, 0);
    assert Backoff(0) == 1000 && Backoff(1) == 2000;
    assert f.fetches - 1 <= 2;
  }

  /** `fetchWithRetry`: the loop of at most three attempts. */
  method FetchWithRetry(respond: (string, nat) -> FetchOutcome, url: string) returns (f: Fetch)
    ensures f == Retrying(respond, url, 0)
  {
    var waits: seq<nat> := [];
    var i := 0;
    while i < RETRIES
      invariant 0 <= i < RETRIES
      invariant Retrying(respond, url, 0) == Retrying(respond, url, i).(waits := waits + Retrying(respond, url, i).waits)
      decreases RETRIES - i
    {
      var attempt := Classify(respond(url, i));
      match attempt {
        case Returned(v) =>
          return Fetch(Success(v), waits, i + 1);
        case Fatal(e) =>
          return Fetch(Failure(e), waits, i + 1);
        case Retryable(e) =>
          if i == RETRIES - 1 {
            return Fetch(Failure(e), waits, RETRIES);
          }
          waits := waits + [Backoff(i)];
          i := i + 1;
      }
    }
    assert false;
  }

  /** The address without a trailing 'pump'. */
  function BaseMintAddress(mint: string): (r: string)
    ensures IsSuffix("pump", mint) ==> r + "pump" == mint
    ensures !IsSuffix("pump", mint) ==> r == mint
  {
    if IsSuffix("pump", mint) then mint[..|mint| - 4] else mint
  }

  /** The second address tried after 'Token not found': the base address, or the address with 'pump' added. */
  function AlternateAddress(mint: string): (r: string)
    ensures r != mint
    ensures IsSuffix("pump", mint) ==> r + "pump" == mint
    ensures !IsSuffix("pump", mint) ==> r == mint + "pump"
  {
    var base := BaseMintAddress(mint);
    if mint != base then base else base + "pump"
  }

  function CoinUrl(address: string): string {
    COINS_ENDPOINT + address
  }

  /** The JSON body of the route's answer. */
  datatype ProxyBody =
    | Data(value: string)
    | MissingMint
    | NotFound(mintAddress: string, triedAddresses: seq<string>)
    | Unavailable(mintAddress: string)
    | FetchFailed(details: string, mintAddress: string)

  datatype HttpResponse = HttpResponse(status: nat, body: ProxyBody)

  /** The `catch` block's mapping of an error to a response. */
  function ErrorResponse(error: string, mint: string): (r: HttpResponse)
    ensures r.status == 404 <==> error == TOKEN_NOT_FOUND
    ensures r.status == 503 <==> error == ENDPOINT_UNAVAILABLE
    ensures r.status == 500 <==> !NotRetried(error)
    ensures r.status == 500 ==> r.body == FetchFailed(error, mint)
  {
    if error == TOKEN_NOT_FOUND then HttpResponse(404, NotFound(mint, [mint, AlternateAddress(mint)]))
    else if error == ENDPOINT_UNAVAILABLE then HttpResponse(503, Unavailable(mint))
    else HttpResponse(500, FetchFailed(error, mint))
  }

  /** What the route answers, and the URLs it fetched, in order. */
  datatype Served = Served(response: HttpResponse, urls: seq<string>)

  /** `GET(request)` as a function of the query parameter and the network. */
  function Proxy(mintParam: Option<string>, respond: (string, nat) -> FetchOutcome): (r: Served)
    ensures r.response.status == 400 <==> mintParam.None? || mintParam.value == []
    ensures |r.urls| <= 2
  {
    if mintParam.None? || mintParam.value == [] then Served(HttpResponse(400, MissingMint), [])
    else
      var mint := mintParam.value;
      var first := Retrying(respond, CoinUrl(mint), 0);
      match first.result
      case Success(v) => Served(HttpResponse(200, Data(v)), [CoinUrl(mint)])
      case Failure(e) =>
        if e != TOKEN_NOT_FOUND then Served(ErrorResponse(e, mint), [CoinUrl(mint)])
        else
          var alt := AlternateAddress(mint);
          var second := Retrying(respond, CoinUrl(alt), 0);
          match second.result
          case Success(v) => Served(HttpResponse(200, Data(v)), [CoinUrl(mint), CoinUrl(alt)])
          case Failure(e2) => Served(ErrorResponse(e2, mint), [CoinUrl(mint), CoinUrl(alt)])
  }

  /**
   * The route's contract: a missing address is a 400 and fetches nothing;
   * otherwise one or two addresses are fetched, the second only after the
   * first was not found and always the alternate spelling, and always
   * then; the status is 200 exactly when a fetch returned data, and the
   * body is then the last fetch's data; any other answer is the error
   * response for the last fetch's error.
   */
  lemma ProxyOutcomes(mintParam: Option<string>, respond: (string, nat) -> FetchOutcome)
    ensures var s := Proxy(mintParam, respond);
      && (mintParam.None? || mintParam.value == [] <==> s.response.status == 400)
      && (s.response.status == 400 ==> s.urls == [])
      && s.response.status in {200, 400, 404, 500, 503}
      && (s.response.status != 400 ==> 1 <= |s.urls| <= 2 && s.urls[0] == CoinUrl(mintParam.value))
      && (|s.urls| == 2 ==>
            Retrying(respond, s.urls[0], 0).result == Failure(TOKEN_NOT_FOUND)
            && s.urls[1] == CoinUrl(AlternateAddress(mintParam.value)))
      && (s.response.status == 200 <==> s.response.body.Data?)
      && ((mintParam.Some? && mintParam.value != []
           && Retrying(respond, CoinUrl(mintParam.value), 0).result == Failure(TOKEN_NOT_FOUND)) ==> |s.urls| == 2)
      && (s.response.status == 200 ==>
            Retrying(respond, s.urls[|s.urls| - 1], 0).result.Success?
            && s.response.body == Data(Retrying(respond, s.urls[|s.urls| - 1], 0).result.value))
      && (s.response.status !in {200, 400} ==>
            Retrying(respond, s.urls[|s.urls| - 1], 0).result.Failure?
            && s.response == ErrorResponse(Retrying(respond, s.urls[|s.urls| - 1], 0).result.error, mintParam.value))
  {
  }

  /**
   * `GET(request)`: the missing-address check, the fetch of the address
   * and, after 'Token not found', of its alternate spelling.
   */
  method Get(mintParam: Option<string>, respond: (string, nat) -> FetchOutcome) returns (r: Served)
    ensures r == Proxy(mintParam, respond)
  {
    if mintParam.None? || mintParam.value == [] {
      return Served(HttpResponse(400, MissingMint), []);
    }
    var mint := mintParam.value;
    var first := FetchWithRetry(respond, CoinUrl(mint));
    if first.result.Success? {
      return Served(HttpResponse(200, Data(first.result.value)), [CoinUrl(mint)]);
    }
    if first.result.error != TOKEN_NOT_FOUND {
      return Served(ErrorResponse(first.result.error, mint), [CoinUrl(mint)]);
    }
    var alt := AlternateAddress(mint);
    var second := FetchWithRetry(respond, CoinUrl(alt));
    if second.result.Success? {
      return Served(HttpResponse(200, Data(second.result.value)), [CoinUrl(mint), CoinUrl(alt)]);
    }
    return Served(ErrorResponse(second.result.error, mint), [CoinUrl(mint), CoinUrl(alt)]);
  }
}

=== FILE: pump_twitter.dfy ===
/**
 * The trading script (`pump_twitter.py`): `buy` and `sell` on the pump.fun
 * bonding curve. Each checks the coin data and the slippage, builds the
 * swap instruction from twelve accounts and 24 bytes of data (an 8-byte
 * discriminator and two little-endian u64 amounts), and puts it after the
 * compute-budget instructions.
 *
 * The chain and the pump.fun API are parameters: the coin data, whether
 * the wallet already has a token account, the derived associated token
 * account, the fetched balance, and whether the key strings parse. The
 * floating-point amounts (`token_out`, `max_sol_cost`, the fee and
 * `min_sol_output`) are parameters too. Every exception, including
 * `ZeroDivisionError` and `struct.error`, ends the call with `Raised`.
 */
module PumpTwitter {
  import opened Wrappers
  import opened LittleEndian
  import FindInstruction

  /** The pump.fun program's buy discriminator. */
  const BUY_DISCRIMINATOR: nat := 16927863322537952870
  /** The pump.fun program's sell discriminator. */
  const SELL_DISCRIMINATOR: nat := 12502976635542562355

  /** The coin data fields the script reads. */
  datatype Coin = Coin(
    mint: string,
    bondingCurve: string,
    associatedBondingCurve: string,
    virtualSolReserves: int,
    virtualTokenReserves: int)

  /** An account key: a named well-known account, the wallet, or an address taken from the data. */
  datatype Key =
    | Global
    | FeeRecipient
    | Account(address: string)
    | User
    | SystemProgram
    | TokenProgram
    | Rent
    | EventAuthority
    | PumpFunProgram
    | AssocTokenAccProg
    | PlatformFeeRecipient

  datatype AccountMeta = AccountMeta(key: Key, isSigner: bool, isWritable: bool)

  /**
   * The instructions the script uses. The compute-unit price and limit
   * come from a constants file that is not part of this model, so they
   * carry no value here.
   */
  datatype Instruction =
    | ComputeUnitPrice
    | ComputeUnitLimit
    | CreateAssociatedTokenAccount(tokenMint: string)
    | Invoke(program: Key, data: seq<Byte>, accounts: seq<AccountMeta>)

  /** The floating-point results of lines 44-52, already converted with `int(...)`. */
  datatype BuyAmounts = BuyAmounts(tokenOut: int, maxSolCost: int, feeAmount: int)

  /** How a call ends: an early return, an exception, or a transaction handed to the network. */
  datatype Trade =
    | NoCoinData
    | SlippageTooHigh
    | NothingToSell
    | Raised
    | Submitted(instructions: seq<Instruction>)

  /** The twelve accounts of a swap; the sell puts the associated token program where the buy puts rent. */
  function SwapAccounts(coin: Coin, tokenAccount: string, isBuy: bool): (r: seq<AccountMeta>)
    ensures |r| == 12
  {
    [ AccountMeta(Global, false, false),
      AccountMeta(FeeRecipient, false, true),
      AccountMeta(Account(coin.mint), false, false),
      AccountMeta(Account(coin.bondingCurve), false, true),
      AccountMeta(Account(coin.associatedBondingCurve), false, true),
      AccountMeta(Account(tokenAccount), false, true),
      AccountMeta(User, true, true),
      AccountMeta(SystemProgram, false, false) ]
    + (if isBuy then [AccountMeta(TokenProgram, false, false), AccountMeta(Rent, false, false)]
       else [AccountMeta(AssocTokenAccProg, false, false), AccountMeta(TokenProgram, false, false)])
    + [ AccountMeta(EventAuthority, false, false),
        AccountMeta(PumpFunProgram, false, false) ]
  }

  /** The swap's accounts: twelve, the wallet the only signer, and the wallet, the curve, its token account and the user's token account writable. */
  lemma SwapAccountsShape(coin: Coin, tokenAccount: string, isBuy: bool)
    ensures var keys := SwapAccounts(coin, tokenAccount, isBuy);
      && |keys| == 12
      && (forall i :: 0 <= i < 12 ==> (keys[i].isSigner <==> keys[i].key == User))
      && (forall i :: 0 <= i < 12 ==> (keys[i].isWritable <==> i in {1, 3, 4, 5, 6}))
      && keys[6] == AccountMeta(User, true, true)
      && keys[5].key == Account(tokenAccount) && keys[2].key == Account(coin.mint)
      && keys[11].key == PumpFunProgram
  {
  }

  /** The fee transfer: the System Program moves `feeAmount` from the wallet to the platform. */
  function FeeTransfer(feeAmount: nat): (r: Instruction)
    requires feeAmount < U64_LIMIT
    ensures r.Invoke? && r.program == SystemProgram && |r.data| == 8
    ensures DecodeU64(r.data) == feeAmount
    ensures |r.accounts| == 3 && r.accounts[0] == AccountMeta(User, true, true)
  {
    DecodeEncodeU64(feeAmount);
    Invoke(SystemProgram, EncodeU64(feeAmount),
           [ AccountMeta(User, true, true),
             AccountMeta(PlatformFeeRecipient, false, true),
             AccountMeta(SystemProgram, false, false) ])
  }

  /**
   * The swap instruction's data: the discriminator and the two amounts,
   * each packed as `<Q`; `None` where `struct.pack` raises because a value
   * is out of range.
   */
  function SwapData(discriminator: nat, first: int, second: int): (r: Option<seq<Byte>>)
    requires discriminator < U64_LIMIT
    ensures r.Some? <==> 0 <= first < U64_LIMIT && 0 <= second < U64_LIMIT
    ensures r.Some? ==> |r.value| == 24
  {
    var xs := [discriminator, first, second];
    assert AllU64(xs) <==> 0 <= xs[1] < U64_LIMIT && 0 <= xs[2] < U64_LIMIT;
    PackU64s(xs)
  }

  /** `int(x)` on a float: truncation toward zero. */
  function Truncate(x: real): (r: int)
    ensures x >= 0.0 ==> r as real <= x < r as real + 1.0
    ensures x < 0.0 ==> r as real - 1.0 < x <= r as real
  {
    if x >= 0.0 then x.Floor else -((-x).Floor)
  }

  /**
   * `buy(mint_str, sol_in, slippage_decimal)`. `found` is the wallet's
   * existing token account for the mint, if the lookup finds one; `ata`
   * is the derived associated token account used otherwise.
   */
  method Buy(coin: Option<Coin>, slippage: real, keysParse: bool, found: Option<string>, ata: string,
             amounts: BuyAmounts)
    returns (r: Trade)
    ensures r == NoCoinData <==> coin.None?
    ensures r == SlippageTooHigh <==> coin.Some? && slippage > 1.0
    ensures r != NothingToSell
    ensures r.Submitted? <==>
      && coin.Some? && slippage <= 1.0 && keysParse && coin.value.virtualSolReserves != 0
      && 0 <= amounts.tokenOut < U64_LIMIT && 0 <= amounts.maxSolCost < U64_LIMIT
      && 0 <= amounts.feeAmount < U64_LIMIT
    ensures r.Submitted? ==>
      var tokenAccount := if found.Some? then found.value else ata;
      r.instructions
        == [ComputeUnitPrice, ComputeUnitLimit]
           + (if found.None? then [CreateAssociatedTokenAccount(coin.value.mint)] else [])
           + [ Invoke(PumpFunProgram, SwapData(BUY_DISCRIMINATOR, amounts.tokenOut, amounts.maxSolCost).value,
                      SwapAccounts(coin.value, tokenAccount, true)),
               FeeTransfer(amounts.feeAmount) ]
  {
    if coin.None? {
      return NoCoinData;
    }
    if slippage > 1.0 {
      return SlippageTooHigh;
    }
    if !keysParse {
      return Raised;
    }
    var tokenAccount: string;
    var createAccount: Option<Instruction>;
    if found.Some? {
      tokenAccount, createAccount := found.value, None;
    } else {
      tokenAccount, createAccount := ata, Some(CreateAssociatedTokenAccount(coin.value.mint));
    }
    // token_out divides by the virtual SOL reserves
    if coin.value.virtualSolReserves == 0 {
      return Raised;
    }
    var keys := SwapAccounts(coin.value, tokenAccount, true);
    var data := SwapData(BUY_DISCRIMINATOR, amounts.tokenOut, amounts.maxSolCost);
    if data.None? {
      return Raised;
    }
    var swap := Invoke(PumpFunProgram, data.value, keys);
    if !(0 <= amounts.feeAmount < U64_LIMIT) {
      return Raised;
    }
    var instructions := Assemble(createAccount, swap, Some(FeeTransfer(amounts.feeAmount)));
    return Submitted(instructions);
  }

  /**
   * The transaction's instructions, appended in order: the compute-unit
   * price and limit, the account creation when there is one, the swap,
   * and the fee transfer when there is one.
   */
  method Assemble(createAccount: Option<Instruction>, swap: Instruction, fee: Option<Instruction>)
    returns (instructions: seq<Instruction>)
    ensures instructions == [ComputeUnitPrice, ComputeUnitLimit] + (if createAccount.Some? then [createAccount.value] else [])
                           + [swap] + (if fee.Some? then [fee.value] else [])
  {
    instructions := [];
    instructions := instructions + [ComputeUnitPrice];
    instructions := instructions + [ComputeUnitLimit];
    if createAccount.Some? {
      instructions := instructions + [createAccount.value];
    }
    instructions := instructions + [swap];
    if fee.Some? {
      instructions := instructions + [fee.value];
    }
  }

  /**
   * `sell(mint_str, token_balance, slippage_decimal)`. `balance` is the
   * caller's `token_balance`; `fetched` is what `get_token_balance` gives
   * when it is absent (nothing on failure). `ata` is the wallet's derived
   * associated token account for the mint. `mintParses` says whether the
   * mint string is a public key, parsed before the balance is looked at;
   * `coinKeysParse` whether the coin data's mint and curve accounts are,
   * parsed only once there is something to sell, so a zero balance returns
   * even when they are not.
   */
  method Sell(coin: Option<Coin>, slippage: real, mintParses: bool, coinKeysParse: bool, ata: string,
              balance: Option<real>, fetched: Option<real>, minSolOutput: int)
    returns (r: Trade)
    ensures r == NoCoinData <==> coin.None?
    ensures r == SlippageTooHigh <==> coin.Some? && slippage > 1.0
    ensures var b := if balance.Some? then balance else fetched;
      && (r == NothingToSell <==>
            coin.Some? && slippage <= 1.0 && mintParses && coin.value.virtualTokenReserves != 0 && b == Some(0.0))
      && (r.Submitted? <==>
            && coin.Some? && slippage <= 1.0 && mintParses && coin.value.virtualTokenReserves != 0
            && b.Some? && b.value != 0.0 && coinKeysParse
            && 0 <= Truncate(b.value * 1000000.0) < U64_LIMIT && 0 <= minSolOutput < U64_LIMIT)
      && (r.Submitted? ==>
            r.instructions == [ComputeUnitPrice, ComputeUnitLimit,
                               Invoke(PumpFunProgram,
                                      SwapData(SELL_DISCRIMINATOR, Truncate(b.value * 1000000.0), minSolOutput).value,
                                      SwapAccounts(coin.value, ata, false))])
  {
    if coin.None? {
      return NoCoinData;
    }
    if slippage > 1.0 {
      return SlippageTooHigh;
    }
    if !mintParses {
      return Raised;
    }
    // the price per token divides by the virtual token reserves
    if coin.value.virtualTokenReserves == 0 {
      return Raised;
    }
    var tokenBalance := balance;
    if tokenBalance.None? {
      tokenBalance := fetched;
    }
    if tokenBalance == Some(0.0) {
      return NothingToSell;
    }
    // `None * 10**6` is a TypeError
    if tokenBalance.None? {
      return Raised;
    }
    var amount := Truncate(tokenBalance.value * 1000000.0);
    if !coinKeysParse {
      return Raised;
    }
    var keys := SwapAccounts(coin.value, ata, false);
    var data := SwapData(SELL_DISCRIMINATOR, amount, minSolOutput);
    if data.None? {
      return Raised;
    }
    var instructions := Assemble(None, Invoke(PumpFunProgram, data.value, keys), None);
    return Submitted(instructions);
  }

  /** Packed integers both unpack and read back from their hex as the same integers. */
  lemma PackedRoundTrip(xs: seq<int>)
    requires AllU64(xs)
    ensures PackU64s(xs).Some?
    ensures UnpackU64s(PackU64s(xs).value) == xs
    ensures FindInstruction.DecodeInstructionData(FindInstruction.ToHex(PackU64s(xs).value)) == Some(xs)
  {
    UnpackPack(xs);
    FindInstruction.DecodePacked(xs);
  }

  /** The swap data of a buy unpacks to the discriminator and the two amounts. */
  lemma BuyDataRoundTrip(tokenOut: int, maxSolCost: int)
    requires 0 <= tokenOut < U64_LIMIT && 0 <= maxSolCost < U64_LIMIT
    ensures var data := SwapData(BUY_DISCRIMINATOR, tokenOut, maxSolCost);
      && UnpackU64s(data.value) == [BUY_DISCRIMINATOR, tokenOut, maxSolCost]
      && FindInstruction.DecodeInstructionData(FindInstruction.ToHex(data.value)) == Some([BUY_DISCRIMINATOR, tokenOut, maxSolCost])
  {
    PackedRoundTrip([BUY_DISCRIMINATOR, tokenOut, maxSolCost]);
  }

  /** The swap data of a sell unpacks to the sell discriminator, the amount and the minimum output. */
  lemma SellDataRoundTrip(amount: int, minSolOutput: int)
    requires 0 <= amount < U64_LIMIT && 0 <= minSolOutput < U64_LIMIT
    ensures var data := SwapData(SELL_DISCRIMINATOR, amount, minSolOutput);
      && UnpackU64s(data.value) == [SELL_DISCRIMINATOR, amount, minSolOutput]
      && FindInstruction.DecodeInstructionData(FindInstruction.ToHex(data.value)) == Some([SELL_DISCRIMINATOR, amount, minSolOutput])
  {
    PackedRoundTrip([SELL_DISCRIMINATOR, amount, minSolOutput]);
  }

  /** The first eight bytes of buy data are the discriminator's, whatever the amounts. */
  lemma BuyDataStartsWithDiscriminator(tokenOut: int, maxSolCost: int)
    requires 0 <= tokenOut < U64_LIMIT && 0 <= maxSolCost < U64_LIMIT
    ensures SwapData(BUY_DISCRIMINATOR, tokenOut, maxSolCost).value[..8] == [0x66, 0x06, 0x3d, 0x12, 0x01, 0xda, 0xeb, 0xea]
  {
    var xs := [BUY_DISCRIMINATOR, tokenOut, maxSolCost];
    assert PackU64s(xs).value == EncodeU64(BUY_DISCRIMINATOR) + PackU64s(xs[1..]).value;
    FindInstruction.BuyDiscriminatorBytes();
  }

  /** The first eight bytes of sell data are the sell discriminator's. */
  lemma SellDataStartsWithDiscriminator(amount: int, minSolOutput: int)
    requires 0 <= amount < U64_LIMIT && 0 <= minSolOutput < U64_LIMIT
    ensures SwapData(SELL_DISCRIMINATOR, amount, minSolOutput).value[..8] == [0x33, 0xe6, 0x85, 0xa4, 0x01, 0x7f, 0x83, 0xad]
  {
    var xs := [SELL_DISCRIMINATOR, amount, minSolOutput];
    assert PackU64s(xs).value == EncodeU64(SELL_DISCRIMINATOR) + PackU64s(xs[1..]).value;
    FindInstruction.SellDiscriminatorBytes();
  }
}

=== FILE: pumpbot.dfy ===
/**
 * The polling bot (`pumpbot.py`): the tweet search keeps the tweets that
 * link a pump.fun token and numbers them in a results file; the follower
 * check looks up each new tweet's author once and appends the profile to
 * a profiles file; the buyer buys every token linked from a newly seen
 * profile with more than 10000 followers.
 *
 * The JSON files are values (`JsonFile`), the search API's tweets and the
 * profile lookups are parameters, and each thread's endless loop is one
 * pass of a method over a class that keeps the state between passes.
 */
module Pumpbot {
  import opened Wrappers
  import opened Text

  const PUMP_PREFIX := "https://pump.fun/"
  const PUMP_SUFFIX := "pump"
  /** A buy needs strictly more followers than this. */
  const MIN_FOLLOWERS := 10000

  // ---------------------------------------------------------------------
  // JSON files
  // ---------------------------------------------------------------------

  /** A JSON file on disk: absent, not parseable, or holding a list. */
  datatype JsonFile<T> = Missing | Malformed | Holds(items: seq<T>)

  /** The second `load_existing_data`, the one every later call uses: the list, or `[]`. */
  function LoadExistingData<T>(f: JsonFile<T>): (r: seq<T>)
    ensures f.Holds? ==> r == f.items
    ensures !f.Holds? ==> r == []
  {
    if f.Holds? then f.items else []
  }

  /**
   * The first `load_existing_data`, called once on the results file when
   * the script starts: it reads like the second one, but a missing file is
   * created holding `[]`.
   */
  function LoadOrCreate<T>(f: JsonFile<T>): (r: (seq<T>, JsonFile<T>))
    ensures r.0 == LoadExistingData(f)
    ensures f.Missing? ==> r.1 == Holds([])
    ensures !f.Missing? ==> r.1 == f
  {
    if f.Missing? then ([], Holds([])) else (LoadExistingData(f), f)
  }

  /** `initialize_json_file`: creates a missing file holding `[]` and leaves any other alone. */
  function InitializeJsonFile<T>(f: JsonFile<T>): (r: JsonFile<T>)
    ensures r.Holds? || r.Malformed?
    ensures LoadExistingData(r) == LoadExistingData(f)
    ensures !f.Missing? ==> r == f
  {
    if f.Missing? then Holds([]) else f
  }

  // ---------------------------------------------------------------------
  // Tweet search results
  // ---------------------------------------------------------------------

  /**
   * A tweet of the search API. An absent user or screen name is `None`;
   * an absent `entities` or `urls` is the empty list; each URL entity
   * carries its `expanded_url`, if any.
   */
  datatype SearchTweet = SearchTweet(screenName: Option<string>, urls: seq<Option<string>>)

  /** A numbered entry of the results file. */
  datatype FilteredRecord = FilteredRecord(id: int, screenName: string, urls: seq<string>)

  predicate IsPumpUrl(url: string) {
    IsPrefix(PUMP_PREFIX, url) && IsSuffix(PUMP_SUFFIX, url)
  }

  /** The `expanded_urls` comprehension: the pump.fun token links of a tweet, in order. */
  function ExpandedUrls(urls: seq<Option<string>>): (r: seq<string>)
    ensures |r| <= |urls|
    ensures forall u :: u in r <==> Some(u) in urls && IsPumpUrl(u)
  {
    if |urls| == 0 then []
    else
      var u := urls[0].GetOr("");
      if IsPumpUrl(u) then [u] + ExpandedUrls(urls[1..]) else ExpandedUrls(urls[1..])
  }

  function MaxId(records: seq<FilteredRecord>): (r: int)
    requires |records| > 0
    ensures forall i :: 0 <= i < |records| ==> records[i].id <= r
    ensures exists i :: 0 <= i < |records| && records[i].id == r
  {
    if |records| == 1 then records[0].id
    else
      var m := MaxId(records[1..]);
      assert forall i :: 1 <= i < |records| ==> records[i].id == records[1..][i - 1].id;
      if records[0].id >= m then records[0].id else m
  }

  /** `get_next_id`: 1 for an empty file, else one more than the largest id. */
  function NextId(records: seq<FilteredRecord>): (r: int)
    ensures |records| == 0 ==> r == 1
    ensures forall i :: 0 <= i < |records| ==> records[i].id < r
    ensures |records| > 0 ==> exists i :: 0 <= i < |records| && records[i].id == r - 1
  {
    if |records| == 0 then 1 else MaxId(records) + 1
  }

  /** What `filter_tweets` yields for `tweets` when the next id is `nextId`. */
  function Filtered(tweets: seq<SearchTweet>, nextId: int): (r: seq<FilteredRecord>)
    ensures |r| <= |tweets|
    ensures forall k :: 0 <= k < |r| ==> |r[k].urls| > 0
  {
    if |tweets| == 0 then []
    else
      var urls := ExpandedUrls(tweets[0].urls);
      if |urls| > 0 then [FilteredRecord(nextId, tweets[0].screenName.GetOr(""), urls)] + Filtered(tweets[1..], nextId + 1)
      else Filtered(tweets[1..], nextId)
  }

  /** The records carry consecutive ids from `nextId`, and each holds the non-empty pump.fun links of its tweet. */
  lemma {:induction false} FilteredShape(tweets: seq<SearchTweet>, nextId: int)
    ensures |Filtered(tweets, nextId)| <= |tweets|
    ensures forall i :: 0 <= i < |Filtered(tweets, nextId)| ==> Filtered(tweets, nextId)[i].id == nextId + i
    ensures forall i :: 0 <= i < |Filtered(tweets, nextId)| ==>
      |Filtered(tweets, nextId)[i].urls| > 0 && forall u :: u in Filtered(tweets, nextId)[i].urls ==> IsPumpUrl(u)
  {
    if |tweets| > 0 {
      var urls := ExpandedUrls(tweets[0].urls);
      if |urls| > 0 {
        FilteredShape(tweets[1..], nextId + 1);
      } else {
        FilteredShape(tweets[1..], nextId);
      }
    }
  }

  /** Filtering goes tweet by tweet: a batch's records are the first part's followed by the rest's, numbered on. */
  lemma {:induction false} FilteredAppend(a: seq<SearchTweet>, b: seq<SearchTweet>, nextId: int)
    ensures Filtered(a + b, nextId) == Filtered(a, nextId) + Filtered(b, nextId + |Filtered(a, nextId)|)
  {
    if |a| == 0 {
      assert a + b == b;
    } else {
      assert (a + b)[0] == a[0] && (a + b)[1..] == a[1..] + b;
      if |ExpandedUrls(a[0].urls)| > 0 {
        FilteredAppend(a[1..], b, nextId + 1);
      } else {
        FilteredAppend(a[1..], b, nextId);
      }
    }
  }

  /** A tweet gives a record exactly when it links at least one pump.fun token. */
  lemma FilteredOne(t: SearchTweet, nextId: int)
    ensures |Filtered([t], nextId)| > 0 <==> exists u :: Some(u) in t.urls && IsPumpUrl(u)
    ensures |Filtered([t], nextId)| > 0 ==>
      Filtered([t], nextId) == [FilteredRecord(nextId, t.screenName.GetOr(""), ExpandedUrls(t.urls))]
  {
    var urls := ExpandedUrls(t.urls);
    assert [t][1..] == [];
    if |urls| > 0 {
      assert Some(urls[0]) in t.urls && IsPumpUrl(urls[0]);
    } else {
      assert forall u :: Some(u) in t.urls && IsPumpUrl(u) ==> u in urls;
    }
  }

  /** The tweet at index `i` of `filter_tweets`: a record for it when it links a token, then the rest numbered on. */
  lemma FilterStep(acc: seq<FilteredRecord>, tweets: seq<SearchTweet>, i: nat, nextId: int)
    requires i < |tweets|
    ensures var urls := ExpandedUrls(tweets[i].urls);
      acc + Filtered(tweets[i..], nextId)
      == if |urls| > 0 then (acc + [FilteredRecord(nextId, tweets[i].screenName.GetOr(""), urls)]) + Filtered(tweets[i + 1..], nextId + 1)
         else acc + Filtered(tweets[i + 1..], nextId)
  {
    var t, rest := tweets[i], tweets[i + 1..];
    assert tweets[i..][0] == t && tweets[i..][1..] == rest;
    var urls := ExpandedUrls(t.urls);
    var record := FilteredRecord(nextId, t.screenName.GetOr(""), urls);
    assert acc + ([record] + Filtered(rest, nextId + 1)) == (acc + [record]) + Filtered(rest, nextId + 1);
  }

  /** `filter_tweets(tweets, existing_data)` */
  method FilterTweets(tweets: seq<SearchTweet>, existing: seq<FilteredRecord>) returns (r: seq<FilteredRecord>)
    ensures r == Filtered(tweets, NextId(existing))
  {
    var nextId := NextId(existing);
    ghost var first := nextId;
    r := [];
    for i := 0 to |tweets|
      invariant nextId == first + |r|
      invariant r + Filtered(tweets[i..], nextId) == Filtered(tweets, first)
    {
      FilterStep(r, tweets, i, nextId);
      var expandedUrls := ExpandedUrls(tweets[i].urls);
      if |expandedUrls| > 0 {
        r := r + [FilteredRecord(nextId, tweets[i].screenName.GetOr(""), expandedUrls)];
        nextId := nextId + 1;
      }
    }
    assert tweets[|tweets|..] == [];
  }

  predicate DistinctIds(records: seq<FilteredRecord>) {
    forall i, j :: 0 <= i < j < |records| ==> records[i].id != records[j].id
  }

  /** `update_json_file(filename, new_data)`: the file afterwards holds the old entries, then the new records. */
  method UpdateJsonFile(f: JsonFile<FilteredRecord>, tweets: seq<SearchTweet>) returns (r: JsonFile<FilteredRecord>)
    ensures r == Holds(LoadExistingData(f) + Filtered(tweets, NextId(LoadExistingData(f))))
  {
    var existing := LoadExistingData(f);
    var added := FilterTweets(tweets, existing);
    return Holds(existing + added);
  }

  /** Appending filtered tweets keeps the ids of the results file distinct: every new id is above every old one. */
  lemma UpdateKeepsIdsDistinct(existing: seq<FilteredRecord>, tweets: seq<SearchTweet>)
    requires DistinctIds(existing)
    ensures DistinctIds(existing + Filtered(tweets, NextId(existing)))
  {
    var added := Filtered(tweets, NextId(existing));
    FilteredShape(tweets, NextId(existing));
    var all := existing + added;
    forall i, j | 0 <= i < j < |all|
      ensures all[i].id != all[j].id
    {
      if j >= |existing| && i < |existing| {
        assert all[j].id == NextId(existing) + (j - |existing|);
        assert all[i].id < NextId(existing);
      }
    }
  }

  /** One pass of `run_twitter_search`: a reply with `tweets` updates the results file; any other leaves it. */
  method SearchPass(f: JsonFile<FilteredRecord>, reply: Option<seq<SearchTweet>>) returns (r: JsonFile<FilteredRecord>)
    ensures reply.None? ==> r == f
    ensures reply.Some? ==>
      r == Holds(LoadExistingData(f) + Filtered(reply.value, NextId(LoadExistingData(f))))
  {
    r := f;
    if reply.Some? {
      r := UpdateJsonFile(f, reply.value);
    }
  }

  // ---------------------------------------------------------------------
  // Profiles
  // ---------------------------------------------------------------------

  /** An entry of the profiles file. */
  datatype Profile = Profile(id: int, url: string, screenName: string, followersCount: int)

  /** A user profile as the profile API returns it. */
  datatype UserProfile = UserProfile(screenName: string, followersCount: int)

  function ScreenNames(profiles: seq<Profile>): (r: set<string>)
    ensures forall p :: p in profiles ==> p.screenName in r
  {
    set p | p in profiles :: p.screenName
  }

  /** The profiles of `batch` whose screen name is not in `names`, in order, duplicates included. */
  function NewProfiles(batch: seq<Profile>, names: set<string>): (r: seq<Profile>)
    ensures |r| <= |batch|
    ensures forall p :: p in r <==> p in batch && p.screenName !in names
  {
    if |batch| == 0 then []
    else if batch[0].screenName !in names then [batch[0]] + NewProfiles(batch[1..], names)
    else NewProfiles(batch[1..], names)
  }

  /** `update_profiles_file(filename, new_data)`: the file afterwards. */
  function UpdateProfilesFile(f: JsonFile<Profile>, batch: seq<Profile>): (r: JsonFile<Profile>)
    ensures |NewProfiles(batch, ScreenNames(LoadExistingData(f)))| == 0 ==> r == f
    ensures r != f ==> |LoadExistingData(r)| > |LoadExistingData(f)|
  {
    var existing := LoadExistingData(f);
    var added := NewProfiles(batch, ScreenNames(existing));
    if |added| == 0 then f else Holds(existing + added)
  }

  /**
   * Profiles whose screen name is stored are skipped; the others are
   * appended after the stored ones, and the file is not rewritten when
   * there is nothing to add.
   */
  lemma UpdateProfilesAppends(f: JsonFile<Profile>, batch: seq<Profile>)
    ensures var added := NewProfiles(batch, ScreenNames(LoadExistingData(f)));
      && (|added| == 0 ==> UpdateProfilesFile(f, batch) == f)
      && (|added| > 0 ==> UpdateProfilesFile(f, batch) == Holds(LoadExistingData(f) + added))
      && (forall p :: p in added ==> p in batch && forall q :: q in LoadExistingData(f) ==> q.screenName != p.screenName)
  {
  }

  /** Two profiles of a batch with the same new screen name are both appended: the check is only against the file. */
  lemma BatchDuplicatesAllAppended(f: JsonFile<Profile>, p: Profile, q: Profile)
    requires p.screenName == q.screenName
    requires forall s :: s in LoadExistingData(f) ==> s.screenName != p.screenName
    ensures UpdateProfilesFile(f, [p, q]) == Holds(LoadExistingData(f) + [p, q])
  {
    var names := ScreenNames(LoadExistingData(f));
    assert p.screenName !in names;
    assert [p, q][1..] == [q] && [q][1..] == [];
    assert NewProfiles([p, q], names) == [p] + ([q] + []);
  }

  lemma {:induction false} NewProfilesCovered(batch: seq<Profile>, names: set<string>)
    ensures forall p :: p in batch ==> p.screenName in names || p.screenName in ScreenNames(NewProfiles(batch, names))
  {
    if |batch| > 0 {
      NewProfilesCovered(batch[1..], names);
      var rest := NewProfiles(batch[1..], names);
      forall p | p in batch
        ensures p.screenName in names || p.screenName in ScreenNames(NewProfiles(batch, names))
      {
        if p != batch[0] {
          assert p in batch[1..];
          if p.screenName !in names {
            var w :| w in rest && w.screenName == p.screenName;
            assert w in NewProfiles(batch, names);
          }
        }
      }
    }
  }

  lemma {:induction false} NewProfilesNone(batch: seq<Profile>, names: set<string>)
    requires forall p :: p in batch ==> p.screenName in names
    ensures NewProfiles(batch, names) == []
  {
    if |batch| > 0 {
      assert batch[0] in batch;
      assert forall p :: p in batch[1..] ==> p in batch;
      NewProfilesNone(batch[1..], names);
    }
  }

  /** Saving the same batch twice adds nothing the second time. */
  lemma UpdateProfilesTwice(f: JsonFile<Profile>, batch: seq<Profile>)
    ensures UpdateProfilesFile(UpdateProfilesFile(f, batch), batch) == UpdateProfilesFile(f, batch)
  {
    var existing := LoadExistingData(f);
    var names := ScreenNames(existing);
    var added := NewProfiles(batch, names);
    if |added| > 0 {
      var g := UpdateProfilesFile(f, batch);
      assert LoadExistingData(g) == existing + added;
      NewProfilesCovered(batch, names);
      var names2 := ScreenNames(existing + added);
      assert forall p :: p in batch ==> p.screenName in names2 by {
        forall p | p in batch
          ensures p.screenName in names2
        {
          if p.screenName in names {
            var w :| w in existing && w.screenName == p.screenName;
            assert w in existing + added;
          } else {
            var w :| w in added && w.screenName == p.screenName;
            assert w in existing + added;
          }
        }
      }
      NewProfilesNone(batch, names2);
    }
  }

  /** The profile a tweet yields: for its first link whose lookup answers, the author with that link. */
  function FirstProfile(t: FilteredRecord, index: nat, lookup: (nat, nat) -> Option<UserProfile>, from: nat): (r: seq<Profile>)
    requires from <= |t.urls|
    ensures |r| <= 1
    ensures |r| == 1 ==> r[0].id == t.id && r[0].url in t.urls[from..]
    decreases |t.urls| - from
  {
    if from == |t.urls| then []
    else
      match lookup(index, from)
      case Some(p) => [Profile(t.id, t.urls[from], p.screenName, p.followersCount)]
      case None => FirstProfile(t, index, lookup, from + 1)
  }

  /** The ids of `results` from index `from` on. */
  function IdsFrom(results: seq<FilteredRecord>, from: nat): (r: set<int>)
    requires from <= |results|
    ensures forall i :: from <= i < |results| ==> results[i].id in r
    ensures forall x :: x in r ==> exists i :: from <= i < |results| && results[i].id == x
    decreases |results| - from
  {
    if from == |results| then {} else {results[from].id} + IdsFrom(results, from + 1)
  }

  /**
   * The profiles one follower-check pass collects from `results`, starting
   * at index `from` with the ids in `known` already handled. `lookup(i, j)`
   * is the reply to the profile request made for the `j`-th link of the
   * `i`-th result (`None` for a failed request or an empty profile).
   */
  function PassProfiles(results: seq<FilteredRecord>, from: nat, known: set<int>,
                        lookup: (nat, nat) -> Option<UserProfile>): (r: seq<Profile>)
    requires from <= |results|
    ensures |r| <= |results| - from
    decreases |results| - from
  {
    if from == |results| then []
    else if results[from].id in known then PassProfiles(results, from + 1, known, lookup)
    else FirstProfile(results[from], from, lookup, 0) + PassProfiles(results, from + 1, known + {results[from].id}, lookup)
  }

  /**
   * Each id is handled once: the collected profiles have distinct ids, none
   * of them already known, each taken from a result with that id and one
   * of its links.
   */
  lemma {:induction false} PassProfilesOncePerId(results: seq<FilteredRecord>, from: nat, known: set<int>,
                                                lookup: (nat, nat) -> Option<UserProfile>)
    requires from <= |results|
    ensures var ps := PassProfiles(results, from, known, lookup);
      && (forall i, j :: 0 <= i < j < |ps| ==> ps[i].id != ps[j].id)
      && (forall p :: p in ps ==> p.id !in known)
      && (forall p :: p in ps ==> exists k :: from <= k < |results| && results[k].id == p.id && p.url in results[k].urls)
    decreases |results| - from
  {
    if from < |results| {
      var t := results[from];
      if t.id in known {
        PassProfilesOncePerId(results, from + 1, known, lookup);
      } else {
        PassProfilesOncePerId(results, from + 1, known + {t.id}, lookup);
        var head := FirstProfile(t, from, lookup, 0);
        var tail := PassProfiles(results, from + 1, known + {t.id}, lookup);
        assert forall p :: p in head ==> p.id == t.id && p.url in t.urls;
        assert forall p :: p in tail ==> p.id != t.id;
        var ps := head + tail;
        forall i, j | 0 <= i < j < |ps|
          ensures ps[i].id != ps[j].id
        {
          if j >= |head| && i < |head| {
            assert ps[j] in tail;
          } else if j >= |head| {
            assert ps[i] == tail[i - |head|] && ps[j] == tail[j - |head|];
          }
        }
      }
    }
  }

  /** A pass over results whose ids are all known collects nothing, whatever the lookups answer. */
  lemma {:induction false} KnownResultsSkipped(results: seq<FilteredRecord>, from: nat, known: set<int>,
                                               lookup: (nat, nat) -> Option<UserProfile>)
    requires from <= |results|
    requires IdsFrom(results, from) <= known
    ensures PassProfiles(results, from, known, lookup) == []
    decreases |results| - from
  {
    if from < |results| {
      KnownResultsSkipped(results, from + 1, known, lookup);
    }
  }

  /**
   * The inner loop of `run_followers_check` for the `index`-th result: the
   * author's profile is requested once per link until a request answers.
   */
  method LookUpAuthor(tweet: FilteredRecord, index: nat, lookup: (nat, nat) -> Option<UserProfile>)
    returns (found: seq<Profile>)
    ensures found == FirstProfile(tweet, index, lookup, 0)
  {
    found := [];
    var j := 0;
    while j < |tweet.urls|
      invariant 0 <= j <= |tweet.urls|
      invariant FirstProfile(tweet, index, lookup, j) == FirstProfile(tweet, index, lookup, 0)
      decreases |tweet.urls| - j
    {
      var profile := lookup(index, j);
      if profile.Some? {
        return [Profile(tweet.id, tweet.urls[j], profile.value.screenName, profile.value.followersCount)];
      }
      j := j + 1;
    }
  }

  /** One result of a pass: skipped when its id is known, otherwise its profile is collected and its id becomes known. */
  lemma PassStep(acc: seq<Profile>, results: seq<FilteredRecord>, i: nat, known: set<int>,
                 lookup: (nat, nat) -> Option<UserProfile>)
    requires i < |results|
    ensures IdsFrom(results, i) == {results[i].id} + IdsFrom(results, i + 1)
    ensures results[i].id in known ==>
      acc + PassProfiles(results, i, known, lookup) == acc + PassProfiles(results, i + 1, known, lookup)
    ensures results[i].id !in known ==>
      acc + PassProfiles(results, i, known, lookup)
      == (acc + FirstProfile(results[i], i, lookup, 0)) + PassProfiles(results, i + 1, known + {results[i].id}, lookup)
  {
    var rest := PassProfiles(results, i + 1, known + {results[i].id}, lookup);
    assert acc + (FirstProfile(results[i], i, lookup, 0) + rest) == (acc + FirstProfile(results[i], i, lookup, 0)) + rest;
  }

  /** The state `run_followers_check` keeps between passes. */
  class FollowersCheck {
    var knownIds: set<int>

    /** Starts from the ids already in the profiles file. */
    constructor(profiles: JsonFile<Profile>)
      ensures knownIds == set p | p in LoadExistingData(profiles) :: p.id
    {
      knownIds := set p | p in LoadExistingData(profiles) :: p.id;
    }

    /** One pass of the loop over the results file: the profiles to save, and every id of the file now known. */
    method Pass(results: seq<FilteredRecord>, lookup: (nat, nat) -> Option<UserProfile>) returns (newProfiles: seq<Profile>)
      modifies this
      ensures knownIds == old(knownIds) + IdsFrom(results, 0)
      ensures newProfiles == PassProfiles(results, 0, old(knownIds), lookup)
    {
      var known := knownIds;
      ghost var start := knownIds;
      newProfiles := [];
      for i := 0 to |results|
        invariant known + IdsFrom(results, i) == start + IdsFrom(results, 0)
        invariant newProfiles + PassProfiles(results, i, known, lookup) == PassProfiles(results, 0, start, lookup)
      {
        var tweet := results[i];
        PassStep(newProfiles, results, i, known, lookup);
        if tweet.id !in known {
          known := known + {tweet.id};
          var found := LookUpAuthor(tweet, i, lookup);
          newProfiles := newProfiles + found;
        }
      }
      assert IdsFrom(results, |results|) == {} && PassProfiles(results, |results|, known, lookup) == [];
      knownIds := known;
    }
  }

  // ---------------------------------------------------------------------
  // Buying
  // ---------------------------------------------------------------------

  /** `s.split(sep)[-1]`: the text after the last occurrence of `sep` found scanning from the left. */
  function LastPiece(s: string, sep: string): (r: string)
    requires |sep| > 0
    ensures IsSuffix(r, s)
    ensures !Contains(r, sep)
    ensures IndexOf(s, sep).None? ==> r == s
    ensures IndexOf(s, sep).Some? ==> IsSuffix(sep + r, s)
    decreases |s|
  {
    match IndexOf(s, sep)
    case None => s
    case Some(i) =>
      var tail := s[i + |sep|..];
      var rest := LastPiece(tail, sep);
      SuffixOfDrop(rest, s, i + |sep|);
      SeparatedSuffix(s, sep, i, rest);
      rest
  }

  /** What follows an occurrence of the separator, or a suffix of it, is preceded by the separator at the end of the whole. */
  lemma SeparatedSuffix(s: string, sep: string, i: nat, r: string)
    requires OccursAt(s, sep, i)
    requires r == s[i + |sep|..] || IsSuffix(sep + r, s[i + |sep|..])
    ensures IsSuffix(sep + r, s)
  {
    if r == s[i + |sep|..] {
      assert s[i..] == sep + r;
    } else {
      SuffixOfDrop(sep + r, s, i + |sep|);
    }
  }

  /** A suffix of what is left after dropping a prefix is a suffix of the whole. */
  lemma SuffixOfDrop(r: string, s: string, k: nat)
    requires k <= |s| && IsSuffix(r, s[k..])
    ensures IsSuffix(r, s)
  {
    assert s[|s| - |r|..] == s[k..][|s[k..]| - |r|..];
  }

  /** A link made of the pump.fun prefix and a mint gives back that mint. */
  lemma MintOfPumpUrl(mint: string)
    requires !Contains(mint, PUMP_PREFIX)
    ensures LastPiece(PUMP_PREFIX + mint, PUMP_PREFIX) == mint
  {
    var s := PUMP_PREFIX + mint;
    assert IsPrefix(PUMP_PREFIX, s);
    assert s[|PUMP_PREFIX|..] == mint;
  }

  /** The buy condition of `run_buy_function`. */
  predicate Triggers(p: Profile, previous: seq<Profile>) {
    p !in previous && IsPrefix(PUMP_PREFIX, p.url) && p.followersCount > MIN_FOLLOWERS
  }

  /** The mints one pass of `run_buy_function` buys, in file order. */
  function Triggered(current: seq<Profile>, previous: seq<Profile>): (r: seq<string>)
    ensures |r| <= |current|
  {
    if |current| == 0 then []
    else
      var rest := Triggered(current[1..], previous);
      if Triggers(current[0], previous) then [LastPiece(current[0].url, PUMP_PREFIX)] + rest else rest
  }

  /** A mint is bought exactly when some new profile with that link and over 10000 followers is in the file. */
  lemma {:induction false} TriggeredMembers(current: seq<Profile>, previous: seq<Profile>)
    ensures forall m :: m in Triggered(current, previous) <==>
      exists p :: p in current && Triggers(p, previous) && LastPiece(p.url, PUMP_PREFIX) == m
  {
    if |current| > 0 {
      TriggeredMembers(current[1..], previous);
      forall m
        ensures m in Triggered(current, previous) <==>
          exists p :: p in current && Triggers(p, previous) && LastPiece(p.url, PUMP_PREFIX) == m
      {
        if exists p :: p in current && Triggers(p, previous) && LastPiece(p.url, PUMP_PREFIX) == m {
          var p :| p in current && Triggers(p, previous) && LastPiece(p.url, PUMP_PREFIX) == m;
          if p != current[0] {
            assert p in current[1..];
          }
        }
      }
    }
  }

  /** A pass over one more profile buys what the shorter pass bought, then that profile's mint when it triggers. */
  lemma {:induction false} TriggeredSnoc(current: seq<Profile>, previous: seq<Profile>, p: Profile)
    ensures Triggered(current + [p], previous)
         == Triggered(current, previous) + (if Triggers(p, previous) then [LastPiece(p.url, PUMP_PREFIX)] else [])
    decreases |current|
  {
    if |current| == 0 {
      assert (current + [p])[1..] == [];
    } else {
      assert (current + [p])[0] == current[0];
      assert (current + [p])[1..] == current[1..] + [p];
      TriggeredSnoc(current[1..], previous, p);
    }
  }

  /** Once seen, profiles are not bought again: a pass over an unchanged file buys nothing. */
  lemma {:induction false} UnchangedFileBuysNothing(current: seq<Profile>, previous: seq<Profile>)
    requires forall p :: p in current ==> p in previous
    ensures Triggered(current, previous) == []
  {
    if |current| > 0 {
      assert current[0] in previous;
      UnchangedFileBuysNothing(current[1..], previous);
    }
  }

  /** The state `run_buy_function` keeps between passes. */
  class BuyWatcher {
    var previous: seq<Profile>

    constructor(profiles: JsonFile<Profile>)
      ensures previous == LoadExistingData(profiles)
    {
      previous := LoadExistingData(profiles);
    }

    /** One pass: the mints to buy, and the current profiles remembered for the next pass. */
    method Pass(current: seq<Profile>) returns (mints: seq<string>)
      modifies this
      ensures previous == current
      ensures mints == Triggered(current, old(previous))
    {
      mints := [];
      var i := 0;
      while i < |current|
        invariant 0 <= i <= |current|
        invariant mints == Triggered(current[..i], old(previous)) && previous == old(previous)
      {
        var profile := current[i];
        assert current[..i + 1] == current[..i] + [profile];
        TriggeredSnoc(current[..i], previous, profile);
        if profile !in previous && IsPrefix(PUMP_PREFIX, profile.url) && profile.followersCount > MIN_FOLLOWERS {
          mints := mints + [LastPiece(profile.url, PUMP_PREFIX)];
        }
        i := i + 1;
      }
      assert current[..|current|] == current;
      previous := current;
    }
  }
}

=== FILE: pumpfun_client.dfy ===
/**
 * The pump.fun trading client: the auto-buy eligibility predicate, the
 * rate and attempt guard of `autoBuy`, the `buy`/`sell` control flow over
 * quote, swap and execution answers, and the price guard on a quote.
 */
module PumpFunClient {
  import opened Wrappers
  import opened Types
  import opened Transaction

  const MIN_BUY_INTERVAL := 2000
  const MAX_BUY_ATTEMPTS := 3
  const BUY_ATTEMPT_WINDOW := 60000

  const LAMPORTS_PER_SOL: real := 1000000000.0
  /** `TOKEN_DECIMAL`: smallest units per token. */
  const TOKEN_DECIMAL: real := 1000000.0

  // ---------------------------------------------------------------------
  // Eligibility
  // ---------------------------------------------------------------------

  /** What `shouldBuyToken` reads of the tweet passed as `twitterData`: `user?.followers_count`. */
  datatype TwitterData = TwitterData(followersCount: Option<int>)

  /** The tweet as `twitterData`. */
  function TwitterDataOf(t: Tweet): TwitterData {
    TwitterData(Some(t.user.followersCount))
  }

  /** `twitterData.user?.followers_count || 0` */
  function FollowerCount(t: TwitterData): int {
    t.followersCount.GetOr(0)
  }

  /**
   * `Date.now()/1000 - createdTimestamp <= maxCreationTime*60`, with both sides
   * multiplied by 1000 so that the test stays in integers.
   */
  predicate WithinAge(nowMs: int, createdSeconds: int, maxMinutes: real) {
    (nowMs - 1000 * createdSeconds) as real <= 60000.0 * maxMinutes
  }

  lemma WithinAgeIsSecondsTest(nowMs: int, createdSeconds: int, maxMinutes: real)
    ensures WithinAge(nowMs, createdSeconds, maxMinutes)
        <==> nowMs as real / 1000.0 - createdSeconds as real <= maxMinutes * 60.0
  {
  }

  predicate FollowerTest(s: ClientSettings, t: TwitterData) {
    FollowerCount(t) as real >= s.minFollowers
  }

  /** The age test fails outright for a missing or zero creation time. */
  predicate AgeTest(s: ClientSettings, createdTimestamp: Option<int>, nowMs: int) {
    Truthy(createdTimestamp) && WithinAge(nowMs, createdTimestamp.value, s.maxCreationTime)
  }

  /** Auto-buy is on, at least one check is enabled, and every enabled check passes. */
  predicate AutoBuyCriteria(s: ClientSettings, createdTimestamp: Option<int>, t: TwitterData, nowMs: int)
    ensures AutoBuyCriteria(s, createdTimestamp, t, nowMs) ==> FollowerTest(s, t) || AgeTest(s, createdTimestamp, nowMs)
  {
    && s.autoBuyEnabled
    && (s.followerCheckEnabled || s.creationTimeEnabled)
    && (s.followerCheckEnabled ==> FollowerTest(s, t))
    && (s.creationTimeEnabled ==> AgeTest(s, createdTimestamp, nowMs))
  }

  /**
   * `shouldBuyToken(coinData, twitterData)`; `createdTimestamp` is the coin's
   * `createdTimestamp` and `nowMs` the clock reading.
   */
  function ShouldBuyToken(settings: Option<ClientSettings>, createdTimestamp: Option<int>,
                          twitter: Option<TwitterData>, nowMs: int): (r: bool)
    ensures settings.None? || twitter.None? ==> r
    ensures settings.Some? && twitter.Some? ==>
              (r <==> AutoBuyCriteria(settings.value, createdTimestamp, twitter.value, nowMs))
  {
    if settings.None? then true
    else if twitter.None? then true
    else
      var s := settings.value;
      if !s.autoBuyEnabled then false
      else if !s.followerCheckEnabled && !s.creationTimeEnabled then false
      else
        var followerPassed := s.followerCheckEnabled && FollowerTest(s, twitter.value);
        var agePassed := s.creationTimeEnabled && AgeTest(s, createdTimestamp, nowMs);
        if s.followerCheckEnabled && s.creationTimeEnabled then followerPassed && agePassed
        else if s.followerCheckEnabled then followerPassed
        else if s.creationTimeEnabled then agePassed
        else false
  }

  /** With settings and tweet data present, the outcome for each combination of enabled checks. */
  lemma ShouldBuyTokenTable(s: ClientSettings, created: Option<int>, t: TwitterData, nowMs: int)
    ensures !s.autoBuyEnabled ==> !ShouldBuyToken(Some(s), created, Some(t), nowMs)
    ensures !s.followerCheckEnabled && !s.creationTimeEnabled ==> !ShouldBuyToken(Some(s), created, Some(t), nowMs)
    ensures s.autoBuyEnabled && s.followerCheckEnabled && s.creationTimeEnabled ==>
              (ShouldBuyToken(Some(s), created, Some(t), nowMs) <==> FollowerTest(s, t) && AgeTest(s, created, nowMs))
    ensures s.autoBuyEnabled && s.followerCheckEnabled && !s.creationTimeEnabled ==>
              (ShouldBuyToken(Some(s), created, Some(t), nowMs) <==> FollowerTest(s, t))
    ensures s.autoBuyEnabled && !s.followerCheckEnabled && s.creationTimeEnabled ==>
              (ShouldBuyToken(Some(s), created, Some(t), nowMs) <==> AgeTest(s, created, nowMs))
    ensures s.creationTimeEnabled && !Truthy(created) ==> !ShouldBuyToken(Some(s), created, Some(t), nowMs)
  {
  }

  // ---------------------------------------------------------------------
  // The rate and attempt guard of autoBuy
  // ---------------------------------------------------------------------

  /** `{ timestamp, count }` kept per mint address. */
  datatype Attempt = Attempt(timestamp: int, count: int)

  /** The entry for a mint, or the `{ timestamp: 0, count: 0 }` used when there is none. */
  function EntryOr(attempts: map<string, Attempt>, mint: string): Attempt {
    if mint in attempts then attempts[mint] else Attempt(0, 0)
  }

  /** The per-mint window step; `None` when the call is rejected for too many attempts. */
  function NextAttempt(entry: Attempt, now: int): Option<Attempt> {
    if now - entry.timestamp > BUY_ATTEMPT_WINDOW then Some(Attempt(now, 1))
    else if entry.count >= MAX_BUY_ATTEMPTS then None
    else Some(Attempt(entry.timestamp, entry.count + 1))
  }

  predicate CountInRange(a: Attempt) {
    1 <= a.count <= MAX_BUY_ATTEMPTS
  }

  /** A stored count stays within 1..3. */
  lemma NextAttemptBound(entry: Attempt, now: int)
    requires entry == Attempt(0, 0) || CountInRange(entry)
    ensures NextAttempt(entry, now).Some? ==> CountInRange(NextAttempt(entry, now).value)
  {
  }

  /** Whether each call in a run at the given times gets past the window step (the global interval aside). */
  function AttemptRun(entry: Attempt, times: seq<int>): seq<bool>
    decreases |times|
  {
    if |times| == 0 then []
    else
      match NextAttempt(entry, times[0])
      case None => [false] + AttemptRun(entry, times[1..])
      case Some(e) => [true] + AttemptRun(e, times[1..])
  }

  /** Four attempts on a fresh mint inside one window: three pass and the fourth is rejected. */
  lemma FourAttemptsInWindow(t0: int, t1: int, t2: int, t3: int)
    requires BUY_ATTEMPT_WINDOW < t0 <= t1 <= t2 <= t3 <= t0 + BUY_ATTEMPT_WINDOW
    ensures AttemptRun(Attempt(0, 0), [t0, t1, t2, t3]) == [true, true, true, false]
  {
    var e1 := Attempt(t0, 1);
    var e2 := Attempt(t0, 2);
    var e3 := Attempt(t0, 3);
    assert NextAttempt(Attempt(0, 0), t0) == Some(e1);
    assert NextAttempt(e1, t1) == Some(e2);
    assert NextAttempt(e2, t2) == Some(e3);
    assert NextAttempt(e3, t3) == None;
    assert [t0, t1, t2, t3][1..] == [t1, t2, t3];
    assert [t1, t2, t3][1..] == [t2, t3];
    assert [t2, t3][1..] == [t3];
    assert AttemptRun(e3, [t3]) == [false];
    assert AttemptRun(e2, [t2, t3]) == [true, false];
    assert AttemptRun(e1, [t1, t2, t3]) == [true, true, false];
  }

  /** Once the window has passed, the count starts over at 1. */
  lemma WindowExpiryResets(entry: Attempt, now: int)
    requires now - entry.timestamp > BUY_ATTEMPT_WINDOW
    ensures NextAttempt(entry, now) == Some(Attempt(now, 1))
  {
  }

  /** The coin data `autoBuy` gets through the proxy; the predicate reads only its creation time. */
  datatype CoinSummary = CoinSummary(createdTimestamp: Option<int>)

  const RATE_LIMITED := "Rate limit: Too soon since last buy attempt"
  const MAX_ATTEMPTS_REACHED := "Max buy attempts (3) reached for this token"
  const NO_COIN_DATA := "Failed to fetch coin data"
  const CRITERIA_NOT_MET := "Token does not meet buying criteria"
  const BUY_FAILED := "Buy transaction failed"
  /** The TypeError V8 raises for `this.tradingSettings.buyAmount` when the client has no settings. */
  const NO_SETTINGS_TYPE_ERROR := "Cannot read properties of undefined (reading 'buyAmount')"

  /** What `autoBuy` returns for the inner `buy` result. */
  function BuyVerdict(b: TxResult): (r: TxResult)
    ensures r.success <==> SucceededWithSignature(b)
    ensures r.success ==> r.signature == b.signature && r.error.None?
    ensures !r.success ==> r.signature.None? && r.error.Some? && r.error.value != []
  {
    if SucceededWithSignature(b) then TxResult(true, b.signature, None)
    else Failed(OrElse(b.error, BUY_FAILED))
  }

  /**
   * The quote request `buy(mintAddress, amountInSol, slippage)` builds:
   * `amountInSol * LAMPORTS_PER_SOL` lamports, where `None` stands for the
   * NaN an undefined amount gives, and `Math.floor(slippage * 100)` basis
   * points.
   */
  datatype BuyRequest = BuyRequest(lamports: Option<real>, slippageBps: int)

  /** The first two lines of `buy`; an undefined slippage takes the parameter's default, 0.25. */
  function QuoteRequest(amountInSol: Option<real>, slippage: Option<real>): (r: BuyRequest)
    ensures r.lamports.Some? <==> amountInSol.Some?
    ensures amountInSol.Some? ==> r.lamports.value / LAMPORTS_PER_SOL == amountInSol.value
    ensures slippage.None? ==> r.slippageBps == 25
    ensures slippage.Some? ==> r.slippageBps as real <= slippage.value * 100.0 < r.slippageBps as real + 1.0
  {
    var bps := (slippage.GetOr(0.25) * 100.0).Floor;
    if amountInSol.None? then BuyRequest(None, bps)
    else BuyRequest(Some(amountInSol.value * LAMPORTS_PER_SOL), bps)
  }

  class Client {
    const settings: Option<ClientSettings>
    var lastBuyTimestamp: int
    var buyAttempts: map<string, Attempt>

    /** Every stored attempt count lies within 1..MAX_BUY_ATTEMPTS. */
    ghost predicate Valid()
      reads this
    {
      forall m :: m in buyAttempts ==> CountInRange(buyAttempts[m])
    }

    constructor(settings: Option<ClientSettings>)
      ensures Valid()
      ensures this.settings == settings && lastBuyTimestamp == 0 && buyAttempts == map[]
    {
      this.settings := settings;
      lastBuyTimestamp := 0;
      buyAttempts := map[];
    }

    /**
     * `autoBuy(mintAddress, twitterData)` at clock reading `now`. `coinData`
     * is what the proxy returned and `buyResult` what the inner `buy` returns;
     * `request` is the quote request of that inner `buy`, made with the
     * settings' `buyAmount` and `slippage`, and absent when no `buy` is made.
     */
    method AutoBuy(mint: string, twitter: Option<TwitterData>, now: int,
                   coinData: Option<CoinSummary>, buyResult: TxResult) returns (r: TxResult, request: Option<BuyRequest>)
      requires Valid()
      modifies this
      ensures Valid()
      ensures now - old(lastBuyTimestamp) < MIN_BUY_INTERVAL ==>
                r == Failed(RATE_LIMITED)
                && lastBuyTimestamp == old(lastBuyTimestamp) && buyAttempts == old(buyAttempts)
      ensures now - old(lastBuyTimestamp) >= MIN_BUY_INTERVAL
              && NextAttempt(EntryOr(old(buyAttempts), mint), now).None? ==>
                r == Failed(MAX_ATTEMPTS_REACHED)
                && lastBuyTimestamp == old(lastBuyTimestamp) && buyAttempts == old(buyAttempts)
      ensures now - old(lastBuyTimestamp) >= MIN_BUY_INTERVAL
              && NextAttempt(EntryOr(old(buyAttempts), mint), now).Some? ==>
                && buyAttempts == old(buyAttempts)[mint := NextAttempt(EntryOr(old(buyAttempts), mint), now).value]
                && (coinData.None? ==> r == Failed(NO_COIN_DATA) && lastBuyTimestamp == old(lastBuyTimestamp))
                && (coinData.Some? && !ShouldBuyToken(settings, coinData.value.createdTimestamp, twitter, now) ==>
                      r == Failed(CRITERIA_NOT_MET) && lastBuyTimestamp == old(lastBuyTimestamp))
                && (coinData.Some? && ShouldBuyToken(settings, coinData.value.createdTimestamp, twitter, now) ==>
                      lastBuyTimestamp == now
                      && r == (if settings.None? then Failed(NO_SETTINGS_TYPE_ERROR) else BuyVerdict(buyResult)))
      ensures request.Some? <==>
                now - old(lastBuyTimestamp) >= MIN_BUY_INTERVAL && NextAttempt(EntryOr(old(buyAttempts), mint), now).Some?
                && coinData.Some? && ShouldBuyToken(settings, coinData.value.createdTimestamp, twitter, now) && settings.Some?
      ensures request.Some? ==> request.value == QuoteRequest(settings.value.buyAmount, settings.value.slippage)
    {
      request := None;
      if now - lastBuyTimestamp < MIN_BUY_INTERVAL {
        return Failed(RATE_LIMITED), None;
      }
      var entry := EntryOr(buyAttempts, mint);
      if now - entry.timestamp > BUY_ATTEMPT_WINDOW {
        entry := Attempt(now, 1);
      } else if entry.count >= MAX_BUY_ATTEMPTS {
        return Failed(MAX_ATTEMPTS_REACHED), None;
      } else {
        entry := entry.(count := entry.count + 1);
      }
      NextAttemptBound(EntryOr(buyAttempts, mint), now);
      buyAttempts := buyAttempts[mint := entry];

      if coinData.None? {
        return Failed(NO_COIN_DATA), None;
      }
      if !ShouldBuyToken(settings, coinData.value.createdTimestamp, twitter, now) {
        return Failed(CRITERIA_NOT_MET), None;
      }
      lastBuyTimestamp := now;
      if settings.None? {
        return Failed(NO_SETTINGS_TYPE_ERROR), None;
      }
      request := Some(QuoteRequest(settings.value.buyAmount, settings.value.slippage));
      r := BuyVerdict(buyResult);
    }
  }

  // ---------------------------------------------------------------------
  // buy / sell
  // ---------------------------------------------------------------------

  /** A quote's `outAmount`: absent or falsy, a string `BigInt` rejects, or an integer. */
  datatype OutAmount = NoOutAmount | Unparsable | Amount(value: int)

  datatype Quote = Quote(outAmount: OutAmount)

  /** The answers `buy` receives: the quote, the swap transaction (false when falsy), the token-account lookup, and the executions. */
  datatype BuyOracle = BuyOracle(
    quote: Step<Option<Quote>>,
    swapTx: Step<bool>,
    tokenAccountExists: Step<bool>,
    ataBlockhash: Step<string>,
    ataExec: ExecOracle,
    swapExec: ExecOracle)

  datatype TxKind = CreateTokenAccount | Swap

  /** A flow's result and the transactions it executed, in order. */
  datatype FlowOutcome = FlowOutcome(result: TxResult, executed: seq<TxKind>)

  const NO_QUOTE := "Failed to get quote"
  const NO_SWAP := "Failed to get swap transaction"
  const ACCOUNT_CREATION_FAILED := "Failed to create token account"
  const UNKNOWN_ERROR := "Unknown error occurred"

  /** The swap runs: the quote and swap were obtained and the token account exists or was created. */
  predicate BuyReachesSwap(o: BuyOracle) {
    && o.quote.Done? && o.quote.value.Some?
    && o.swapTx == Done(true)
    && (o.tokenAccountExists == Done(true)
        || (o.tokenAccountExists == Done(false) && o.ataBlockhash.Done? && Classify(o.ataExec).success))
  }

  /** What `buy` returns and executes for the given answers. */
  function BuyFlow(o: BuyOracle): (f: FlowOutcome)
    ensures f.result.success <==> BuyReachesSwap(o) && Classify(o.swapExec).success
    ensures BuyReachesSwap(o) ==> f.result == Classify(o.swapExec) && |f.executed| > 0 && f.executed[|f.executed| - 1] == Swap
    ensures Swap in f.executed <==> BuyReachesSwap(o)
    ensures CreateTokenAccount in f.executed ==> f.executed[0] == CreateTokenAccount
  {
    match o.quote
    case Threw(m) => FlowOutcome(Caught(m, UNKNOWN_ERROR), [])
    case Done(None) => FlowOutcome(Failed(NO_QUOTE), [])
    case Done(Some(_)) =>
      match o.swapTx
      case Threw(m) => FlowOutcome(Caught(m, UNKNOWN_ERROR), [])
      case Done(false) => FlowOutcome(Failed(NO_SWAP), [])
      case Done(true) =>
        match o.tokenAccountExists
        case Threw(m) => FlowOutcome(Caught(m, UNKNOWN_ERROR), [])
        case Done(true) => FlowOutcome(Classify(o.swapExec), [Swap])
        case Done(false) =>
          match o.ataBlockhash
          case Threw(m) => FlowOutcome(Caught(m, UNKNOWN_ERROR), [])
          case Done(_) =>
            if !Classify(o.ataExec).success then FlowOutcome(Failed(ACCOUNT_CREATION_FAILED), [CreateTokenAccount])
            else FlowOutcome(Classify(o.swapExec), [CreateTokenAccount, Swap])
  }

  /** `buy(mintAddress, amountInSol, slippage)` over the given answers. */
  method Buy(o: BuyOracle) returns (r: TxResult, executed: seq<TxKind>)
    ensures FlowOutcome(r, executed) == BuyFlow(o)
  {
    executed := [];
    if o.quote.Threw? {
      return Caught(o.quote.message, UNKNOWN_ERROR), executed;
    }
    if o.quote.value.None? {
      return Failed(NO_QUOTE), executed;
    }
    if o.swapTx.Threw? {
      return Caught(o.swapTx.message, UNKNOWN_ERROR), executed;
    }
    if !o.swapTx.value {
      return Failed(NO_SWAP), executed;
    }
    var swapTx := new VersionedTransaction("", false);
    if o.tokenAccountExists.Threw? {
      return Caught(o.tokenAccountExists.message, UNKNOWN_ERROR), executed;
    }
    if !o.tokenAccountExists.value {
      if o.ataBlockhash.Threw? {
        return Caught(o.ataBlockhash.message, UNKNOWN_ERROR), executed;
      }
      var ataTx := new VersionedTransaction(o.ataBlockhash.value, false);
      var ataResult := ExecuteTransaction(ataTx, o.ataExec);
      executed := executed + [CreateTokenAccount];
      if !ataResult.success {
        return Failed(ACCOUNT_CREATION_FAILED), executed;
      }
    }
    r := ExecuteTransaction(swapTx, o.swapExec);
    executed := executed + [Swap];
  }

  /** A falsy quote or swap transaction fails before anything is executed. */
  lemma BuyFailsEarly(o: BuyOracle)
    ensures o.quote == Done(None) ==> BuyFlow(o) == FlowOutcome(Failed(NO_QUOTE), [])
    ensures o.quote.Done? && o.quote.value.Some? && o.swapTx == Done(false) ==>
              BuyFlow(o) == FlowOutcome(Failed(NO_SWAP), [])
  {
  }

  /** A failed account creation ends the buy without executing the swap. */
  lemma BuyStopsAfterFailedAccountCreation(o: BuyOracle)
    requires o.quote.Done? && o.quote.value.Some? && o.swapTx == Done(true)
    requires o.tokenAccountExists == Done(false) && o.ataBlockhash.Done?
    requires !Classify(o.ataExec).success
    ensures BuyFlow(o) == FlowOutcome(Failed(ACCOUNT_CREATION_FAILED), [CreateTokenAccount])
  {
  }

  /** `buy` never looks at the quote's `outAmount`: any two quotes give the same outcome. */
  lemma BuyIgnoresOutAmount(o: BuyOracle, q1: Quote, q2: Quote)
    ensures BuyFlow(o.(quote := Done(Some(q1)))) == BuyFlow(o.(quote := Done(Some(q2))))
  {
  }

  datatype SellOracle = SellOracle(quote: Step<Option<Quote>>, swapTx: Step<bool>, swapExec: ExecOracle)

  /** What `sell` returns for the given answers; it never creates a token account. */
  function SellFlow(o: SellOracle): (r: TxResult)
    ensures r.success <==> o.quote.Done? && o.quote.value.Some? && o.swapTx == Done(true) && Classify(o.swapExec).success
    ensures o.quote == Done(None) ==> r == Failed(NO_QUOTE)
  {
    match o.quote
    case Threw(m) => Caught(m, UNKNOWN_ERROR)
    case Done(None) => Failed(NO_QUOTE)
    case Done(Some(_)) =>
      match o.swapTx
      case Threw(m) => Caught(m, UNKNOWN_ERROR)
      case Done(false) => Failed(NO_SWAP)
      case Done(true) => Classify(o.swapExec)
  }

  /** `sell(mintAddress, amountInTokens, slippage)` over the given answers. */
  method Sell(o: SellOracle) returns (r: TxResult)
    ensures r == SellFlow(o)
  {
    if o.quote.Threw? {
      return Caught(o.quote.message, UNKNOWN_ERROR);
    }
    if o.quote.value.None? {
      return Failed(NO_QUOTE);
    }
    if o.swapTx.Threw? {
      return Caught(o.swapTx.message, UNKNOWN_ERROR);
    }
    if !o.swapTx.value {
      return Failed(NO_SWAP);
    }
    var swapTx := new VersionedTransaction("", false);
    r := ExecuteTransaction(swapTx, o.swapExec);
  }

  /** The quote amount `sell` requests: `amountInTokens * TOKEN_DECIMAL` smallest units. */
  function SellQuoteAmount(amountInTokens: real): real
  {
    amountInTokens * TOKEN_DECIMAL
  }

  /** `Math.floor(slippage * 100)`, then `|| 100` in `getQuote`. */
  function QuoteSlippageBps(slippage: real): (r: int)
    ensures r != 0
    ensures (slippage * 100.0).Floor != 0 ==> r == (slippage * 100.0).Floor
    ensures (slippage * 100.0).Floor == 0 ==> r == 100
    ensures 0.0 <= slippage < 0.01 ==> r == 100
  {
    var bps := (slippage * 100.0).Floor;
    if bps == 0 then 100 else bps
  }

  // ---------------------------------------------------------------------
  // getTokenPrice
  // ---------------------------------------------------------------------

  /** `tradingSettings?.amount || 0.1` */
  function PriceQuoteAmount(amount: Option<real>): (r: real)
    ensures r != 0.0
    ensures amount.None? || amount == Some(0.0) ==> r == 0.1
    ensures amount.Some? && amount.value != 0.0 ==> r == amount.value
  {
    if amount.None? || amount.value == 0.0 then 0.1 else amount.value
  }

  /** `getTokenPrice`: lamports spent per smallest token unit, or absent for a missing, zero or unreadable `outAmount`. */
  function GetTokenPrice(amount: Option<real>, quote: Step<Option<Quote>>): (r: Option<real>)
    ensures r.Some? <==> quote.Done? && quote.value.Some? && quote.value.value.outAmount.Amount?
                         && quote.value.value.outAmount.value != 0
    ensures r.Some? ==> r.value * quote.value.value.outAmount.value as real == PriceQuoteAmount(amount) * LAMPORTS_PER_SOL
  {
    match quote
    case Threw(_) => None
    case Done(None) => None
    case Done(Some(q)) =>
      match q.outAmount
      case NoOutAmount => None
      case Unparsable => None
      case Amount(n) =>
        if n == 0 then None
        else Some(PriceQuoteAmount(amount) * LAMPORTS_PER_SOL / n as real)
  }
}

=== FILE: purchased_tokens.dfy ===
/**
 * The holdings panel (`PurchasedTokens`): the pump.fun tokens the wallet
 * holds, the amount the user chose to sell of each, selling, and the
 * throttled refresh of the list from the RPC node.
 *
 * The wallet key and the trading client are reduced to whether they are
 * present; the balance and the two `searchAssets` replies are parameters,
 * as is the current time. An awaited refresh runs to completion inside
 * the call that starts it.
 */
module PurchasedTokens {
  import opened Wrappers
  import opened Types
  import opened Text
  import HeliusService
  import PumpFunClient

  /** Minimum time between two unforced refreshes, in milliseconds. */
  const UPDATE_INTERVAL: int := 60000
  const BALANCE_ERROR := "Failed to fetch SOL balance"
  const HOLDINGS_ERROR := "Failed to fetch token holdings"

  /** A balance in lamports shown in SOL. */
  function SolOf(lamports: int): (r: real)
    ensures r * PumpFunClient.LAMPORTS_PER_SOL == lamports as real
    ensures (r >= 0.0) == (lamports >= 0)
  {
    lamports as real / PumpFunClient.LAMPORTS_PER_SOL
  }

  /** The error shown under a holding: an invalid sell amount, with the balance it must not exceed. */
  datatype HoldingError = InvalidSellAmount(max: real)

  datatype TokenHolding = TokenHolding(
    mint: string,
    name: string,
    symbol: string,
    amount: real,
    decimals: nat,
    pricePerToken: Option<real>,
    totalValue: Option<real>,
    isLoading: bool,
    sellAmount: real,
    error: Option<HoldingError>)

  /** `holdings.map(t => t.mint === mint ? f(t) : t)` */
  function MapMint(holdings: seq<TokenHolding>, mint: string, f: TokenHolding -> TokenHolding): (r: seq<TokenHolding>)
    ensures |r| == |holdings|
    ensures forall i :: 0 <= i < |r| ==> r[i] == if holdings[i].mint == mint then f(holdings[i]) else holdings[i]
  {
    seq(|holdings|, i requires 0 <= i < |holdings| => if holdings[i].mint == mint then f(holdings[i]) else holdings[i])
  }

  /** `holdings.find(t => t.mint === mint)`, as the index of the first holding of `mint`. */
  function FindIndex(holdings: seq<TokenHolding>, mint: string): (r: Option<nat>)
    ensures r.Some? ==> r.value < |holdings| && holdings[r.value].mint == mint
    ensures r.Some? ==> forall j :: 0 <= j < r.value ==> holdings[j].mint != mint
    ensures r.None? <==> forall i :: 0 <= i < |holdings| ==> holdings[i].mint != mint
  {
    if |holdings| == 0 then None
    else if holdings[0].mint == mint then Some(0)
    else
      match FindIndex(holdings[1..], mint)
      case None => None
      case Some(k) => Some(k + 1)
  }

  // ---------------------------------------------------------------------
  // handleSellAmountChange
  // ---------------------------------------------------------------------

  /** The amount the input is set to: below zero becomes zero, above the balance becomes the balance. */
  function ClampSellAmount(amount: real, max: real): (r: real)
    ensures 0.0 <= max ==> 0.0 <= r <= max
    ensures 0.0 <= amount <= max ==> r == amount
    ensures amount < 0.0 ==> r == (if 0.0 > max then max else 0.0)
    ensures amount > max && 0.0 <= max ==> r == max
  {
    var a := if amount < 0.0 then 0.0 else amount;
    if a > max then max else a
  }

  /** `handleSellAmountChange(mint, amount)` applied to a holdings list. */
  function SetSellAmount(holdings: seq<TokenHolding>, mint: string, amount: real): (r: seq<TokenHolding>)
    ensures |r| == |holdings|
    ensures forall i :: 0 <= i < |r| && holdings[i].mint != mint ==> r[i] == holdings[i]
    ensures forall i :: 0 <= i < |r| && holdings[i].mint == mint ==>
      && r[i] == holdings[i].(sellAmount := r[i].sellAmount, error := None)
      && (0.0 <= holdings[i].amount ==> 0.0 <= r[i].sellAmount <= holdings[i].amount)
      && (0.0 <= amount <= holdings[i].amount ==> r[i].sellAmount == amount)
  {
    MapMint(holdings, mint, (t: TokenHolding) => t.(sellAmount := ClampSellAmount(amount, t.amount), error := None))
  }

  /** Setting an amount twice keeps only the second. */
  lemma SetSellAmountTwice(holdings: seq<TokenHolding>, mint: string, a: real, b: real)
    ensures SetSellAmount(SetSellAmount(holdings, mint, a), mint, b) == SetSellAmount(holdings, mint, b)
  {
    var once := SetSellAmount(holdings, mint, a);
    var lhs := SetSellAmount(once, mint, b);
    var rhs := SetSellAmount(holdings, mint, b);
    forall i | 0 <= i < |holdings|
      ensures lhs[i] == rhs[i]
    {
      assert once[i].mint == holdings[i].mint && once[i].amount == holdings[i].amount;
    }
  }

  // ---------------------------------------------------------------------
  // handleSellToken
  // ---------------------------------------------------------------------

  /** A sell amount the panel accepts: more than zero and at most the balance. */
  predicate ValidSellAmount(t: TokenHolding) {
    0.0 < t.sellAmount <= t.amount
  }

  /** Marks every holding of `mint` with the invalid-amount error. */
  function MarkInvalid(holdings: seq<TokenHolding>, mint: string, max: real): seq<TokenHolding> {
    MapMint(holdings, mint, (t: TokenHolding) => t.(error := Some(InvalidSellAmount(max))))
  }

  /** Sets the loading flag of every holding of `mint`, clearing its error when the flag goes up. */
  function MarkLoading(holdings: seq<TokenHolding>, mint: string, loading: bool): seq<TokenHolding> {
    MapMint(holdings, mint, (t: TokenHolding) => if loading then t.(isLoading := true, error := None) else t.(isLoading := false))
  }

  /**
   * As written, the second argument of `sell` is the share of the balance
   * being sold, in percent.
   */
  function SellArgumentAsWritten(t: TokenHolding): (r: real)
    requires ValidSellAmount(t)
    ensures 0.0 < r <= 100.0
    ensures r * t.amount == t.sellAmount * 100.0
  {
    var share := t.sellAmount / t.amount;
    assert share * t.amount == t.sellAmount;
    assert share <= 1.0 by {
      if share > 1.0 {
        PositiveProduct(share - 1.0, t.amount);
      }
    }
    share * 100.0
  }

  lemma PositiveProduct(x: real, y: real)
    requires 0.0 < x && 0.0 < y
    ensures 0.0 < x * y
  {
  }

  lemma CancelPositive(c: real, x: real, y: real)
    requires 0.0 < c && c * x == c * y
    ensures x == y
  {
    assert x == (c * x) / c;
    assert y == (c * y) / c;
  }

  /** `sell` takes a number of tokens, so the corrected panel passes the chosen amount itself. */
  function SellArgument(t: TokenHolding): (r: real)
    requires ValidSellAmount(t)
    ensures PumpFunClient.SellQuoteAmount(r) / PumpFunClient.TOKEN_DECIMAL == t.sellAmount
    ensures 0.0 < r <= t.amount
  {
    t.sellAmount
  }

  /**
   * The percentage is read as a token count: choosing 500 of 1000 tokens
   * asks for a quote on 50 tokens.
   */
  lemma PercentageSoldAsTokens()
    ensures var t := TokenHolding("Xpump", "", "", 1000.0, 6, None, None, false, 500.0, None);
      && SellArgumentAsWritten(t) == 50.0
      && PumpFunClient.SellQuoteAmount(SellArgumentAsWritten(t)) / PumpFunClient.TOKEN_DECIMAL == 50.0
      && SellArgument(t) == 500.0
  {
    var t := TokenHolding("Xpump", "", "", 1000.0, 6, None, None, false, 500.0, None);
    assert SellArgumentAsWritten(t) * 1000.0 == 50000.0;
  }

  /** The two arguments agree only for a balance of exactly 100 tokens. */
  lemma AsWrittenAgreesOnlyAtHundred(t: TokenHolding)
    requires ValidSellAmount(t)
    ensures SellArgumentAsWritten(t) == SellArgument(t) <==> t.amount == 100.0
  {
    var r := SellArgumentAsWritten(t);
    if r == t.sellAmount {
      CancelPositive(t.sellAmount, t.amount, 100.0);
    }
    if t.amount == 100.0 {
      assert r * 100.0 == t.sellAmount * 100.0;
    }
  }

  /**
   * As written, the success branch tests the result object of `sell`,
   * and an object is always truthy.
   */
  predicate SellSucceededAsWritten(r: TxResult) {
    true
  }

  /** Corrected: the success branch runs when `sell` reports success. */
  predicate SellSucceeded(r: TxResult) {
    r.success
  }

  /**
   * The holdings after the outcome of a sell: on success the sell amount
   * is reset, and the loading flag goes down in every case.
   */
  function AfterSell(holdings: seq<TokenHolding>, mint: string, succeeded: bool): (r: seq<TokenHolding>)
    ensures |r| == |holdings|
    ensures forall i :: 0 <= i < |r| ==> r[i].mint == holdings[i].mint
    ensures forall i :: 0 <= i < |r| && holdings[i].mint == mint ==> !r[i].isLoading
    ensures forall i :: 0 <= i < |r| && holdings[i].mint == mint && 0.0 <= holdings[i].amount ==>
      r[i].sellAmount == (if succeeded then 0.0 else holdings[i].sellAmount)
  {
    MarkLoading(if succeeded then SetSellAmount(holdings, mint, 0.0) else holdings, mint, false)
  }

  /**
   * A sell that fails still clears the chosen amount as written; the
   * corrected test keeps it.
   */
  lemma FailedSellClearsAmountAsWritten(holdings: seq<TokenHolding>, mint: string, r: TxResult, i: nat)
    requires !r.success
    requires i < |holdings| && holdings[i].mint == mint && 0.0 <= holdings[i].amount && holdings[i].sellAmount != 0.0
    ensures AfterSell(holdings, mint, SellSucceededAsWritten(r))[i].sellAmount == 0.0
    ensures AfterSell(holdings, mint, SellSucceeded(r))[i].sellAmount == holdings[i].sellAmount != 0.0
  {
  }

  // ---------------------------------------------------------------------
  // fetchTokenHoldings
  // ---------------------------------------------------------------------

  /** One item of the wallet's `searchAssets` reply. */
  datatype HoldingAsset = HoldingAsset(
    id: string,
    name: Option<string>,
    symbol: Option<string>,
    balance: real,
    decimals: Option<nat>,
    pricePerToken: Option<real>,
    totalPrice: Option<real>)

  /** A `searchAssets` reply: not OK, an RPC error with its message, a thrown error, or the items. */
  datatype SearchReply<T> =
    | NotOk(status: nat)
    | RpcError(rpcMessage: string)
    | Thrown(thrown: Option<string>)
    | Items(items: seq<T>)

  /** The message a failed reply leaves in the panel's error. */
  function ReplyError<T>(reply: SearchReply<T>): (r: string)
    requires !reply.Items?
    ensures reply.NotOk? ==> r == "HTTP error! status: " + DecimalString(reply.status)
    ensures reply.RpcError? ==> r == reply.rpcMessage
    ensures reply.Thrown? ==> r == reply.thrown.GetOr(HOLDINGS_ERROR)
  {
    match reply
    case NotOk(status) => "HTTP error! status: " + DecimalString(status)
    case RpcError(message) => message
    case Thrown(message) => message.GetOr(HOLDINGS_ERROR)
  }

  /** The items whose lower-cased id ends with 'pump', in reply order. */
  function PumpOnly(items: seq<HoldingAsset>): (r: seq<HoldingAsset>)
    ensures |r| <= |items|
    ensures forall x :: x in r <==> x in items && HeliusService.IsPumpMint(x.id)
  {
    if |items| == 0 then []
    else if HeliusService.IsPumpMint(items[0].id) then [items[0]] + PumpOnly(items[1..])
    else PumpOnly(items[1..])
  }

  /** The filter keeps the reply's order: it distributes over concatenation. */
  lemma {:induction false} PumpOnlyAppend(xs: seq<HoldingAsset>, ys: seq<HoldingAsset>)
    ensures PumpOnly(xs + ys) == PumpOnly(xs) + PumpOnly(ys)
  {
    if |xs| > 0 {
      assert (xs + ys)[0] == xs[0] && (xs + ys)[1..] == xs[1..] + ys;
      PumpOnlyAppend(xs[1..], ys);
    } else {
      assert xs + ys == ys;
    }
  }

  /** The sell amount a rebuilt holding keeps: the one of the first old holding of the mint, or zero. */
  function CarriedSellAmount(previous: seq<TokenHolding>, mint: string): (r: real)
    ensures (forall i :: 0 <= i < |previous| ==> previous[i].mint != mint) ==> r == 0.0
    ensures forall i ::
      (0 <= i < |previous| && previous[i].mint == mint && forall j :: 0 <= j < i ==> previous[j].mint != mint)
      ==> r == previous[i].sellAmount
  {
    match FindIndex(previous, mint)
    case None => 0.0
    case Some(i) => previous[i].sellAmount
  }

  /** The holding built from an asset, given the holdings before the refresh. */
  function HoldingOf(asset: HoldingAsset, previous: seq<TokenHolding>): TokenHolding {
    var decimals := asset.decimals.GetOr(0);
    TokenHolding(asset.id, OrElse(asset.name, HeliusService.UNKNOWN_NAME), OrElse(asset.symbol, HeliusService.UNKNOWN_SYMBOL),
                 asset.balance / HeliusService.Pow10(decimals), decimals, asset.pricePerToken, asset.totalPrice,
                 false, CarriedSellAmount(previous, asset.id), None)
  }

  /** The holdings rebuilt from a reply's items. */
  function Rebuild(items: seq<HoldingAsset>, previous: seq<TokenHolding>): (r: seq<TokenHolding>)
    ensures |r| <= |items|
    ensures forall i :: 0 <= i < |r| ==> !r[i].isLoading && r[i].error.None?
  {
    var kept := PumpOnly(items);
    seq(|kept|, i requires 0 <= i < |kept| => HoldingOf(kept[i], previous))
  }

  /**
   * A rebuilt list holds exactly the pump.fun items, in reply order, none
   * loading and none in error, each keeping the sell amount the mint had
   * before (zero for a new mint).
   */
  lemma RebuildKeepsSellAmounts(items: seq<HoldingAsset>, previous: seq<TokenHolding>)
    ensures var r := Rebuild(items, previous);
      && |r| == |PumpOnly(items)|
      && (forall i :: 0 <= i < |r| ==> r[i].mint == PumpOnly(items)[i].id && HeliusService.IsPumpMint(r[i].mint))
      && (forall i :: 0 <= i < |r| ==> !r[i].isLoading && r[i].error.None?)
      && (forall i :: 0 <= i < |r| ==> r[i].sellAmount == CarriedSellAmount(previous, r[i].mint))
      && (forall i, k ::
            (0 <= i < |r| && 0 <= k < |previous| && previous[k].mint == r[i].mint
             && forall j :: 0 <= j < k ==> previous[j].mint != r[i].mint)
            ==> r[i].sellAmount == previous[k].sellAmount)
      && (forall i :: 0 <= i < |r| && (forall k :: 0 <= k < |previous| ==> previous[k].mint != r[i].mint)
            ==> r[i].sellAmount == 0.0)
  {
    var kept := PumpOnly(items);
    var r := Rebuild(items, previous);
    forall i | 0 <= i < |r|
      ensures HeliusService.IsPumpMint(r[i].mint)
    {
      assert kept[i] in kept;
    }
  }

  /** Every rebuilt holding is a pump.fun mint. */
  lemma RebuildKeepsPumpMints(items: seq<HoldingAsset>, previous: seq<TokenHolding>)
    ensures var r := Rebuild(items, previous);
      forall i :: 0 <= i < |r| ==> HeliusService.IsPumpMint(r[i].mint)
  {
    RebuildKeepsSellAmounts(items, previous);
  }

  // ---------------------------------------------------------------------
  // fetchTokenPrices
  // ---------------------------------------------------------------------

  /** One item of the price `searchAssets` reply. */
  datatype PriceItem = PriceItem(id: string, pricePerToken: Option<real>, totalPrice: Option<real>)

  /** `x || fallback` where the fallback is itself optional. */
  function NumberOrKeep(x: Option<real>, fallback: Option<real>): (r: Option<real>)
    ensures x.Some? && x.value != 0.0 ==> r == x
    ensures x.None? || x.value == 0.0 ==> r == fallback
  {
    if x.Some? && x.value != 0.0 then x else fallback
  }

  /** The first price item for `mint`. */
  function FindPrice(items: seq<PriceItem>, mint: string): (r: Option<PriceItem>)
    ensures r.Some? ==> r.value in items && r.value.id == mint
    ensures r.None? ==> forall x :: x in items ==> x.id != mint
    ensures r.Some? ==> exists k :: 0 <= k < |items| && items[k] == r.value && forall j :: 0 <= j < k ==> items[j].id != mint
  {
    if |items| == 0 then None
    else if items[0].id == mint then Some(items[0])
    else
      var r := FindPrice(items[1..], mint);
      if r.Some? then
        var k :| 0 <= k < |items[1..]| && items[1..][k] == r.value && forall j :: 0 <= j < k ==> items[1..][j].id != mint;
        assert items[k + 1] == r.value && forall j :: 0 <= j < k + 1 ==> items[j].id != mint;
        r
      else r
  }

  /** The holdings with the prices of a reply merged in. */
  function UpdatePrices(holdings: seq<TokenHolding>, items: seq<PriceItem>): (r: seq<TokenHolding>)
    ensures |r| == |holdings|
    ensures forall i :: 0 <= i < |r| ==> r[i].mint == holdings[i].mint && r[i].sellAmount == holdings[i].sellAmount
  {
    seq(|holdings|, i requires 0 <= i < |holdings| =>
      var info := FindPrice(items, holdings[i].mint);
      holdings[i].(pricePerToken := NumberOrKeep(if info.Some? then info.value.pricePerToken else None, holdings[i].pricePerToken),
                   totalValue := NumberOrKeep(if info.Some? then info.value.totalPrice else None, holdings[i].totalValue)))
  }

  /**
   * Merging prices changes only the two price fields, and a price changes
   * only to a non-zero value reported for that mint.
   */
  lemma UpdatePricesOnlyPrices(holdings: seq<TokenHolding>, items: seq<PriceItem>)
    ensures var r := UpdatePrices(holdings, items);
      && |r| == |holdings|
      && (forall i :: 0 <= i < |r| ==> r[i] == holdings[i].(pricePerToken := r[i].pricePerToken, totalValue := r[i].totalValue))
      && (forall i :: 0 <= i < |r| && r[i].pricePerToken != holdings[i].pricePerToken ==>
            exists x :: x in items && x.id == holdings[i].mint && x.pricePerToken == r[i].pricePerToken
                        && r[i].pricePerToken.Some? && r[i].pricePerToken.value != 0.0)
      && (forall i :: 0 <= i < |r| && (forall x :: x in items ==> x.id != holdings[i].mint) ==> r[i] == holdings[i])
  {
    var r := UpdatePrices(holdings, items);
    forall i | 0 <= i < |r| && r[i].pricePerToken != holdings[i].pricePerToken
      ensures exists x :: x in items && x.id == holdings[i].mint && x.pricePerToken == r[i].pricePerToken
                          && r[i].pricePerToken.Some? && r[i].pricePerToken.value != 0.0
    {
      var info := FindPrice(items, holdings[i].mint);
      assert info.Some?;
      assert info.value in items;
    }
  }

  // ---------------------------------------------------------------------
  // handleRefreshClick
  // ---------------------------------------------------------------------

  /** `shouldUpdate`: a minute has passed since the last successful refresh. */
  predicate ShouldUpdate(now: int, lastUpdateTime: int) {
    now - lastUpdateTime >= UPDATE_INTERVAL
  }

  /** `Math.ceil((60000 - elapsed) / 1000)`: the whole seconds still to wait. */
  function WaitSeconds(elapsed: int): (r: nat)
    requires elapsed < UPDATE_INTERVAL
    ensures (r - 1) * 1000 < UPDATE_INTERVAL - elapsed <= r * 1000
    ensures r >= 1
    ensures 0 <= elapsed ==> r <= 60
  {
    (UPDATE_INTERVAL - elapsed + 999) / 1000
  }

  function WaitMessage(elapsed: int): string
    requires elapsed < UPDATE_INTERVAL
  {
    "Please wait " + DecimalString(WaitSeconds(elapsed)) + " seconds before refreshing again"
  }

  /** The error a refresh leaves: the reply's error, else the balance error, else none. */
  function RefreshError(balance: Option<int>, reply: SearchReply<HoldingAsset>): Option<string> {
    if !reply.Items? then Some(ReplyError(reply))
    else if balance.None? then Some(BALANCE_ERROR)
    else None
  }

  /**
   * The holdings `handleSellToken` leaves once `sell` has returned, as
   * written: the mint's amount is cleared, a refresh that started rebuilds
   * the list from its reply, and the mint stops loading.
   */
  function HoldingsAfterSale(holdings: seq<TokenHolding>, mint: string, refreshed: bool,
                             reply: SearchReply<HoldingAsset>): (r: seq<TokenHolding>)
    ensures !(refreshed && reply.Items?) ==> |r| == |holdings| && forall i :: 0 <= i < |r| ==> r[i].mint == holdings[i].mint
    ensures forall i :: 0 <= i < |r| && r[i].mint == mint ==> !r[i].isLoading
  {
    var cleared := SetSellAmount(MarkLoading(holdings, mint, true), mint, 0.0);
    MarkLoading(if refreshed && reply.Items? then Rebuild(reply.items, cleared) else cleared, mint, false)
  }

  /** What `handleSellToken` did. */
  datatype SellOutcome =
    | NotAttempted
    | Rejected
    | Sold(result: TxResult, refreshStarted: bool)

  /** The panel's state: the React state, the refs, and the sells it has asked for. */
  class Panel {
    var holdings: seq<TokenHolding>
    var solBalance: real
    var loading: bool
    var error: Option<string>
    var isUpdating: bool
    var needsUpdate: bool
    var lastUpdateTime: int
    /** The mint and token amount of every `sell` call, in order. */
    var sold: seq<(string, real)>

    /** Every holding is a pump.fun mint and every sale asked for a positive amount. */
    predicate Valid()
      reads this
    {
      && (forall i :: 0 <= i < |holdings| ==> HeliusService.IsPumpMint(holdings[i].mint))
      && (forall k :: 0 <= k < |sold| ==> sold[k].1 > 0.0)
    }

    constructor()
      ensures Valid()
      ensures holdings == [] && solBalance == 0.0 && !loading && error.None?
      ensures !isUpdating && !needsUpdate && lastUpdateTime == 0 && sold == []
    {
      holdings := [];
      solBalance := 0.0;
      loading := false;
      error := None;
      isUpdating := false;
      needsUpdate := false;
      lastUpdateTime := 0;
      sold := [];
    }

    /** `handleSellAmountChange(mint, amount)` */
    method HandleSellAmountChange(mint: string, amount: real)
      requires Valid()
      modifies this
      ensures Valid()
      ensures holdings == SetSellAmount(old(holdings), mint, amount)
      ensures solBalance == old(solBalance) && loading == old(loading) && error == old(error)
      ensures isUpdating == old(isUpdating) && needsUpdate == old(needsUpdate)
      ensures lastUpdateTime == old(lastUpdateTime) && sold == old(sold)
    {
      holdings := SetSellAmount(holdings, mint, amount);
    }

    /**
     * `fetchTokenHoldings(showLoading, force)`: without a key, or while a
     * refresh is running, it only records that one is needed; unforced, it
     * does nothing within a minute of the last refresh. Otherwise it reads
     * the balance and the holdings, and always ends the update.
     */
    method FetchTokenHoldings(showLoading: bool, force: bool, hasKey: bool, now: int,
                              balance: Option<int>, reply: SearchReply<HoldingAsset>)
      returns (started: bool)
      requires Valid()
      modifies this
      ensures Valid()
      ensures started <==> hasKey && !old(isUpdating) && (force || ShouldUpdate(now, old(lastUpdateTime)))
      ensures needsUpdate == (old(needsUpdate) || !hasKey || old(isUpdating))
      ensures sold == old(sold)
      ensures !started ==> && holdings == old(holdings) && solBalance == old(solBalance) && loading == old(loading)
                           && error == old(error) && isUpdating == old(isUpdating)
                           && lastUpdateTime == old(lastUpdateTime)
      ensures started ==> !isUpdating && loading == (old(loading) && !showLoading)
      ensures started ==> solBalance == (if balance.Some? then SolOf(balance.value)
                                         else old(solBalance))
      ensures started && !reply.Items? ==> && error == Some(ReplyError(reply)) && holdings == old(holdings)
                                           && lastUpdateTime == old(lastUpdateTime)
      ensures started && reply.Items? ==> && holdings == Rebuild(reply.items, old(holdings)) && lastUpdateTime == now
                                          && error == (if balance.None? then Some(BALANCE_ERROR) else None)
    {
      if !hasKey || isUpdating {
        needsUpdate := true;
        return false;
      }
      if !force && !ShouldUpdate(now, lastUpdateTime) {
        return false;
      }
      started := true;
      Refresh(showLoading, now, balance, reply);
    }

    /** The refresh `fetchTokenHoldings` starts: it reads the balance and the holdings, and always ends the update. */
    method Refresh(showLoading: bool, now: int, balance: Option<int>, reply: SearchReply<HoldingAsset>)
      requires Valid()
      modifies this
      ensures Valid()
      ensures needsUpdate == old(needsUpdate) && sold == old(sold)
      ensures !isUpdating && loading == (old(loading) && !showLoading)
      ensures solBalance == (if balance.Some? then SolOf(balance.value)
                             else old(solBalance))
      ensures !reply.Items? ==> && error == Some(ReplyError(reply)) && holdings == old(holdings)
                                && lastUpdateTime == old(lastUpdateTime)
      ensures reply.Items? ==> && holdings == Rebuild(reply.items, old(holdings)) && lastUpdateTime == now
                               && error == (if balance.None? then Some(BALANCE_ERROR) else None)
    {
      isUpdating := true;
      if showLoading {
        loading := true;
      }
      var newError: Option<string> := None;
      var newBalance := solBalance;
      match balance {
        case Some(lamports) => newBalance := SolOf(lamports);
        case None => newError := Some(BALANCE_ERROR);
      }
      var newHoldings, newTime := holdings, lastUpdateTime;
      match reply {
        case Items(items) =>
          newHoldings := Rebuild(items, holdings);
          RebuildKeepsPumpMints(items, holdings);
          newTime := now;
        case _ =>
          newError := Some(ReplyError(reply));
      }
      holdings, solBalance, error, lastUpdateTime := newHoldings, newBalance, newError, newTime;
      isUpdating := false;
      if showLoading {
        loading := false;
      }
    }

    /** `fetchTokenPrices()`: nothing for an empty list or a failed reply. */
    method FetchTokenPrices(reply: SearchReply<PriceItem>)
      requires Valid()
      modifies this
      ensures Valid()
      ensures |old(holdings)| == 0 || !reply.Items? ==> holdings == old(holdings)
      ensures |old(holdings)| > 0 && reply.Items? ==> holdings == UpdatePrices(old(holdings), reply.items)
      ensures solBalance == old(solBalance) && loading == old(loading) && error == old(error)
      ensures isUpdating == old(isUpdating) && needsUpdate == old(needsUpdate)
      ensures lastUpdateTime == old(lastUpdateTime) && sold == old(sold)
    {
      if |holdings| == 0 {
        return;
      }
      if reply.Items? {
        var previous := holdings;
        holdings := UpdatePrices(previous, reply.items);
        UpdatePricesOnlyPrices(previous, reply.items);
      }
    }

    /**
     * `handleSellToken(mint)`: a missing key, client or holding does
     * nothing; an invalid amount marks the holding and sells nothing;
     * otherwise `sell` is called with the share chosen, in percent, and the
     * amount is reset and an unforced refresh asked for whatever `sell`
     * reports. The holding stops loading whatever the outcome.
     */
    method HandleSellToken(mint: string, hasKey: bool, hasClient: bool, o: PumpFunClient.SellOracle, now: int,
                           balance: Option<int>, reply: SearchReply<HoldingAsset>)
      returns (outcome: SellOutcome)
      requires Valid()
      modifies this
      ensures Valid()
      ensures outcome.NotAttempted? <==> !hasKey || !hasClient || FindIndex(old(holdings), mint).None?
      ensures outcome.NotAttempted? ==> holdings == old(holdings) && sold == old(sold) && error == old(error)
      ensures outcome.NotAttempted? || outcome.Rejected? ==>
        && solBalance == old(solBalance) && loading == old(loading) && error == old(error)
        && isUpdating == old(isUpdating) && needsUpdate == old(needsUpdate) && lastUpdateTime == old(lastUpdateTime)
      ensures outcome.Rejected? <==>
        && hasKey && hasClient && FindIndex(old(holdings), mint).Some?
        && !ValidSellAmount(old(holdings)[FindIndex(old(holdings), mint).value])
      ensures outcome.Rejected? ==>
        && holdings == MarkInvalid(old(holdings), mint, old(holdings)[FindIndex(old(holdings), mint).value].amount)
        && sold == old(sold)
      ensures outcome.Sold? ==>
        && sold == old(sold) + [(mint, SellArgumentAsWritten(old(holdings)[FindIndex(old(holdings), mint).value]))]
        && outcome.result == PumpFunClient.SellFlow(o)
        && (forall i :: 0 <= i < |holdings| && holdings[i].mint == mint ==> !holdings[i].isLoading)
      ensures outcome.Sold? && !outcome.refreshStarted ==>
        && |holdings| == |old(holdings)|
        && (forall i :: 0 <= i < |holdings| && old(holdings)[i].mint == mint && 0.0 <= old(holdings)[i].amount
              ==> holdings[i].sellAmount == 0.0)
      ensures !(outcome.Sold? && outcome.refreshStarted) ==> lastUpdateTime == old(lastUpdateTime)
      ensures outcome.Sold? ==>
        && (outcome.refreshStarted <==> !old(isUpdating) && ShouldUpdate(now, old(lastUpdateTime)))
        && holdings == HoldingsAfterSale(old(holdings), mint, outcome.refreshStarted, reply)
        && error == (if outcome.refreshStarted then RefreshError(balance, reply) else old(error))
        && lastUpdateTime == (if outcome.refreshStarted && reply.Items? then now else old(lastUpdateTime))
        && solBalance == (if outcome.refreshStarted && balance.Some? then SolOf(balance.value) else old(solBalance))
        && loading == old(loading) && isUpdating == old(isUpdating)
        && needsUpdate == (old(needsUpdate) || old(isUpdating))
    {
      if !hasKey || !hasClient {
        return NotAttempted;
      }
      var index := FindIndex(holdings, mint);
      if index.None? {
        return NotAttempted;
      }
      var token := holdings[index.value];
      if !ValidSellAmount(token) {
        holdings := MarkInvalid(holdings, mint, token.amount);
        return Rejected;
      }
      outcome := SellHolding(token, o, now, balance, reply);
    }

    /**
     * The part of `handleSellToken` after validation, as written: the share
     * chosen is passed to `sell`, and the success branch runs whatever
     * `sell` reports.
     */
    method SellHolding(token: TokenHolding, o: PumpFunClient.SellOracle, now: int,
                       balance: Option<int>, reply: SearchReply<HoldingAsset>)
      returns (outcome: SellOutcome)
      requires Valid() && ValidSellAmount(token)
      modifies this
      ensures Valid()
      ensures outcome.Sold? && outcome.result == PumpFunClient.SellFlow(o)
      ensures sold == old(sold) + [(token.mint, SellArgumentAsWritten(token))]
      ensures forall i :: 0 <= i < |holdings| && holdings[i].mint == token.mint ==> !holdings[i].isLoading
      ensures !outcome.refreshStarted ==>
        holdings == AfterSell(MarkLoading(old(holdings), token.mint, true), token.mint, SellSucceededAsWritten(outcome.result))
      ensures !outcome.refreshStarted ==>
        && |holdings| == |old(holdings)|
        && (forall i :: 0 <= i < |holdings| && old(holdings)[i].mint == token.mint && 0.0 <= old(holdings)[i].amount
              ==> holdings[i].sellAmount == 0.0)
      ensures !outcome.refreshStarted ==> lastUpdateTime == old(lastUpdateTime) && error == old(error)
      ensures outcome.refreshStarted <==> !old(isUpdating) && ShouldUpdate(now, old(lastUpdateTime))
      ensures holdings == HoldingsAfterSale(old(holdings), token.mint, outcome.refreshStarted, reply)
      ensures error == (if outcome.refreshStarted then RefreshError(balance, reply) else old(error))
      ensures lastUpdateTime == (if outcome.refreshStarted && reply.Items? then now else old(lastUpdateTime))
      ensures solBalance == (if outcome.refreshStarted && balance.Some? then SolOf(balance.value) else old(solBalance))
      ensures loading == old(loading) && isUpdating == old(isUpdating)
      ensures needsUpdate == (old(needsUpdate) || old(isUpdating))
    {
      var mint := token.mint;
      var amount := SellArgumentAsWritten(token);
      holdings := MarkLoading(holdings, mint, true);
      sold := sold + [(mint, amount)];
      var r := PumpFunClient.Sell(o);
      var refreshStarted := false;
      if SellSucceededAsWritten(r) {
        refreshStarted := ResetAfterSale(mint, now, balance, reply);
      }
      holdings := MarkLoading(holdings, mint, false);
      outcome := Sold(r, refreshStarted);
    }

    /** The success branch of `handleSellToken`: the amount goes back to zero and an unforced refresh is asked for. */
    method ResetAfterSale(mint: string, now: int, balance: Option<int>, reply: SearchReply<HoldingAsset>)
      returns (refreshStarted: bool)
      requires Valid()
      modifies this
      ensures Valid()
      ensures sold == old(sold)
      ensures !refreshStarted ==> && holdings == SetSellAmount(old(holdings), mint, 0.0)
                                  && lastUpdateTime == old(lastUpdateTime) && error == old(error)
      ensures refreshStarted <==> !old(isUpdating) && ShouldUpdate(now, old(lastUpdateTime))
      ensures holdings == if refreshStarted && reply.Items? then Rebuild(reply.items, SetSellAmount(old(holdings), mint, 0.0))
                          else SetSellAmount(old(holdings), mint, 0.0)
      ensures error == (if refreshStarted then RefreshError(balance, reply) else old(error))
      ensures lastUpdateTime == (if refreshStarted && reply.Items? then now else old(lastUpdateTime))
      ensures solBalance == (if refreshStarted && balance.Some? then SolOf(balance.value) else old(solBalance))
      ensures loading == old(loading) && isUpdating == old(isUpdating)
      ensures needsUpdate == (old(needsUpdate) || old(isUpdating))
    {
      HandleSellAmountChange(mint, 0.0);
      refreshStarted := FetchTokenHoldings(false, false, true, now, balance, reply);
    }

    /**
     * `handleRefreshClick`: a forced refresh with the loading indicator
     * once a minute has passed; before that, an error naming the seconds
     * left, rounded up.
     */
    method HandleRefreshClick(hasKey: bool, now: int, balance: Option<int>, reply: SearchReply<HoldingAsset>)
      returns (started: bool)
      requires Valid()
      modifies this
      ensures Valid()
      ensures started ==> ShouldUpdate(now, old(lastUpdateTime))
      ensures ShouldUpdate(now, old(lastUpdateTime)) ==> (started <==> hasKey && !old(isUpdating))
      ensures !ShouldUpdate(now, old(lastUpdateTime)) ==>
        && error == Some(WaitMessage(now - old(lastUpdateTime)))
        && holdings == old(holdings) && lastUpdateTime == old(lastUpdateTime) && needsUpdate == old(needsUpdate)
      ensures sold == old(sold)
    {
      if ShouldUpdate(now, lastUpdateTime) {
        started := FetchTokenHoldings(true, true, hasKey, now, balance, reply);
      } else {
        error := Some(WaitMessage(now - lastUpdateTime));
        started := false;
      }
    }
  }
}

=== FILE: sorting.dfy ===
/**
 * Stable descending sort by an integer key, the behaviour of
 * `arr.sort((a, b) => key(b) - key(a))` on a JavaScript engine with a
 * stable sort.
 */
module Sorting {

  /** Newest first: keys never increase along the sequence. */
  ghost predicate SortedDesc<T>(s: seq<T>, key: T -> int) {
    forall i, j :: 0 <= i < j < |s| ==> key(s[i]) >= key(s[j])
  }

  /** Inserts `x` in front of the first element whose key is not greater than its own. */
  function Insert<T>(x: T, s: seq<T>, key: T -> int): (r: seq<T>)
    ensures |r| == |s| + 1
  {
    if |s| == 0 then [x]
    else if key(x) >= key(s[0]) then [x] + s
    else [s[0]] + Insert(x, s[1..], key)
  }

  /** Inserting adds `x` and keeps every other element. */
  lemma {:induction false} InsertPermutes<T>(x: T, s: seq<T>, key: T -> int)
    ensures multiset(Insert(x, s, key)) == multiset(s) + multiset{x}
  {
    if |s| > 0 && key(x) < key(s[0]) {
      InsertPermutes(x, s[1..], key);
      assert s == [s[0]] + s[1..];
    }
  }

  /** Inserting into a sequence sorted by descending key keeps it sorted. */
  lemma {:induction false} InsertSorted<T>(x: T, s: seq<T>, key: T -> int)
    requires SortedDesc(s, key)
    ensures SortedDesc(Insert(x, s, key), key)
  {
    if |s| > 0 && key(x) < key(s[0]) {
      var rest := Insert(x, s[1..], key);
      InsertSorted(x, s[1..], key);
      InsertPermutes(x, s[1..], key);
      forall k | 0 <= k < |rest|
        ensures key(s[0]) >= key(rest[k])
      {
        assert rest[k] in multiset(rest);
        if rest[k] != x {
          assert rest[k] in multiset(s[1..]);
          var m :| 0 <= m < |s[1..]| && s[1..][m] == rest[k];
          assert s[m + 1] == rest[k];
        }
      }
    }
  }

  /** Insertion sort; equal keys keep their relative order. */
  function SortDesc<T>(s: seq<T>, key: T -> int): (r: seq<T>)
    ensures |r| == |s|
  {
    if |s| == 0 then [] else Insert(s[0], SortDesc(s[1..], key), key)
  }

  /** Sorting keeps exactly the same elements. */
  lemma {:induction false} SortDescPermutes<T>(s: seq<T>, key: T -> int)
    ensures multiset(SortDesc(s, key)) == multiset(s)
  {
    if |s| > 0 {
      SortDescPermutes(s[1..], key);
      InsertPermutes(s[0], SortDesc(s[1..], key), key);
      assert s == [s[0]] + s[1..];
    }
  }

  /** Sorting orders by descending key. */
  lemma {:induction false} SortDescSorted<T>(s: seq<T>, key: T -> int)
    ensures SortedDesc(SortDesc(s, key), key)
  {
    if |s| > 0 {
      SortDescSorted(s[1..], key);
      InsertSorted(s[0], SortDesc(s[1..], key), key);
    }
  }

  /** Cutting a newest-first list after `n` elements drops nothing newer than what it keeps. */
  lemma PrefixKeepsNewest<T>(s: seq<T>, key: T -> int, n: nat)
    requires SortedDesc(s, key) && n <= |s|
    ensures forall t, u :: t in s[..n] && u in multiset(s) - multiset(s[..n]) ==> key(u) <= key(t)
  {
    var kept, dropped := s[..n], s[n..];
    assert s == kept + dropped;
    assert multiset(s) - multiset(kept) == multiset(dropped);
    forall t, u | t in kept && u in multiset(s) - multiset(kept)
      ensures key(u) <= key(t)
    {
      assert u in dropped;
      var i :| 0 <= i < |kept| && kept[i] == t;
      var j :| 0 <= j < |dropped| && dropped[j] == u;
      assert s[i] == t && s[n + j] == u;
    }
  }

  /** When every key is the same, sorting leaves the sequence as it is. */
  lemma {:induction false} SortConstantKey<T>(s: seq<T>, key: T -> int, c: int)
    requires forall x :: key(x) == c
    ensures SortDesc(s, key) == s
  {
    if |s| > 0 {
      SortConstantKey(s[1..], key, c);
    }
  }
}

=== FILE: text.dfy ===
/**
 * String helpers used by the model: prefix and suffix tests, leftmost
 * substring search, ASCII lower-casing, whitespace trimming and the
 * order-preserving duplicate removal of `[...new Set(xs)]`.
 */
module Text {
  import opened Wrappers

  predicate IsPrefix(p: string, s: string) {
    |p| <= |s| && s[..|p|] == p
  }

  predicate IsSuffix(suffix: string, s: string) {
    |suffix| <= |s| && s[|s| - |suffix|..] == suffix
  }

  /** `sub` occurs in `s` starting at position `i`. */
  predicate OccursAt(s: string, sub: string, i: int) {
    0 <= i && i + |sub| <= |s| && s[i..i + |sub|] == sub
  }

  /** The leftmost position at which `sub` occurs in `s` (`indexOf`). */
  function IndexOf(s: string, sub: string): (r: Option<nat>)
    ensures r.Some? ==> OccursAt(s, sub, r.value)
    ensures r.Some? ==> forall j :: 0 <= j < r.value ==> !OccursAt(s, sub, j)
    ensures r.None? ==> forall j :: 0 <= j ==> !OccursAt(s, sub, j)
    decreases |s|
  {
    if IsPrefix(sub, s) then Some(0)
    else if |s| == 0 then None
    else
      match IndexOf(s[1..], sub)
      case None =>
        assert forall j :: 1 <= j ==> (OccursAt(s, sub, j) <==> OccursAt(s[1..], sub, j - 1));
        None
      case Some(k) =>
        assert forall j :: 1 <= j ==> (OccursAt(s, sub, j) <==> OccursAt(s[1..], sub, j - 1));
        Some(k + 1)
  }

  /** `s.includes(sub)` */
  predicate Contains(s: string, sub: string) {
    IndexOf(s, sub).Some?
  }

  function LowerChar(c: char): char {
    if 'A' <= c <= 'Z' then (c as int + 32) as char else c
  }

  /** `toLowerCase()`, restricted to the ASCII letters. */
  function ToLower(s: string): (r: string)
    ensures |r| == |s|
    ensures forall i :: 0 <= i < |s| ==> r[i] == LowerChar(s[i])
  {
    seq(|s|, i requires 0 <= i < |s| => LowerChar(s[i]))
  }

  predicate IsSpace(c: char) {
    c == ' ' || c == '\t' || c == '\n' || c == '\r' || c == 11 as char || c == 12 as char
  }

  function TrimStart(s: string): (r: string)
    ensures |r| <= |s| && r == s[|s| - |r|..]
    ensures |r| > 0 ==> !IsSpace(r[0])
    ensures forall i :: 0 <= i < |s| - |r| ==> IsSpace(s[i])
  {
    if |s| > 0 && IsSpace(s[0]) then TrimStart(s[1..]) else s
  }

  function TrimEnd(s: string): (r: string)
    ensures |r| <= |s| && r == s[..|r|]
    ensures |r| > 0 ==> !IsSpace(r[|r| - 1])
    ensures forall i :: |r| <= i < |s| ==> IsSpace(s[i])
  {
    if |s| > 0 && IsSpace(s[|s| - 1]) then TrimEnd(s[..|s| - 1]) else s
  }

  /** `trim()`: removes leading and trailing whitespace. */
  function Trim(s: string): (r: string)
    ensures |r| > 0 ==> !IsSpace(r[0]) && !IsSpace(r[|r| - 1])
  {
    TrimEnd(TrimStart(s))
  }

  /** The normalisation `trim().toLowerCase()`. */
  function Normalize(s: string): string {
    ToLower(Trim(s))
  }

  lemma LowerCharKeepsSpace(c: char)
    ensures IsSpace(LowerChar(c)) <==> IsSpace(c)
  {
  }

  lemma {:induction false} TrimStartOfLower(s: string)
    ensures TrimStart(ToLower(s)) == ToLower(TrimStart(s))
    decreases |s|
  {
    if |s| > 0 {
      LowerCharKeepsSpace(s[0]);
      assert ToLower(s)[1..] == ToLower(s[1..]);
      if IsSpace(s[0]) {
        TrimStartOfLower(s[1..]);
      }
    }
  }

  lemma {:induction false} TrimEndOfLower(s: string)
    ensures TrimEnd(ToLower(s)) == ToLower(TrimEnd(s))
    decreases |s|
  {
    if |s| > 0 {
      LowerCharKeepsSpace(s[|s| - 1]);
      assert ToLower(s)[..|s| - 1] == ToLower(s[..|s| - 1]);
      if IsSpace(s[|s| - 1]) {
        TrimEndOfLower(s[..|s| - 1]);
      }
    }
  }

  /** Lower-casing and trimming commute, since lower-casing neither creates nor removes whitespace. */
  lemma TrimOfLower(s: string)
    ensures Trim(ToLower(s)) == ToLower(Trim(s))
  {
    TrimStartOfLower(s);
    TrimEndOfLower(TrimStart(s));
  }

  lemma {:induction false} TrimStartIdempotent(s: string)
    ensures TrimStart(TrimStart(s)) == TrimStart(s)
  {
  }

  lemma TrimIdempotent(s: string)
    ensures Trim(Trim(s)) == Trim(s)
  {
    var t := Trim(s);
    if |t| > 0 {
      assert TrimStart(t) == t;
      assert TrimEnd(t) == t;
    }
  }

  lemma ToLowerIdempotent(s: string)
    ensures ToLower(ToLower(s)) == ToLower(s)
  {
  }

  /** Normalising twice is the same as normalising once. */
  lemma NormalizeIdempotent(s: string)
    ensures Normalize(Normalize(s)) == Normalize(s)
  {
    TrimOfLower(Trim(s));
    TrimIdempotent(s);
    ToLowerIdempotent(Trim(s));
  }

  /** Trimming before normalising changes nothing. */
  lemma NormalizeOfTrim(s: string)
    ensures Normalize(Trim(s)) == Normalize(s)
  {
    TrimIdempotent(s);
  }

  /** A name normalises to the empty string exactly when it trims to the empty string. */
  lemma NormalizeEmptyIffBlank(s: string)
    ensures Normalize(s) == [] <==> Trim(s) == []
  {
  }

  /** No two positions of `s` hold the same value. */
  predicate NoDuplicates<T(==)>(s: seq<T>) {
    forall i, j :: 0 <= i < j < |s| ==> s[i] != s[j]
  }

  /** `[...new Set(s)]`: the first occurrence of every value, in order. */
  function Dedup<T(==)>(s: seq<T>): (r: seq<T>)
  {
    if |s| == 0 then []
    else
      var d := Dedup(s[..|s| - 1]);
      if s[|s| - 1] in d then d else d + [s[|s| - 1]]
  }

  lemma {:induction false} DedupMembers<T>(s: seq<T>)
    ensures forall x :: x in Dedup(s) <==> x in s
    ensures NoDuplicates(Dedup(s))
  {
    if |s| > 0 {
      DedupMembers(s[..|s| - 1]);
      assert s == s[..|s| - 1] + [s[|s| - 1]];
    }
  }

  /** A list without duplicates is its own deduplication. */
  lemma {:induction false} DedupOfDistinct<T>(s: seq<T>)
    requires NoDuplicates(s)
    ensures Dedup(s) == s
  {
    if |s| > 0 {
      DedupOfDistinct(s[..|s| - 1]);
      DedupMembers(s[..|s| - 1]);
    }
  }

  /** `s.filter(y => y !== x)` */
  function RemoveAll<T(==,!new)>(s: seq<T>, x: T): (r: seq<T>)
    ensures forall y :: y in r <==> y in s && y != x
    ensures |r| <= |s|
    ensures x !in s ==> r == s
  {
    if |s| == 0 then []
    else if s[0] == x then RemoveAll(s[1..], x)
    else [s[0]] + RemoveAll(s[1..], x)
  }

  /** Filtering a concatenation filters each part. */
  lemma {:induction false} RemoveAllAppend<T(!new)>(s: seq<T>, t: seq<T>, x: T)
    ensures RemoveAll(s + t, x) == RemoveAll(s, x) + RemoveAll(t, x)
  {
    if |s| > 0 {
      assert (s + t)[1..] == s[1..] + t;
      RemoveAllAppend(s[1..], t, x);
    } else {
      assert s + t == t;
    }
  }

  predicate IsDigit(c: char) {
    '0' <= c <= '9'
  }

  /** `String(n)` for a non-negative integer: its decimal digits, most significant first. */
  function DecimalString(n: nat): (r: string)
    ensures |r| >= 1 && forall i :: 0 <= i < |r| ==> IsDigit(r[i])
    ensures n >= 10 ==> |r| >= 2
  {
    var d := [(48 + n % 10) as char];
    if n < 10 then d else DecimalString(n / 10) + d
  }

  /** The number a string of decimal digits denotes, most significant first. */
  function DigitsValue(s: string): int {
    if |s| == 0 then 0 else DigitsValue(s[..|s| - 1]) * 10 + (s[|s| - 1] as int - 48)
  }

  /** The digits of `String(n)` read back as `n`. */
  lemma {:induction false} DecimalStringReadsBack(n: nat)
    ensures DigitsValue(DecimalString(n)) == n
    decreases n
  {
    if n >= 10 {
      DecimalStringReadsBack(n / 10);
      var s := DecimalString(n / 10) + [(48 + n % 10) as char];
      assert s[..|s| - 1] == DecimalString(n / 10);
    }
  }
}

=== FILE: trading_context.dfy ===
/**
 * The trading context: the order list with its add, update, remove and
 * periodic clean-up, and the initial values of the stored settings.
 */
module TradingContext {
  import opened Wrappers
  import opened Types

  datatype Side = Buy | Sell

  /** 'pending' | 'success' | 'error' | 'removed' */
  datatype OrderState = Pending | Succeeded | Errored | Removed

  datatype Order = Order(
    id: string,
    tokenSymbol: string,
    tokenName: string,
    side: Side,
    amount: real,
    status: OrderState,
    timestamp: int,
    signature: Option<string>,
    error: Option<string>,
    mintAddress: string)

  /** `Omit<OrderStatus, 'id' | 'timestamp'>` */
  datatype NewOrder = NewOrder(
    tokenSymbol: string,
    tokenName: string,
    side: Side,
    amount: real,
    status: OrderState,
    signature: Option<string>,
    error: Option<string>,
    mintAddress: string)

  /** `Partial<OrderStatus>`: an absent field is left as it is. */
  datatype OrderUpdates = OrderUpdates(
    id: Option<string>,
    tokenSymbol: Option<string>,
    tokenName: Option<string>,
    side: Option<Side>,
    amount: Option<real>,
    status: Option<OrderState>,
    timestamp: Option<int>,
    signature: Option<string>,
    error: Option<string>,
    mintAddress: Option<string>)

  /** An update that only sets the status, and optionally the signature or the error. */
  function StatusUpdate(status: OrderState, signature: Option<string>, error: Option<string>): OrderUpdates {
    OrderUpdates(None, None, None, None, None, Some(status), None, signature, error, None)
  }

  /** The order `addOrder` builds: the input plus the generated id and the clock reading. */
  function Placed(o: NewOrder, id: string, now: int): (r: Order)
    ensures r.id == id && r.timestamp == now
    ensures NewOrder(r.tokenSymbol, r.tokenName, r.side, r.amount, r.status, r.signature, r.error, r.mintAddress) == o
  {
    Order(id, o.tokenSymbol, o.tokenName, o.side, o.amount, o.status, now, o.signature, o.error, o.mintAddress)
  }

  function Pick<T>(update: Option<T>, current: T): T {
    if update.Some? then update.value else current
  }

  /** `{ ...order, ...updates }` */
  function Merge(o: Order, u: OrderUpdates): (r: Order)
    ensures u.status.Some? ==> r.status == u.status.value
    ensures u.status.Some? && u == StatusUpdate(u.status.value, None, None) ==> r == o.(status := u.status.value)
  {
    Order(Pick(u.id, o.id), Pick(u.tokenSymbol, o.tokenSymbol), Pick(u.tokenName, o.tokenName),
          Pick(u.side, o.side), Pick(u.amount, o.amount), Pick(u.status, o.status),
          Pick(u.timestamp, o.timestamp),
          if u.signature.Some? then u.signature else o.signature,
          if u.error.Some? then u.error else o.error,
          Pick(u.mintAddress, o.mintAddress))
  }

  /** `orders.filter(order => order.id !== id)` */
  function WithoutId(orders: seq<Order>, id: string): (r: seq<Order>)
    ensures forall o :: o in r <==> o in orders && o.id != id
    ensures |r| <= |orders|
    ensures (forall i :: 0 <= i < |orders| ==> orders[i].id != id) ==> r == orders
  {
    if |orders| == 0 then []
    else if orders[0].id == id then WithoutId(orders[1..], id)
    else [orders[0]] + WithoutId(orders[1..], id)
  }

  /** `orders.map(order => order.id === id ? { ...order, ...updates } : order)` */
  function MergeInto(orders: seq<Order>, id: string, u: OrderUpdates): (r: seq<Order>)
    ensures |r| == |orders|
    ensures forall i :: 0 <= i < |orders| && orders[i].id != id ==> r[i] == orders[i]
    ensures forall i :: 0 <= i < |orders| && orders[i].id == id ==> r[i] == Merge(orders[i], u)
  {
    if |orders| == 0 then []
    else [if orders[0].id == id then Merge(orders[0], u) else orders[0]] + MergeInto(orders[1..], id, u)
  }

  /** `orders.filter(order => order.status !== 'removed')` */
  function WithoutRemoved(orders: seq<Order>): (r: seq<Order>)
    ensures forall o :: o in r <==> o in orders && o.status != Removed
    ensures |r| <= |orders|
  {
    if |orders| == 0 then []
    else if orders[0].status == Removed then WithoutRemoved(orders[1..])
    else [orders[0]] + WithoutRemoved(orders[1..])
  }

  /** The list `updateOrder(id, updates)` leaves; `None` stands for falsy `updates`. */
  function UpdatedOrders(orders: seq<Order>, id: string, updates: Option<OrderUpdates>): (r: seq<Order>)
    ensures updates.None? ==> r == orders
    ensures |r| <= |orders|
    ensures updates.Some? && updates.value.status == Some(Removed) ==> forall o :: o in r <==> o in orders && o.id != id
    ensures updates.Some? && updates.value.status != Some(Removed) ==> |r| == |orders|
  {
    match updates
    case None => orders
    case Some(u) => if u.status == Some(Removed) then WithoutId(orders, id) else MergeInto(orders, id, u)
  }

  class OrderStore {
    var orders: seq<Order>

    constructor()
      ensures orders == []
    {
      orders := [];
    }

    /** `addOrder(order)`; `id` is the generated random id and `now` the clock reading. */
    method AddOrder(o: NewOrder, id: string, now: int) returns (r: Order)
      modifies this
      ensures r == Placed(o, id, now)
      ensures orders == [r] + old(orders)
    {
      r := Placed(o, id, now);
      orders := [r] + orders;
    }

    /** `updateOrder(id, updates)` */
    method UpdateOrder(id: string, updates: Option<OrderUpdates>)
      modifies this
      ensures orders == UpdatedOrders(old(orders), id, updates)
    {
      if updates.None? {
        return;
      }
      if updates.value.status == Some(Removed) {
        orders := WithoutId(orders, id);
      } else {
        orders := MergeInto(orders, id, updates.value);
      }
    }

    /** `removeOrder(id)` */
    method RemoveOrder(id: string)
      modifies this
      ensures orders == WithoutId(old(orders), id)
    {
      orders := WithoutId(orders, id);
    }

    /** The periodic clean-up of orders marked 'removed'. */
    method CleanupRemoved()
      modifies this
      ensures orders == WithoutRemoved(old(orders))
    {
      orders := WithoutRemoved(orders);
    }
  }

  /** Marking an order removed deletes every order with that id and keeps all the others. */
  lemma RemovedStatusDeletes(orders: seq<Order>, id: string, u: OrderUpdates)
    requires u.status == Some(Removed)
    ensures forall o :: o in UpdatedOrders(orders, id, Some(u)) <==> o in orders && o.id != id
  {
  }

  /** No transition checking: any status other than 'removed' overwrites any other, e.g. success back to pending. */
  lemma AnyStatusOverwrites(orders: seq<Order>, id: string, i: int, s: OrderState)
    requires 0 <= i < |orders| && orders[i].id == id && s != Removed
    ensures |UpdatedOrders(orders, id, Some(StatusUpdate(s, None, None)))| == |orders|
    ensures UpdatedOrders(orders, id, Some(StatusUpdate(s, None, None)))[i] == orders[i].(status := s)
  {
  }

  /** After the clean-up no order is marked removed, and every other order is still there. */
  lemma CleanupKeepsLiveOrders(orders: seq<Order>)
    ensures forall o :: o in WithoutRemoved(orders) ==> o.status != Removed
    ensures forall o :: o in orders && o.status != Removed ==> o in WithoutRemoved(orders)
  {
  }

  // ---------------------------------------------------------------------
  // Stored settings
  // ---------------------------------------------------------------------

  /** The result of `Number(text)`: a number or NaN. */
  datatype JsNumber = NaN | Num(value: real)

  /** `Number(localStorage.getItem(key)) || default`; an absent item converts to 0. */
  function NumberOr(stored: Option<JsNumber>, default: real): (r: real)
    ensures stored.Some? && stored.value.Num? && stored.value.value != 0.0 ==> r == stored.value.value
    ensures stored.None? || stored.value == NaN || stored.value == Num(0.0) ==> r == default
  {
    match stored
    case None => default
    case Some(NaN) => default
    case Some(Num(x)) => if x == 0.0 then default else x
  }

  /** `localStorage.getItem(key) === 'true'` */
  predicate StoredFlag(stored: Option<string>) {
    stored == Some("true")
  }

  /** The stored items read at start-up; each is absent when the key is not set. */
  datatype StoredSettings = StoredSettings(
    privateKey: Option<string>,
    autoBuyEnabled: Option<string>,
    followerCheckEnabled: Option<string>,
    creationTimeEnabled: Option<string>,
    minFollowers: Option<JsNumber>,
    maxCreationTime: Option<JsNumber>,
    buyAmount: Option<JsNumber>,
    slippage: Option<JsNumber>)

  datatype TradingSettings = TradingSettings(
    privateKey: string,
    autoBuyEnabled: bool,
    followerCheckEnabled: bool,
    creationTimeEnabled: bool,
    minFollowers: real,
    maxCreationTime: real,
    buyAmount: real,
    slippage: real)

  const DEFAULT_MIN_FOLLOWERS := 1000.0
  const DEFAULT_MAX_CREATION_TIME := 5.0
  const DEFAULT_BUY_AMOUNT := 0.1
  const DEFAULT_SLIPPAGE := 1.0

  const DEFAULT_TRADING_SETTINGS :=
    TradingSettings("", false, false, false, DEFAULT_MIN_FOLLOWERS, DEFAULT_MAX_CREATION_TIME,
                    DEFAULT_BUY_AMOUNT, DEFAULT_SLIPPAGE)

  /**
   * The initial settings; `None` stands for no browser window or a
   * `localStorage` that throws, where every setting takes its default.
   */
  function LoadSettings(storage: Option<StoredSettings>): (r: TradingSettings)
    ensures storage.None? ==> r == DEFAULT_TRADING_SETTINGS
    ensures r.minFollowers != 0.0 && r.maxCreationTime != 0.0 && r.buyAmount != 0.0 && r.slippage != 0.0
    ensures storage.Some? ==>
      && (r.autoBuyEnabled <==> storage.value.autoBuyEnabled == Some("true"))
      && (r.followerCheckEnabled <==> storage.value.followerCheckEnabled == Some("true"))
      && (r.creationTimeEnabled <==> storage.value.creationTimeEnabled == Some("true"))
      && r.privateKey == (if storage.value.privateKey.Some? then storage.value.privateKey.value else "")
      && r.minFollowers == NumberOr(storage.value.minFollowers, DEFAULT_MIN_FOLLOWERS)
      && r.maxCreationTime == NumberOr(storage.value.maxCreationTime, DEFAULT_MAX_CREATION_TIME)
      && r.buyAmount == NumberOr(storage.value.buyAmount, DEFAULT_BUY_AMOUNT)
      && r.slippage == NumberOr(storage.value.slippage, DEFAULT_SLIPPAGE)
  {
    match storage
    case None => DEFAULT_TRADING_SETTINGS
    case Some(s) =>
      TradingSettings(
        OrElse(s.privateKey, ""),
        StoredFlag(s.autoBuyEnabled),
        StoredFlag(s.followerCheckEnabled),
        StoredFlag(s.creationTimeEnabled),
        NumberOr(s.minFollowers, DEFAULT_MIN_FOLLOWERS),
        NumberOr(s.maxCreationTime, DEFAULT_MAX_CREATION_TIME),
        NumberOr(s.buyAmount, DEFAULT_BUY_AMOUNT),
        NumberOr(s.slippage, DEFAULT_SLIPPAGE))
  }

  /** The settings object the feed hands to both trading clients: the five criteria fields, without the buy amount or slippage. */
  function ClientSettingsOf(t: TradingSettings): ClientSettings {
    ClientSettings(t.autoBuyEnabled, t.followerCheckEnabled, t.minFollowers, t.creationTimeEnabled, t.maxCreationTime, None, None)
  }
}

=== FILE: trading_settings.dfy ===
/**
 * The settings panel's handlers (`TradingSettings`): the auto-buy switch
 * with its confirmation dialog, the wallet key entry and import button,
 * and the add buttons of the blacklist and the buylist.
 *
 * Whether a string decodes as base58 is a parameter of the handlers that
 * decode: the decoder is a library outside this model.
 */
module TradingSettings {
  import opened Wrappers
  import opened Text
  import BlacklistContext
  import BuylistContext

  const INVALID_KEY_FORMAT := "Invalid private key format"
  const ENTER_A_KEY := "Please enter a private key"

  class SettingsPanel {
    var privateKey: string
    var publicKey: Option<string>
    var solBalance: Option<real>
    var isImporting: bool
    var error: Option<string>
    var autoBuyEnabled: bool
    var showConfirmation: bool
    var pendingAutoBuy: bool
    var newBlacklistedUser: string
    var newBuylistUser: string

    /**
     * The dialog is open exactly while a switch-on is pending, and a
     * switch-on is pending only while auto-buy is off.
     */
    predicate Valid()
      reads this
    {
      showConfirmation == pendingAutoBuy && (pendingAutoBuy ==> !autoBuyEnabled)
    }

    /** The switch shows as on while auto-buy is enabled or waiting for confirmation. */
    predicate Checked()
      reads this
    {
      autoBuyEnabled || pendingAutoBuy
    }

    constructor(privateKey: string, autoBuyEnabled: bool)
      ensures Valid()
      ensures this.privateKey == privateKey && this.autoBuyEnabled == autoBuyEnabled
      ensures publicKey.None? && solBalance.None? && !isImporting && error.None?
      ensures !showConfirmation && !pendingAutoBuy && newBlacklistedUser == [] && newBuylistUser == []
    {
      this.privateKey := privateKey;
      this.autoBuyEnabled := autoBuyEnabled;
      publicKey := None;
      solBalance := None;
      isImporting := false;
      error := None;
      showConfirmation := false;
      pendingAutoBuy := false;
      newBlacklistedUser := [];
      newBuylistUser := [];
    }

    /**
     * `handleAutoBuyToggle`: switching on only opens the confirmation;
     * switching off takes effect at once. Without a pending confirmation
     * the switch's displayed state flips, and it never enables auto-buy.
     */
    method HandleAutoBuyToggle()
      requires Valid()
      modifies this
      ensures Valid()
      ensures !old(autoBuyEnabled) ==> showConfirmation && pendingAutoBuy && !autoBuyEnabled
      ensures old(autoBuyEnabled) ==> !autoBuyEnabled && showConfirmation == old(showConfirmation)
                                      && pendingAutoBuy == old(pendingAutoBuy)
      ensures !old(pendingAutoBuy) ==> Checked() == !old(Checked())
      ensures autoBuyEnabled ==> old(autoBuyEnabled)
      ensures privateKey == old(privateKey) && publicKey == old(publicKey) && solBalance == old(solBalance)
      ensures isImporting == old(isImporting) && error == old(error)
      ensures newBlacklistedUser == old(newBlacklistedUser) && newBuylistUser == old(newBuylistUser)
    {
      if !autoBuyEnabled {
        showConfirmation := true;
        pendingAutoBuy := true;
      } else {
        autoBuyEnabled := false;
      }
    }

    /** `confirmAutoBuy`: enables auto-buy and closes the dialog. */
    method ConfirmAutoBuy()
      modifies this
      ensures Valid() && Checked()
      ensures autoBuyEnabled && !showConfirmation && !pendingAutoBuy
      ensures privateKey == old(privateKey) && publicKey == old(publicKey) && solBalance == old(solBalance)
      ensures isImporting == old(isImporting) && error == old(error)
      ensures newBlacklistedUser == old(newBlacklistedUser) && newBuylistUser == old(newBuylistUser)
    {
      autoBuyEnabled := true;
      showConfirmation := false;
      pendingAutoBuy := false;
    }

    /** `cancelAutoBuy`: closes the dialog and leaves auto-buy as it was. */
    method CancelAutoBuy()
      requires Valid()
      modifies this
      ensures Valid()
      ensures !showConfirmation && !pendingAutoBuy && autoBuyEnabled == old(autoBuyEnabled)
      ensures Checked() == old(autoBuyEnabled)
      ensures privateKey == old(privateKey) && publicKey == old(publicKey) && solBalance == old(solBalance)
      ensures isImporting == old(isImporting) && error == old(error)
      ensures newBlacklistedUser == old(newBlacklistedUser) && newBuylistUser == old(newBuylistUser)
    {
      showConfirmation := false;
      pendingAutoBuy := false;
    }

    /**
     * `handlePrivateKeyChange(value)`: a value that decodes as base58 is
     * stored and clears the error; any other value only sets the error.
     */
    method HandlePrivateKeyChange(value: string, decodes: bool)
      requires Valid()
      modifies this
      ensures Valid()
      ensures decodes ==> privateKey == value && error.None?
      ensures !decodes ==> privateKey == old(privateKey) && error == Some(INVALID_KEY_FORMAT)
      ensures publicKey == old(publicKey) && solBalance == old(solBalance) && isImporting == old(isImporting)
      ensures autoBuyEnabled == old(autoBuyEnabled) && showConfirmation == old(showConfirmation)
      ensures pendingAutoBuy == old(pendingAutoBuy)
      ensures newBlacklistedUser == old(newBlacklistedUser) && newBuylistUser == old(newBuylistUser)
    {
      if decodes {
        privateKey := value;
        error := None;
      } else {
        error := Some(INVALID_KEY_FORMAT);
      }
    }

    /**
     * `handleImportClick`, where `decodes` says whether the current key
     * decodes: the first click clears the wallet and opens the import; the
     * second revalidates the entered key and closes the import, or asks
     * for a key when none was entered.
     */
    method HandleImportClick(decodes: bool)
      requires Valid()
      modifies this
      ensures Valid()
      ensures !old(isImporting) ==> && isImporting && privateKey == [] && publicKey == Some([])
                                    && solBalance.None? && error == old(error)
      ensures old(isImporting) && old(privateKey) != [] ==>
        && !isImporting && privateKey == old(privateKey)
        && error == (if decodes then None else Some(INVALID_KEY_FORMAT))
        && publicKey == old(publicKey) && solBalance == old(solBalance)
      ensures old(isImporting) && old(privateKey) == [] ==>
        && isImporting && privateKey == [] && error == Some(ENTER_A_KEY)
        && publicKey == old(publicKey) && solBalance == old(solBalance)
      ensures autoBuyEnabled == old(autoBuyEnabled) && showConfirmation == old(showConfirmation)
      ensures pendingAutoBuy == old(pendingAutoBuy)
      ensures newBlacklistedUser == old(newBlacklistedUser) && newBuylistUser == old(newBuylistUser)
    {
      if !isImporting {
        privateKey := [];
        publicKey := Some([]);
        solBalance := None;
        isImporting := true;
      } else if privateKey != [] {
        HandlePrivateKeyChange(privateKey, decodes);
        isImporting := false;
      } else {
        error := Some(ENTER_A_KEY);
      }
    }

    /** The blacklist's Add button: adds the trimmed input, then empties it; blank input does nothing. */
    method AddBlacklistedUser(list: BlacklistContext.Blacklist)
      requires Valid() && list.Valid()
      modifies this, list
      ensures Valid() && list.Valid()
      ensures Trim(old(newBlacklistedUser)) == [] ==>
        list.users == old(list.users) && newBlacklistedUser == old(newBlacklistedUser)
      ensures Trim(old(newBlacklistedUser)) != [] ==>
        && list.users == BlacklistContext.AddedUsers(old(list.users), Trim(old(newBlacklistedUser)))
        && newBlacklistedUser == []
      ensures privateKey == old(privateKey) && error == old(error) && autoBuyEnabled == old(autoBuyEnabled)
      ensures showConfirmation == old(showConfirmation) && pendingAutoBuy == old(pendingAutoBuy)
      ensures newBuylistUser == old(newBuylistUser)
    {
      var input := Trim(newBlacklistedUser);
      if input != [] {
        newBlacklistedUser := [];
        ghost var kept := (privateKey, error, autoBuyEnabled);
        list.AddToBlacklist(input);
        assert kept == (privateKey, error, autoBuyEnabled);
      }
    }

    /**
     * The buylist's Add button: adds the trimmed input, then empties it;
     * blank input does nothing, so no stored entry starts or ends with
     * whitespace because of this button.
     */
    method AddBuylistedToken(list: BuylistContext.Buylist)
      requires Valid()
      modifies this, list
      ensures Valid()
      ensures Trim(old(newBuylistUser)) == [] ==> list.tokens == old(list.tokens) && newBuylistUser == old(newBuylistUser)
      ensures Trim(old(newBuylistUser)) != [] ==>
        && list.tokens == BuylistContext.AddedTokens(old(list.tokens), Trim(old(newBuylistUser)))
        && Trim(old(newBuylistUser)) in list.tokens
        && newBuylistUser == []
      ensures privateKey == old(privateKey) && error == old(error) && autoBuyEnabled == old(autoBuyEnabled)
      ensures showConfirmation == old(showConfirmation) && pendingAutoBuy == old(pendingAutoBuy)
      ensures newBlacklistedUser == old(newBlacklistedUser)
    {
      var input := Trim(newBuylistUser);
      if input != [] {
        newBuylistUser := [];
        ghost var kept := (privateKey, error, autoBuyEnabled);
        list.AddToBuylist(input);
        assert kept == (privateKey, error, autoBuyEnabled);
        DedupMembers(old(list.tokens) + [input]);
      }
    }
  }
}

=== FILE: transaction.dfy ===
/**
 * `executeTransaction`, identical in the pump.fun and Dexscreener clients:
 * fetch a blockhash, sign, send, confirm, then double-check the signature
 * status. Each RPC answer is an input.
 */
module Transaction {
  import opened Wrappers
  import opened Types
  import Text

  /** How `transaction.sign([wallet])` ends: it returns, or throws while the wallet's signature may already be present. */
  datatype SignOutcome = Signed | SignThrew(alreadySigned: bool)

  /** The answers of the wallet and the RPC node during one execution. */
  datatype ExecOracle = ExecOracle(
    blockhash: Step<string>,
    signing: SignOutcome,
    send: Step<string>,
    confirmationErr: Step<Option<string>>,
    statusErr: Step<Option<string>>)

  const SIGNING_FAILED := "Transaction signing failed"
  const EXECUTION_FAILED := "Transaction execution failed"

  /** The wallet's signature is in place after the signing step. */
  predicate SignatureInPlace(o: ExecOracle) {
    o.signing.Signed? || o.signing.alreadySigned
  }

  /** The transaction reached the network: a blockhash was obtained, it was signed and `sendRawTransaction` returned. */
  predicate WasSent(o: ExecOracle) {
    o.blockhash.Done? && SignatureInPlace(o) && o.send.Done?
  }

  /** The confirmation and the status check both ran and neither reports an error. */
  predicate ConfirmedClean(o: ExecOracle) {
    o.confirmationErr == Done(None) && o.statusErr == Done(None)
  }

  /** A chain-level error was reported for a sent transaction, by the confirmation or else by the status check. */
  predicate ChainError(o: ExecOracle) {
    match o.confirmationErr
    case Threw(_) => false
    case Done(Some(_)) => true
    case Done(None) => o.statusErr.Done? && o.statusErr.value.Some?
  }

  function ChainFailure(signature: string, err: string): TxResult {
    TxResult(false, Some(signature), Some("Transaction failed: " + err))
  }

  /** The result `executeTransaction` returns for the given answers. */
  function Classify(o: ExecOracle): (r: TxResult)
    ensures r.success <==> WasSent(o) && ConfirmedClean(o)
    ensures r.signature.Some? <==> WasSent(o) && (ConfirmedClean(o) || ChainError(o))
    ensures r.signature.Some? ==> r.signature.value == o.send.value
    ensures r.success <==> r.error.None?
    ensures o.blockhash.Done? && !SignatureInPlace(o) ==> r == Failed(SIGNING_FAILED)
  {
    match o.blockhash
    case Threw(m) => Caught(m, EXECUTION_FAILED)
    case Done(_) =>
      if !SignatureInPlace(o) then Failed(SIGNING_FAILED)
      else
        match o.send
        case Threw(m) => Caught(m, EXECUTION_FAILED)
        case Done(signature) =>
          match o.confirmationErr
          case Threw(m) => Caught(m, EXECUTION_FAILED)
          case Done(Some(err)) => ChainFailure(signature, err)
          case Done(None) =>
            match o.statusErr
            case Threw(m) => Caught(m, EXECUTION_FAILED)
            case Done(Some(err)) => ChainFailure(signature, err)
            case Done(None) => TxResult(true, Some(signature), None)
  }

  /** The parts of a `VersionedTransaction` that execution changes. */
  class VersionedTransaction {
    var recentBlockhash: string
    var signedByWallet: bool

    constructor(blockhash: string, signed: bool)
      ensures recentBlockhash == blockhash && signedByWallet == signed
    {
      recentBlockhash := blockhash;
      signedByWallet := signed;
    }
  }

  /** Runs the steps in order, updating the transaction's blockhash and signature as the source does. */
  method ExecuteTransaction(tx: VersionedTransaction, o: ExecOracle) returns (r: TxResult)
    modifies tx
    ensures r == Classify(o)
    ensures tx.recentBlockhash == (if o.blockhash.Done? then o.blockhash.value else old(tx.recentBlockhash))
    ensures tx.signedByWallet == (old(tx.signedByWallet) || (o.blockhash.Done? && o.signing.Signed?))
  {
    if o.blockhash.Threw? {
      return Caught(o.blockhash.message, EXECUTION_FAILED);
    }
    tx.recentBlockhash := o.blockhash.value;
    if o.signing.Signed? {
      tx.signedByWallet := true;
    } else if !o.signing.alreadySigned {
      return Failed(SIGNING_FAILED);
    }
    if o.send.Threw? {
      return Caught(o.send.message, EXECUTION_FAILED);
    }
    var signature := o.send.value;
    if o.confirmationErr.Threw? {
      return Caught(o.confirmationErr.message, EXECUTION_FAILED);
    }
    if o.confirmationErr.value.Some? {
      return ChainFailure(signature, o.confirmationErr.value.value);
    }
    if o.statusErr.Threw? {
      return Caught(o.statusErr.message, EXECUTION_FAILED);
    }
    if o.statusErr.value.Some? {
      return ChainFailure(signature, o.statusErr.value.value);
    }
    r := TxResult(true, Some(signature), None);
  }

  /** A chain error fails the execution but keeps the signature; the message names the error. */
  lemma ChainErrorKeepsSignature(o: ExecOracle)
    requires WasSent(o) && ChainError(o)
    ensures !Classify(o).success
    ensures Classify(o).signature == Some(o.send.value)
    ensures Text.IsPrefix("Transaction failed: ", Classify(o).error.value)
  {
  }
}

=== FILE: twitter_feed.dfy ===
/**
 * The live tweet feed: the user-list and criteria predicate that decides
 * an auto-buy, the auto-buy handler with its de-duplication sets, the
 * merge of a batch of incoming tweets into the shown list, mint-address
 * extraction from a tweet's first link, and the display filter.
 */
module TwitterFeed {
  import opened Wrappers
  import opened Types
  import opened Text
  import opened Sorting
  import TradingContext
  import BlacklistContext
  import PumpFunClient
  import DexscreenerClient

  type TradingSettings = TradingContext.TradingSettings

  // ---------------------------------------------------------------------
  // The auto-buy predicate of checkAndAutoBuy
  // ---------------------------------------------------------------------

  /** `(Date.now() / 1000 - tokenCreationTime) / 60` */
  function TokenAgeMinutes(nowMs: int, createdSeconds: int): real {
    (nowMs as real / 1000.0 - createdSeconds as real) / 60.0
  }

  /** `tweet.tokenInfo?.createdTimestamp || 0` */
  function CreationTimeOf(t: Tweet): int {
    if t.tokenInfo.Some? then t.tokenInfo.value.createdTimestamp else 0
  }

  /** A disabled check's flag is false. */
  predicate MeetsFollowerRequirement(s: TradingSettings, followers: int) {
    s.followerCheckEnabled && followers as real >= s.minFollowers
  }

  predicate MeetsCreationTimeRequirement(s: TradingSettings, nowMs: int, createdSeconds: int) {
    s.creationTimeEnabled && TokenAgeMinutes(nowMs, createdSeconds) <= s.maxCreationTime
  }

  /** `shouldBuyBasedOnUser` */
  predicate ShouldBuyBasedOnUser(buylisted: bool, blacklisted: bool, s: TradingSettings,
                                 followers: int, createdSeconds: int, nowMs: int)
    ensures ShouldBuyBasedOnUser(buylisted, blacklisted, s, followers, createdSeconds, nowMs) ==>
              !blacklisted && (buylisted || s.followerCheckEnabled || s.creationTimeEnabled)
  {
    var f := s.followerCheckEnabled;
    var c := s.creationTimeEnabled;
    var meetsF := MeetsFollowerRequirement(s, followers);
    var meetsC := MeetsCreationTimeRequirement(s, nowMs, createdSeconds);
    (buylisted && !blacklisted)
    || (!buylisted && !blacklisted &&
        ((f && c && meetsF && meetsC) || (f && !c && meetsF) || (!f && c && meetsC) || (!f && !c && false)))
  }

  /** The truth table of the user predicate, by list membership and enabled checks. */
  lemma ShouldBuyBasedOnUserTable(buylisted: bool, blacklisted: bool, s: TradingSettings,
                                  followers: int, created: int, nowMs: int)
    ensures blacklisted ==> !ShouldBuyBasedOnUser(buylisted, blacklisted, s, followers, created, nowMs)
    ensures buylisted && !blacklisted ==> ShouldBuyBasedOnUser(buylisted, blacklisted, s, followers, created, nowMs)
    ensures !buylisted && !blacklisted && s.followerCheckEnabled && s.creationTimeEnabled ==>
              (ShouldBuyBasedOnUser(buylisted, blacklisted, s, followers, created, nowMs)
               <==> followers as real >= s.minFollowers && TokenAgeMinutes(nowMs, created) <= s.maxCreationTime)
    ensures !buylisted && !blacklisted && s.followerCheckEnabled && !s.creationTimeEnabled ==>
              (ShouldBuyBasedOnUser(buylisted, blacklisted, s, followers, created, nowMs)
               <==> followers as real >= s.minFollowers)
    ensures !buylisted && !blacklisted && !s.followerCheckEnabled && s.creationTimeEnabled ==>
              (ShouldBuyBasedOnUser(buylisted, blacklisted, s, followers, created, nowMs)
               <==> TokenAgeMinutes(nowMs, created) <= s.maxCreationTime)
    ensures !buylisted && !s.followerCheckEnabled && !s.creationTimeEnabled ==>
              !ShouldBuyBasedOnUser(buylisted, blacklisted, s, followers, created, nowMs)
  {
  }

  /** The feed's age in minutes and the pump.fun client's age in seconds are the same test. */
  lemma FeedAgeMatchesClientAge(nowMs: int, created: int, maxMinutes: real)
    ensures TokenAgeMinutes(nowMs, created) <= maxMinutes <==> PumpFunClient.WithinAge(nowMs, created, maxMinutes)
  {
  }

  /** What `checkAndAutoBuy` reads besides the tweet. */
  datatype AutoBuyView = AutoBuyView(
    settings: TradingSettings,
    autoBuyEnabledTimestamp: Option<int>,
    pumpClientReady: bool,
    dexClientReady: bool,
    txSignatures: map<string, string>,
    buyLoading: map<string, bool>,
    purchasedMints: set<string>,
    storage: map<string, string>,
    buylist: seq<string>,
    blacklist: seq<string>)

  /** `source_type + '_' + id`, the key of a tweet's signature and loading flag. */
  function TweetKey(t: Tweet): string {
    t.sourceType.Name() + "_" + t.id
  }

  function AutoBuyKey(t: Tweet): string {
    "autobuy_" + t.id
  }

  /** A string value that JavaScript reads as true: present and non-empty. */
  predicate Present(m: map<string, string>, k: string) {
    k in m && m[k] != []
  }

  predicate TruthyString(s: Option<string>) {
    s.Some? && s.value != []
  }

  predicate ClientReady(v: AutoBuyView, t: TweetType) {
    if t == PumpFun then v.pumpClientReady else v.dexClientReady
  }

  /** The tweet was created no earlier than the moment auto-buy was switched on. */
  predicate AfterEnable(v: AutoBuyView, t: Tweet) {
    Truthy(v.autoBuyEnabledTimestamp) && !(t.createdAt < v.autoBuyEnabledTimestamp.value)
  }

  /** `checkAndAutoBuy(tweet)` hands the tweet to `handleAutoBuy` exactly when this holds. */
  predicate CheckAndAutoBuy(v: AutoBuyView, t: Tweet, nowMs: int)
    ensures CheckAndAutoBuy(v, t, nowMs) ==>
              t.mintAddress.Some? && t.mintAddress.value !in v.purchasedMints && v.settings.autoBuyEnabled
  {
    && AfterEnable(v, t)
    && v.settings.autoBuyEnabled
    && TruthyString(t.mintAddress)
    && t.tokenInfo.Some?
    && !Present(v.txSignatures, TweetKey(t))
    && !(TweetKey(t) in v.buyLoading && v.buyLoading[TweetKey(t)])
    && v.settings.privateKey != []
    && ClientReady(v, t.sourceType)
    && t.mintAddress.value !in v.purchasedMints
    && !Present(v.storage, AutoBuyKey(t))
    && ShouldBuyBasedOnUser(t.user.screenName in v.buylist,
                            BlacklistContext.Listed(v.blacklist, t.user.screenName),
                            v.settings, t.user.followersCount, CreationTimeOf(t), nowMs)
  }

  /** Tweets older than the moment auto-buy was enabled, blacklisted users and tweets already bought are never auto-bought. */
  lemma CheckAndAutoBuyGuards(v: AutoBuyView, t: Tweet, nowMs: int)
    ensures !Truthy(v.autoBuyEnabledTimestamp) ==> !CheckAndAutoBuy(v, t, nowMs)
    ensures Truthy(v.autoBuyEnabledTimestamp) && t.createdAt < v.autoBuyEnabledTimestamp.value ==> !CheckAndAutoBuy(v, t, nowMs)
    ensures BlacklistContext.Listed(v.blacklist, t.user.screenName) ==> !CheckAndAutoBuy(v, t, nowMs)
    ensures Present(v.txSignatures, TweetKey(t)) ==> !CheckAndAutoBuy(v, t, nowMs)
    ensures t.mintAddress.Some? && t.mintAddress.value in v.purchasedMints ==> !CheckAndAutoBuy(v, t, nowMs)
  {
  }

  /** A buylisted, non-blacklisted user is bought whatever the follower count and token age. */
  lemma BuylistedUserIgnoresCriteria(v: AutoBuyView, t: Tweet, nowMs: int, followers: int, created: int)
    requires t.user.screenName in v.buylist && !BlacklistContext.Listed(v.blacklist, t.user.screenName)
    ensures CheckAndAutoBuy(v, t, nowMs) <==>
              CheckAndAutoBuy(v, t.(user := t.user.(followersCount := followers)), nowMs)
  {
  }

  // ---------------------------------------------------------------------
  // handleAutoBuy
  // ---------------------------------------------------------------------

  /** How one `handleAutoBuy` call ends. */
  datatype AutoBuyStage =
    | NoMint              // no mint address: returns at once
    | MintDone            // mint address already processed
    | TweetDone           // tweet already processed
    | NoClient            // no client for the tweet's source
    | GateRefused         // the client's settings check refused
    | Bought(signature: string)
    | BuyFailed(message: string)

  const TRANSACTION_FAILED := "Transaction failed"

  /**
   * The Dexscreener gate `!dexscreenerClient.shouldBuyToken(mint)` as
   * written: the call is not awaited, so the operand is a Promise, which is
   * always truthy, and the gate never skips whatever the client decides.
   */
  function DexGateSkipsAsWritten(approves: bool): (skip: bool) {
    false
  }

  /** The gate with the client's answer awaited: it skips exactly when the client refuses. */
  function DexGateSkips(approves: bool): (skip: bool) {
    !approves
  }

  /**
   * The stage `handleAutoBuy` reaches. `autoBuyResult` is the result of
   * the purchase `pumpFunClient.autoBuy` makes on its own, which the feed
   * reads as a pump.fun check; `dexSkips` is the Dexscreener gate and
   * `buyResult` what the feed's own buy call returned.
   */
  function AutoBuyStageOf(processedMints: set<string>, processedTweets: set<string>, t: Tweet,
                          clientReady: bool, autoBuyResult: TxResult, dexSkips: bool,
                          buyResult: TxResult): (r: AutoBuyStage)
    ensures r.Bought? ==> TruthyString(t.mintAddress) && t.mintAddress.value !in processedMints
                          && t.id !in processedTweets && clientReady && SucceededWithSignature(buyResult)
    ensures r.Bought? ==> r.signature == buyResult.signature.value
    ensures r.Bought? && t.sourceType == PumpFun ==> autoBuyResult.success
    ensures r.Bought? && t.sourceType == DexScreener ==> !dexSkips
    ensures r.BuyFailed? ==> r.message != [] && !SucceededWithSignature(buyResult)
  {
    if !TruthyString(t.mintAddress) then NoMint
    else if t.mintAddress.value in processedMints then MintDone
    else if t.id in processedTweets then TweetDone
    else if !clientReady then NoClient
    else if t.sourceType == PumpFun && !autoBuyResult.success then GateRefused
    else if t.sourceType == DexScreener && dexSkips then GateRefused
    else if SucceededWithSignature(buyResult) then Bought(buyResult.signature.value)
    else BuyFailed(OrElse(buyResult.error, TRANSACTION_FAILED))
  }

  /** The pending order `handleAutoBuy` places. */
  function PendingOrder(t: Tweet, buyAmount: real): TradingContext.NewOrder
    requires t.mintAddress.Some?
  {
    TradingContext.NewOrder(
      if t.tokenInfo.Some? && t.tokenInfo.value.symbol != [] then t.tokenInfo.value.symbol else "???",
      if t.tokenInfo.Some? && t.tokenInfo.value.name != [] then t.tokenInfo.value.name else "Unknown Token",
      TradingContext.Buy, buyAmount, TradingContext.Pending, None, None, t.mintAddress.value)
  }

  /** The order list after `handleAutoBuy`, from the list before it. */
  function OrdersAfter(orders: seq<TradingContext.Order>, stage: AutoBuyStage, t: Tweet, buyAmount: real,
                       orderId: string, now: int): seq<TradingContext.Order>
    requires stage.Bought? || stage.BuyFailed? ==> t.mintAddress.Some?
  {
    match stage
    case Bought(sig) =>
      TradingContext.UpdatedOrders([TradingContext.Placed(PendingOrder(t, buyAmount), orderId, now)] + orders, orderId,
                                   Some(TradingContext.StatusUpdate(TradingContext.Succeeded, Some(sig), None)))
    case BuyFailed(message) =>
      TradingContext.UpdatedOrders([TradingContext.Placed(PendingOrder(t, buyAmount), orderId, now)] + orders, orderId,
                                   Some(TradingContext.StatusUpdate(TradingContext.Errored, None, Some(message))))
    case _ => orders
  }

  /** Once a buy of a mint succeeded, no later call buys that mint or that tweet again. */
  lemma BoughtOnlyOnce(mints: set<string>, tweets: set<string>, t: Tweet, u: Tweet,
                       ready: bool, gate: TxResult, dexSkips: bool, buy: TxResult,
                       ready2: bool, gate2: TxResult, dexSkips2: bool, buy2: TxResult)
    requires AutoBuyStageOf(mints, tweets, t, ready, gate, dexSkips, buy).Bought?
    requires u.mintAddress == t.mintAddress || u.id == t.id
    ensures !AutoBuyStageOf(mints + {t.mintAddress.value}, tweets + {t.id}, u, ready2, gate2, dexSkips2, buy2).Bought?
  {
  }

  /**
   * With the follower check on, the Dexscreener client refuses every token,
   * yet the gate as written lets the buy go ahead; the awaited gate stops it.
   */
  lemma DexGateIgnoresRefusal(s: ClientSettings, t: Tweet, nowMs: int, mints: set<string>, tweets: set<string>,
                              gate: TxResult, buy: TxResult)
    requires s.followerCheckEnabled && t.sourceType == DexScreener
    requires TruthyString(t.mintAddress) && t.mintAddress.value !in mints && t.id !in tweets
    requires SucceededWithSignature(buy)
    ensures var approves := DexscreenerClient.ShouldBuyToken(Some(s), Some(DexscreenerClient.GetTokenCreationTime(nowMs)), nowMs);
            && !approves
            && AutoBuyStageOf(mints, tweets, t, true, gate, DexGateSkipsAsWritten(approves), buy).Bought?
            && AutoBuyStageOf(mints, tweets, t, true, gate, DexGateSkips(approves), buy) == GateRefused
  {
  }

  /**
   * With the answer awaited, a Dexscreener tweet is bought only when the
   * client approves, and a refusal always ends at the gate.
   */
  lemma AwaitedDexGateHonoursClient(mints: set<string>, tweets: set<string>, t: Tweet, ready: bool,
                                    gate: TxResult, approves: bool, buy: TxResult)
    requires t.sourceType == DexScreener
    ensures AutoBuyStageOf(mints, tweets, t, ready, gate, DexGateSkips(approves), buy).Bought? ==> approves
    ensures !approves && TruthyString(t.mintAddress) && t.mintAddress.value !in mints && t.id !in tweets && ready ==>
              AutoBuyStageOf(mints, tweets, t, ready, gate, DexGateSkips(approves), buy) == GateRefused
  {
  }

  /**
   * `autoBuy` buys on its own before it reports success, and the feed then
   * buys again: a pump.fun tweet is recorded as bought only after two
   * purchases that both went through.
   */
  lemma PumpFunAutoBuyBuysTwice(mints: set<string>, tweets: set<string>, t: Tweet, ready: bool,
                                autoBuyPurchase: TxResult, dexSkips: bool, buy: TxResult)
    requires t.sourceType == PumpFun
    requires AutoBuyStageOf(mints, tweets, t, ready, PumpFunClient.BuyVerdict(autoBuyPurchase), dexSkips, buy).Bought?
    ensures SucceededWithSignature(autoBuyPurchase) && SucceededWithSignature(buy)
  {
  }

  /**
   * The pump.fun client the feed builds holds no `buyAmount` and no
   * `slippage`, so the purchase `autoBuy` makes of its own asks for NaN
   * lamports at 25 basis points, whatever amount and slippage the trading
   * settings hold.
   */
  lemma AutoBuyRequestIgnoresSettings(t: TradingContext.TradingSettings)
    ensures var s := TradingContext.ClientSettingsOf(t);
            PumpFunClient.QuoteRequest(s.buyAmount, s.slippage) == PumpFunClient.BuyRequest(None, 25)
  {
  }

  // ---------------------------------------------------------------------
  // Mint-address extraction
  // ---------------------------------------------------------------------

  predicate IsAlnum(c: char) {
    'A' <= c <= 'Z' || 'a' <= c <= 'z' || '0' <= c <= '9'
  }

  /** `prefix` occurs at `i` and is followed by at least one letter or digit. */
  predicate MatchesAt(s: string, prefix: string, i: int) {
    OccursAt(s, prefix, i) && i + |prefix| < |s| && IsAlnum(s[i + |prefix|])
  }

  /** The leftmost match at or after `i`, where a regular-expression search finds it. */
  function FirstMatch(s: string, prefix: string, i: nat): (r: Option<nat>)
    ensures r.Some? ==> i <= r.value && MatchesAt(s, prefix, r.value)
    ensures r.Some? ==> forall j :: i <= j < r.value ==> !MatchesAt(s, prefix, j)
    ensures r.None? ==> forall j :: i <= j ==> !MatchesAt(s, prefix, j)
    decreases |s| - i
  {
    if i >= |s| then None
    else if MatchesAt(s, prefix, i) then Some(i)
    else FirstMatch(s, prefix, i + 1)
  }

  /** The longest run of letters and digits at the start of `s` (the greedy `[A-Za-z0-9]+`). */
  function AlnumRun(s: string): (r: string)
    ensures IsPrefix(r, s)
    ensures forall k :: 0 <= k < |r| ==> IsAlnum(r[k])
    ensures |r| < |s| ==> !IsAlnum(s[|r|])
  {
    if |s| > 0 && IsAlnum(s[0]) then [s[0]] + AlnumRun(s[1..]) else []
  }

  const PUMP_FUN_PATTERN := "pump.fun/coin/"
  const DEXSCREENER_PATTERN := "dexscreener.com/solana/"

  function MintPattern(t: TweetType): string {
    if t == PumpFun then PUMP_FUN_PATTERN else DEXSCREENER_PATTERN
  }

  /** The captured group of `prefix([A-Za-z0-9]+)` in `url`. */
  function MatchCapture(url: string, prefix: string): (r: Option<string>)
    ensures r.Some? ==> r.value != [] && forall k :: 0 <= k < |r.value| ==> IsAlnum(r.value[k])
    ensures r.None? <==> forall j :: 0 <= j ==> !MatchesAt(url, prefix, j)
  {
    match FirstMatch(url, prefix, 0)
    case None => None
    case Some(p) => Some(AlnumRun(url[p + |prefix|..]))
  }

  /** `extractMintAddress(tweet)`: only the first link's expanded URL is read. */
  function ExtractMintAddress(t: Tweet): (r: Option<string>)
    ensures |t.urls| == 0 ==> r.None?
    ensures r.Some? ==> r.value != []
  {
    if |t.urls| == 0 || t.urls[0].expandedUrl == [] then None
    else MatchCapture(t.urls[0].expandedUrl, MintPattern(t.sourceType))
  }

  lemma {:induction false} AlnumRunOfAlnum(m: string, rest: string)
    requires forall k :: 0 <= k < |m| ==> IsAlnum(m[k])
    requires |rest| > 0 ==> !IsAlnum(rest[0])
    ensures AlnumRun(m + rest) == m
    decreases |m|
  {
    if |m| > 0 {
      assert (m + rest)[1..] == m[1..] + rest;
      AlnumRunOfAlnum(m[1..], rest);
    } else {
      assert m + rest == rest;
    }
  }

  /** A search from `i` finds the first match after positions that do not match. */
  lemma {:induction false} FirstMatchAt(s: string, prefix: string, i: nat, j: nat)
    requires i <= j && MatchesAt(s, prefix, j)
    requires forall k :: i <= k < j ==> !MatchesAt(s, prefix, k)
    ensures FirstMatch(s, prefix, i) == Some(j)
    decreases j - i
  {
    if i < j {
      FirstMatchAt(s, prefix, i + 1, j);
    }
  }

  /** A character that differs from the pattern's rules out an occurrence. */
  lemma NoOccurrenceWhereDiffers(s: string, sub: string, j: nat, k: nat)
    requires k < |sub| && j + k < |s| && s[j + k] != sub[k]
    ensures !OccursAt(s, sub, j)
  {
    if j + |sub| <= |s| {
      assert s[j..j + |sub|][k] == s[j + k];
    }
  }

  /** The pump.fun pattern does not start inside the `https://` of a link. */
  lemma NoMatchInScheme(url: string)
    requires |url| >= 8 && url[..8] == "https://"
    ensures forall j :: 0 <= j < 8 ==> !MatchesAt(url, PUMP_FUN_PATTERN, j)
  {
    var p := PUMP_FUN_PATTERN;
    forall j | 0 <= j < 8
      ensures !OccursAt(url, p, j)
    {
      var k := if j == 3 then 1 else 0;
      assert url[j + k] == url[..8][j + k];
      NoOccurrenceWhereDiffers(url, p, j, k);
    }
  }

  /** A link of the form `https://pump.fun/coin/<mint>` yields the mint. */
  lemma ExtractFromCoinUrl(m: string, tail: string)
    requires m != [] && forall k :: 0 <= k < |m| ==> IsAlnum(m[k])
    requires |tail| > 0 ==> !IsAlnum(tail[0])
    ensures MatchCapture("https://" + PUMP_FUN_PATTERN + m + tail, PUMP_FUN_PATTERN) == Some(m)
  {
    var url := "https://" + PUMP_FUN_PATTERN + m + tail;
    var p := PUMP_FUN_PATTERN;
    assert url[..8] == "https://";
    NoMatchInScheme(url);
    assert url[8..8 + |p|] == p;
    assert url[8 + |p|] == m[0];
    FirstMatchAt(url, p, 0, 8);
    assert url[8 + |p|..] == m + tail;
    AlnumRunOfAlnum(m, tail);
  }

  /** Links after the first never matter. */
  lemma ExtractReadsFirstUrlOnly(t: Tweet, more: seq<UrlEntity>)
    requires |t.urls| > 0
    ensures ExtractMintAddress(t.(urls := t.urls + more)) == ExtractMintAddress(t)
  {
    assert (t.urls + more)[0] == t.urls[0];
  }

  // ---------------------------------------------------------------------
  // handleNewTweets
  // ---------------------------------------------------------------------

  const MAX_TWEETS := 100

  /** `processed_<type>_<id>`, the storage mark of a handled tweet. */
  function ProcessedKey(kind: TweetType, t: Tweet): string {
    "processed_" + kind.Name() + "_" + t.id
  }

  /**
   * The local tweet built from an incoming one: its source type set, and
   * when a mint address is found, that address and the token information
   * `tokenInfos` holds for it.
   */
  function Localize(t: Tweet, kind: TweetType, tokenInfos: map<string, TokenInfo>): (r: Tweet)
    ensures r.id == t.id && r.createdAt == t.createdAt && r.sourceType == kind
  {
    var lt := t.(sourceType := kind);
    match ExtractMintAddress(lt)
    case None => lt
    case Some(m) =>
      lt.(mintAddress := Some(m), tokenInfo := if m in tokenInfos then Some(tokenInfos[m]) else lt.tokenInfo)
  }

  /**
   * A kept tweet whose handler has no lookup to wait for stores its mark
   * before the next tweet of the batch is checked.
   */
  predicate MarksAtOnce(t: Tweet, kind: TweetType, initial: bool) {
    !initial && ExtractMintAddress(t.(sourceType := kind)).None?
  }

  /**
   * The tweets of a batch that survive the storage check. Each tweet's check
   * runs before any tweet's lookups finish, so it sees `seen`: the marks
   * stored before the batch plus those of earlier kept tweets that had no
   * mint address (their handler never waits, so it marks at once).
   */
  function Admit(ts: seq<Tweet>, kind: TweetType, initial: bool, tokenInfos: map<string, TokenInfo>,
                 seen: set<string>): (r: seq<Tweet>)
    ensures |r| <= |ts|
    ensures initial ==> |r| == |ts|
  {
    if |ts| == 0 then []
    else
      var key := ProcessedKey(kind, ts[0]);
      if !initial && key in seen then Admit(ts[1..], kind, initial, tokenInfos, seen)
      else
        var lt := Localize(ts[0], kind, tokenInfos);
        var seen' := if MarksAtOnce(ts[0], kind, initial) then seen + {key} else seen;
        [lt] + Admit(ts[1..], kind, initial, tokenInfos, seen')
  }

  /** One step of `Admit`: the first tweet's storage check and mark. */
  lemma AdmitCons(t: Tweet, rest: seq<Tweet>, kind: TweetType, initial: bool, tokenInfos: map<string, TokenInfo>,
                  seen: set<string>)
    ensures !initial && ProcessedKey(kind, t) in seen ==>
              Admit([t] + rest, kind, initial, tokenInfos, seen) == Admit(rest, kind, initial, tokenInfos, seen)
    ensures !initial && ProcessedKey(kind, t) !in seen && MarksAtOnce(t, kind, initial) ==>
              Admit([t] + rest, kind, initial, tokenInfos, seen)
              == [Localize(t, kind, tokenInfos)] + Admit(rest, kind, initial, tokenInfos, seen + {ProcessedKey(kind, t)})
    ensures initial || (ProcessedKey(kind, t) !in seen && !MarksAtOnce(t, kind, initial)) ==>
              Admit([t] + rest, kind, initial, tokenInfos, seen)
              == [Localize(t, kind, tokenInfos)] + Admit(rest, kind, initial, tokenInfos, seen)
  {
    assert ([t] + rest)[0] == t && ([t] + rest)[1..] == rest;
  }

  /** One step of `AdmitBatch`'s loop at index `i`, stated on the kept tweets so far. */
  lemma AdmitStep(valid: seq<Tweet>, ts: seq<Tweet>, i: nat, kind: TweetType, initial: bool,
                  tokenInfos: map<string, TokenInfo>, seen: set<string>)
    requires i < |ts|
    ensures var key := ProcessedKey(kind, ts[i]);
      var admitted := initial || key !in seen;
      var seen' := if admitted && MarksAtOnce(ts[i], kind, initial) then seen + {key} else seen;
      var valid' := if admitted then valid + [Localize(ts[i], kind, tokenInfos)] else valid;
      valid + Admit(ts[i..], kind, initial, tokenInfos, seen) == valid' + Admit(ts[i + 1..], kind, initial, tokenInfos, seen')
  {
    var t, rest := ts[i], ts[i + 1..];
    assert ts[i..] == [t] + rest;
    AdmitCons(t, rest, kind, initial, tokenInfos, seen);
    var key := ProcessedKey(kind, t);
    if initial || key !in seen {
      var seen' := if MarksAtOnce(t, kind, initial) then seen + {key} else seen;
      SeqAssoc(valid, [Localize(t, kind, tokenInfos)], Admit(rest, kind, initial, tokenInfos, seen'));
    }
  }

  lemma SeqAssoc<T>(a: seq<T>, b: seq<T>, c: seq<T>)
    ensures a + (b + c) == (a + b) + c
  {
  }

  /** The storage keys of a list of tweets. */
  function KeysOf(kind: TweetType, ts: seq<Tweet>): set<string>
  {
    if |ts| == 0 then {} else KeysOf(kind, ts[..|ts| - 1]) + {ProcessedKey(kind, ts[|ts| - 1])}
  }

  /** New tweets before the shown ones, newest first, at most 100. */
  function MergeFeed(valid: seq<Tweet>, prev: seq<Tweet>): (r: seq<Tweet>)
    ensures |r| <= MAX_TWEETS
  {
    var s := SortDesc(valid + prev, CreatedAtOf);
    if |s| <= MAX_TWEETS then s else s[..MAX_TWEETS]
  }

  /**
   * The merged list is sorted newest first, holds at most 100 tweets, all
   * taken from the new and the shown ones, and drops none while they fit;
   * past 100, every dropped tweet is no newer than every kept one.
   */
  lemma MergeFeedKeepsNewest(valid: seq<Tweet>, prev: seq<Tweet>)
    ensures |MergeFeed(valid, prev)| == if |valid + prev| <= MAX_TWEETS then |valid + prev| else MAX_TWEETS
    ensures SortedDesc(MergeFeed(valid, prev), CreatedAtOf)
    ensures multiset(MergeFeed(valid, prev)) <= multiset(valid + prev)
    ensures |valid + prev| <= MAX_TWEETS ==> multiset(MergeFeed(valid, prev)) == multiset(valid + prev)
    ensures forall t, u :: t in MergeFeed(valid, prev) && u in multiset(valid + prev) - multiset(MergeFeed(valid, prev))
              ==> CreatedAtOf(u) <= CreatedAtOf(t)
  {
    var s := SortDesc(valid + prev, CreatedAtOf);
    SortDescPermutes(valid + prev, CreatedAtOf);
    SortDescSorted(valid + prev, CreatedAtOf);
    if |s| > MAX_TWEETS {
      assert s == s[..MAX_TWEETS] + s[MAX_TWEETS..];
      PrefixKeepsNewest(s, CreatedAtOf, MAX_TWEETS);
    }
  }

  // ---------------------------------------------------------------------
  // Display filter
  // ---------------------------------------------------------------------

  /** The filter the tweet list applies before rendering. */
  predicate Visible(t: Tweet, searchTerm: string, activeTypes: set<TweetType>,
                    followerFilterActive: bool, minDisplayFollowers: real) {
    var needle := ToLower(searchTerm);
    && (searchTerm == [] || Contains(ToLower(t.text), needle) || Contains(ToLower(t.user.screenName), needle))
    && t.sourceType in activeTypes
    && (!followerFilterActive || t.user.followersCount as real >= minDisplayFollowers)
  }

  function FilteredTweets(ts: seq<Tweet>, searchTerm: string, activeTypes: set<TweetType>,
                          followerFilterActive: bool, minDisplayFollowers: real): (r: seq<Tweet>)
    ensures forall t :: t in r <==> t in ts && Visible(t, searchTerm, activeTypes, followerFilterActive, minDisplayFollowers)
    ensures |r| <= |ts|
  {
    if |ts| == 0 then []
    else
      var rest := FilteredTweets(ts[1..], searchTerm, activeTypes, followerFilterActive, minDisplayFollowers);
      if Visible(ts[0], searchTerm, activeTypes, followerFilterActive, minDisplayFollowers) then [ts[0]] + rest else rest
  }

  /** With no search, both sources shown and the follower filter off, every tweet is shown. */
  lemma {:induction false} UnfilteredShowsAll(ts: seq<Tweet>)
    ensures FilteredTweets(ts, [], {PumpFun, DexScreener}, false, 0.0) == ts
  {
    if |ts| > 0 {
      UnfilteredShowsAll(ts[1..]);
      assert ts[0].sourceType == PumpFun || ts[0].sourceType == DexScreener;
      assert Visible(ts[0], [], {PumpFun, DexScreener}, false, 0.0);
    }
  }

  /** `truncateText(text, maxLength)` */
  function TruncateText(text: string, maxLength: nat): (r: string)
    ensures |text| <= maxLength ==> r == text
    ensures |text| > maxLength ==> |r| == maxLength + 3 && IsPrefix(r[..maxLength], text) && IsSuffix("...", r)
  {
    if |text| <= maxLength then text else text[..maxLength] + "..."
  }

  /**
   * The per-tweet part of `handleNewTweets`: the storage check, the local
   * tweet and its mark. Returns the kept tweets and the marks afterwards.
   */
  method AdmitBatch(newTweets: seq<Tweet>, kind: TweetType, initial: bool, tokenInfos: map<string, TokenInfo>,
                    marks: set<string>) returns (valid: seq<Tweet>, marksAfter: set<string>)
    ensures valid == Admit(newTweets, kind, initial, tokenInfos, marks)
    ensures marksAfter == if initial then marks else marks + KeysOf(kind, valid)
  {
    valid := [];
    var seen := marks;
    var i := 0;
    assert newTweets[i..] == newTweets;
    while i < |newTweets|
      invariant 0 <= i <= |newTweets|
      invariant Admit(newTweets, kind, initial, tokenInfos, marks)
                == valid + Admit(newTweets[i..], kind, initial, tokenInfos, seen)
    {
      var t := newTweets[i];
      var key := ProcessedKey(kind, t);
      AdmitStep(valid, newTweets, i, kind, initial, tokenInfos, seen);
      if initial || key !in seen {
        if MarksAtOnce(t, kind, initial) {
          seen := seen + {key};
        }
        valid := valid + [Localize(t, kind, tokenInfos)];
      }
      i := i + 1;
    }
    assert newTweets[i..] == [];
    // once every lookup has finished, every kept tweet is marked
    marksAfter := if initial then marks else marks + KeysOf(kind, valid);
  }

  // ---------------------------------------------------------------------
  // The feed's state
  // ---------------------------------------------------------------------

  class Feed {
    var tweets: seq<Tweet>
    var isPaused: bool
    /** Storage marks `processed_<type>_<id>` set to 'true'. */
    var marks: set<string>
    var processedMints: set<string>
    var processedTweets: set<string>
    var txSignatures: map<string, string>
    var buyLoading: map<string, bool>

    constructor(savedMints: set<string>, marks: set<string>)
      ensures tweets == [] && !isPaused && this.marks == marks
      ensures processedMints == savedMints && processedTweets == {}
      ensures txSignatures == map[] && buyLoading == map[]
    {
      tweets := [];
      isPaused := false;
      this.marks := marks;
      processedMints := savedMints;
      processedTweets := {};
      txSignatures := map[];
      buyLoading := map[];
    }

    /**
     * `handleAutoBuy(tweet)`. The trading clients and the chain are answers
     * passed in: `pumpReady`/`dexReady` say whether each client exists,
     * `autoBuyResult` is the result of the purchase `autoBuy` makes,
     * `dexApproves` the Dexscreener client's settings check and `buyResult`
     * the feed's own buy call's result; `orderId` and `now` are the new
     * order's id and time. As written the Dexscreener check is not awaited,
     * so its answer never stops the buy.
     */
    method HandleAutoBuy(t: Tweet, pumpReady: bool, dexReady: bool, autoBuyResult: TxResult, dexApproves: bool,
                         buyResult: TxResult, buyAmount: real, store: TradingContext.OrderStore,
                         orderId: string, now: int) returns (stage: AutoBuyStage)
      modifies this, store
      ensures stage == AutoBuyStageOf(old(processedMints), old(processedTweets), t,
                                       if t.sourceType == PumpFun then pumpReady else dexReady,
                                       autoBuyResult, DexGateSkipsAsWritten(dexApproves), buyResult)
      ensures t.sourceType == DexScreener ==> stage != GateRefused
      ensures processedMints == if stage.Bought? then old(processedMints) + {t.mintAddress.value} else old(processedMints)
      ensures processedTweets == if stage.Bought? then old(processedTweets) + {t.id} else old(processedTweets)
      ensures txSignatures == if stage.Bought? then old(txSignatures)[TweetKey(t) := stage.signature] else old(txSignatures)
      ensures buyLoading == if stage.NoMint? || stage.MintDone? || stage.TweetDone? then old(buyLoading)
                            else old(buyLoading)[TweetKey(t) := false]
      ensures store.orders == OrdersAfter(old(store.orders), stage, t, buyAmount, orderId, now)
      ensures tweets == old(tweets) && marks == old(marks) && isPaused == old(isPaused)
    {
      var ready := if t.sourceType == PumpFun then pumpReady else dexReady;
      stage := AutoBuyStageOf(processedMints, processedTweets, t, ready, autoBuyResult, DexGateSkipsAsWritten(dexApproves), buyResult);
      if !TruthyString(t.mintAddress) || t.mintAddress.value in processedMints || t.id in processedTweets {
        return;
      }
      var key := TweetKey(t);
      buyLoading := buyLoading[key := true];
      if !ready || (t.sourceType == PumpFun && !autoBuyResult.success) || (t.sourceType == DexScreener && DexGateSkipsAsWritten(dexApproves)) {
        buyLoading := buyLoading[key := false];
        return;
      }
      PlaceOrder(t, buyResult, buyAmount, store, orderId, now);
    }

    /**
     * The part of `handleAutoBuy` past the gates: the order is placed, the
     * buy's result settles it, a successful buy is recorded against the
     * mint and the tweet, and the tweet's button stops loading.
     */
    method PlaceOrder(t: Tweet, buyResult: TxResult, buyAmount: real, store: TradingContext.OrderStore,
                      orderId: string, now: int)
      requires t.mintAddress.Some?
      modifies this, store
      ensures var placed := [TradingContext.Placed(PendingOrder(t, buyAmount), orderId, now)] + old(store.orders);
        if SucceededWithSignature(buyResult) then
          && processedMints == old(processedMints) + {t.mintAddress.value}
          && processedTweets == old(processedTweets) + {t.id}
          && txSignatures == old(txSignatures)[TweetKey(t) := buyResult.signature.value]
          && store.orders == TradingContext.UpdatedOrders(placed, orderId,
               Some(TradingContext.StatusUpdate(TradingContext.Succeeded, Some(buyResult.signature.value), None)))
        else
          && processedMints == old(processedMints) && processedTweets == old(processedTweets)
          && txSignatures == old(txSignatures)
          && store.orders == TradingContext.UpdatedOrders(placed, orderId,
               Some(TradingContext.StatusUpdate(TradingContext.Errored, None, Some(OrElse(buyResult.error, TRANSACTION_FAILED)))))
      ensures buyLoading == old(buyLoading)[TweetKey(t) := false]
      ensures tweets == old(tweets) && marks == old(marks) && isPaused == old(isPaused)
    {
      var key := TweetKey(t);
      var pending := store.AddOrder(PendingOrder(t, buyAmount), orderId, now);
      if SucceededWithSignature(buyResult) {
        var signature := buyResult.signature.value;
        processedMints := processedMints + {t.mintAddress.value};
        processedTweets := processedTweets + {t.id};
        txSignatures := txSignatures[key := signature];
        store.UpdateOrder(pending.id, Some(TradingContext.StatusUpdate(TradingContext.Succeeded, Some(signature), None)));
      } else {
        var message := OrElse(buyResult.error, TRANSACTION_FAILED);
        store.UpdateOrder(pending.id, Some(TradingContext.StatusUpdate(TradingContext.Errored, None, Some(message))));
      }
      buyLoading := buyLoading[key := false];
    }

    /** The unpaused part of `handleNewTweets`: admit the batch, store the marks, merge the kept tweets in. */
    method Absorb(newTweets: seq<Tweet>, kind: TweetType, initial: bool, tokenInfos: map<string, TokenInfo>)
      returns (valid: seq<Tweet>)
      modifies this
      ensures valid == Admit(newTweets, kind, initial, tokenInfos, old(marks))
      ensures marks == if initial then old(marks) else old(marks) + KeysOf(kind, valid)
      ensures tweets == if |valid| > 0 then MergeFeed(valid, old(tweets)) else old(tweets)
      ensures isPaused == old(isPaused) && processedMints == old(processedMints)
      ensures processedTweets == old(processedTweets) && txSignatures == old(txSignatures)
      ensures buyLoading == old(buyLoading)
    {
      var admitted;
      valid, admitted := AdmitBatch(newTweets, kind, initial, tokenInfos, marks);
      marks := admitted;
      if |valid| > 0 {
        tweets := MergeFeed(valid, tweets);
      }
    }

    /**
     * `handleNewTweets(newTweets, kind, isInitialLoad)`; `tokenInfos` holds
     * the token information the lookups return, by mint address.
     */
    method HandleNewTweets(newTweets: seq<Tweet>, kind: TweetType, initial: bool, tokenInfos: map<string, TokenInfo>)
      returns (valid: seq<Tweet>)
      modifies this
      ensures old(isPaused) ==> valid == [] && tweets == old(tweets) && marks == old(marks)
      ensures !old(isPaused) ==> valid == Admit(newTweets, kind, initial, tokenInfos, old(marks))
      ensures !old(isPaused) ==> marks == if initial then old(marks) else old(marks) + KeysOf(kind, valid)
      ensures tweets == if |valid| > 0 then MergeFeed(valid, old(tweets)) else old(tweets)
      ensures isPaused == old(isPaused) && processedMints == old(processedMints)
      ensures processedTweets == old(processedTweets) && txSignatures == old(txSignatures)
      ensures buyLoading == old(buyLoading)
    {
      if isPaused {
        valid := [];
      } else {
        valid := Absorb(newTweets, kind, initial, tokenInfos);
      }
    }
  }

  /** A tweet already marked before the batch is dropped on a non-initial load. */
  lemma {:induction false} MarkedTweetsDropped(ts: seq<Tweet>, kind: TweetType, infos: map<string, TokenInfo>,
                                               seen: set<string>, u: Tweet)
    requires u in Admit(ts, kind, false, infos, seen)
    ensures ProcessedKey(kind, u) !in seen
  {
    var key := ProcessedKey(kind, ts[0]);
    if key in seen {
      MarkedTweetsDropped(ts[1..], kind, infos, seen, u);
    } else if u != Localize(ts[0], kind, infos) {
      var seen' := if MarksAtOnce(ts[0], kind, false) then seen + {key} else seen;
      MarkedTweetsDropped(ts[1..], kind, infos, seen', u);
    }
  }

  /**
   * Two copies of one tweet in a batch: without a mint address the second is
   * dropped, since the first is marked before the second is checked; with
   * one, both are kept, since the first is marked only after its lookups.
   */
  lemma RepeatedTweetInBatch(t: Tweet, kind: TweetType, infos: map<string, TokenInfo>, seen: set<string>)
    requires ProcessedKey(kind, t) !in seen
    ensures ExtractMintAddress(t.(sourceType := kind)).None? ==>
              Admit([t, t], kind, false, infos, seen) == [Localize(t, kind, infos)]
    ensures ExtractMintAddress(t.(sourceType := kind)).Some? ==>
              Admit([t, t], kind, false, infos, seen) == [Localize(t, kind, infos), Localize(t, kind, infos)]
  {
    assert [t, t][1..] == [t];
    assert [t][1..] == [];
  }
}

=== FILE: twitter_service.dfy ===
/**
 * The tweet stream client `TwitterService`: one WebSocket to the tweet
 * stream, a reconnect schedule with doubling delays, one subscription
 * message per search configuration when the socket opens, the per-type
 * cache of received tweets and the list of subscriber callbacks.
 *
 * The socket, the timers and the callbacks are outside the model: the
 * socket's events are methods the environment calls (`OnOpen`, `OnClose`,
 * `OnMessage`), a scheduled timer is recorded by its delay, and a callback
 * is an identity whose invocations are recorded in `deliveries`. Every
 * socket created is numbered in creation order, so that an event of a
 * socket the service has already replaced can be told from one of the
 * current socket.
 */
module TwitterService {
  import opened Wrappers
  import opened Types
  import opened Text
  import opened Sorting

  // ---------------------------------------------------------------------
  // Raw tweets and their transformation
  // ---------------------------------------------------------------------

  /** `token_info` as the stream sends it. */
  datatype RawTokenInfo = RawTokenInfo(
    symbol: string,
    name: string,
    imageUrl: string,
    price: real,
    marketCap: real,
    createdTimestamp: int)

  /**
   * A tweet as the stream sends it. `text` is null when absent,
   * `entityUrls` and `media` are the optional `entities` arrays, and
   * `createdAtMs` is the instant `tweet_created_at` denotes (absent when the
   * field is missing or empty).
   */
  datatype RawTweet = RawTweet(
    idStr: string,
    text: Option<string>,
    fullText: Option<string>,
    user: User,
    entityUrls: Option<seq<UrlEntity>>,
    media: Option<seq<UrlEntity>>,
    quoted: Option<RawTweet>,
    retweetCount: int,
    favoriteCount: int,
    viewsCount: Option<int>,
    bookmarkCount: Option<int>,
    createdAtMs: Option<int>,
    mintAddress: Option<string>,
    tokenInfo: Option<RawTokenInfo>)

  /** A string field a JavaScript condition treats as true: present and non-empty. */
  predicate Present(s: Option<string>) {
    s.Some? && s.value != []
  }

  function TokenInfoOf(raw: Option<RawTokenInfo>): (r: Option<TokenInfo>)
    ensures r.Some? <==> raw.Some?
    ensures r.Some? ==> r.value.symbol == raw.value.symbol && r.value.price == Some(raw.value.price)
  {
    match raw
    case None => None
    case Some(i) => Some(TokenInfo(i.symbol, i.name, i.imageUrl, Some(i.price), i.marketCap, i.createdTimestamp, None))
  }

  /**
   * `transformTweet(rawTweet)`. A tweet with neither `text` nor `full_text`
   * becomes an empty tweet stamped `now`, with no links and no quoted tweet;
   * any other keeps `full_text` (else `text`), the links followed by the
   * media, its own creation time (else `now`) and its quoted tweet,
   * transformed the same way. Every result is typed 'pumpfun'.
   */
  function TransformTweet(raw: RawTweet, now: int): (r: Tweet)
    ensures r.id == raw.idStr && r.sourceType == PumpFun
    ensures r.retweetCount == raw.retweetCount && r.favoriteCount == raw.favoriteCount
    ensures r.viewsCount == raw.viewsCount && r.bookmarkCount == raw.bookmarkCount
    ensures r.mintAddress == raw.mintAddress && r.tokenInfo == TokenInfoOf(raw.tokenInfo)
    ensures r.text == [] <==> !Present(raw.text) && !Present(raw.fullText)
    ensures Present(raw.fullText) ==> r.text == raw.fullText.value
    ensures !Present(raw.fullText) && Present(raw.text) ==> r.text == raw.text.value
    ensures r.quoted.Some? ==> raw.quoted.Some?
    ensures !Present(raw.text) && !Present(raw.fullText) ==> r.urls == [] && r.createdAt == now && r.quoted.None?
    ensures Present(raw.text) || Present(raw.fullText) ==>
              r.urls == raw.entityUrls.GetOr([]) + raw.media.GetOr([]) && r.createdAt == raw.createdAtMs.GetOr(now)
    decreases raw
  {
    if !Present(raw.text) && !Present(raw.fullText) then
      Tweet(raw.idStr, "", now, raw.user, [], PumpFun, raw.retweetCount, raw.favoriteCount,
            raw.viewsCount, raw.bookmarkCount, None, raw.mintAddress, TokenInfoOf(raw.tokenInfo))
    else
      var text := if Present(raw.fullText) then raw.fullText.value else raw.text.value;
      var urls := raw.entityUrls.GetOr([]) + raw.media.GetOr([]);
      var quoted := match raw.quoted
        case None => None
        case Some(q) => Some(TransformTweet(q, now));
      Tweet(raw.idStr, text, raw.createdAtMs.GetOr(now), raw.user, urls, PumpFun, raw.retweetCount,
            raw.favoriteCount, raw.viewsCount, raw.bookmarkCount, quoted, raw.mintAddress, TokenInfoOf(raw.tokenInfo))
  }

  /** The ids along a chain of quoted raw tweets, outermost first. */
  function RawQuoteIds(raw: RawTweet): (r: seq<string>)
    ensures |r| >= 1 && r[0] == raw.idStr
    decreases raw
  {
    [raw.idStr] + match raw.quoted
      case None => []
      case Some(q) => RawQuoteIds(q)
  }

  /** The ids along a chain of quoted tweets, outermost first. */
  function QuoteIds(t: Tweet): (r: seq<string>)
    ensures |r| >= 1 && r[0] == t.id
    decreases t
  {
    [t.id] + match t.quoted
      case None => []
      case Some(q) => QuoteIds(q)
  }

  /**
   * The transformation keeps the chain of quoted tweets: the ids along the
   * result's chain are those of the raw chain, cut where a quoted tweet has
   * no text (its own quoted tweet is dropped).
   */
  lemma {:induction false} TransformKeepsQuoteChain(raw: RawTweet, now: int)
    ensures QuoteIds(TransformTweet(raw, now)) <= RawQuoteIds(raw)
    ensures Present(raw.text) || Present(raw.fullText) || QuoteIds(TransformTweet(raw, now)) == [raw.idStr]
    decreases raw
  {
    var r := TransformTweet(raw, now);
    match raw.quoted
    case None =>
      assert QuoteIds(r) == [raw.idStr];
    case Some(q) =>
      if r.quoted.Some? {
        TransformKeepsQuoteChain(q, now);
        assert QuoteIds(r) == [raw.idStr] + QuoteIds(TransformTweet(q, now));
        assert RawQuoteIds(raw) == [raw.idStr] + RawQuoteIds(q);
      } else {
        assert QuoteIds(r) == [raw.idStr];
      }
  }

  /** `message.data.map(...)`: every raw tweet transformed and typed with the message's query type. */
  function TransformBatch(data: seq<RawTweet>, kind: TweetType, now: int): (r: seq<Tweet>)
    ensures |r| == |data|
    ensures forall i :: 0 <= i < |r| ==> r[i].id == data[i].idStr && r[i].sourceType == kind
  {
    seq(|data|, i requires 0 <= i < |data| => TransformTweet(data[i], now).(sourceType := kind))
  }

  // ---------------------------------------------------------------------
  // Messages, subscriptions and the reconnect schedule
  // ---------------------------------------------------------------------

  /** The `data` field of an envelope: an array of raw tweets, or anything else. */
  datatype DataField = Array(items: seq<RawTweet>) | NotArray

  /** An incoming WebSocket message: text that is not JSON, or an envelope. */
  datatype Incoming = NotJson | Envelope(kind: string, queryType: string, data: DataField)

  /** `{ type, urlPattern }` */
  datatype SearchConfig = SearchConfig(kind: TweetType, urlPattern: string)

  /** `{ query, type }`, the subscription message sent for a search configuration. */
  datatype Subscription = Subscription(query: string, kind: string)

  /** One invocation of a subscriber callback with `(tweets, type)`. */
  datatype Delivery = Delivery(callback: nat, tweets: seq<Tweet>, kind: TweetType)

  datatype ReadyState = Connecting | Open | Closing | Closed

  /** `this.ws`: no socket, or the socket created `gen`-th, counting from 0. */
  datatype Socket = NoSocket | Socket(gen: nat)

  /** `close()` on a socket: a connecting or open socket starts closing; a closing or closed one stays as it is. */
  function AfterClose(state: ReadyState): (r: ReadyState)
    ensures state in {Connecting, Open} <==> r == Closing && state != Closing
    ensures r != Open && r != Connecting
    ensures state in {Closing, Closed} ==> r == state
  {
    if state == Connecting || state == Open then Closing else state
  }

  const SEARCH_CONFIGS: seq<SearchConfig> :=
    [SearchConfig(PumpFun, "pump.fun/coin/"), SearchConfig(DexScreener, "dexscreener.com/solana/")]

  const MAX_RECONNECT_ATTEMPTS: nat := 5
  const MAX_RECONNECT_DELAY: nat := 10000

  function Pow2(n: nat): (r: nat)
    ensures r >= 1
  {
    if n == 0 then 1 else 2 * Pow2(n - 1)
  }

  /** `Math.min(1000 * Math.pow(2, attempts), 10000)` */
  function ReconnectDelay(attempts: nat): (r: nat)
    ensures 1000 <= r <= MAX_RECONNECT_DELAY
    ensures r == MAX_RECONNECT_DELAY || r == 1000 * Pow2(attempts)
  {
    if 1000 * Pow2(attempts) < MAX_RECONNECT_DELAY then 1000 * Pow2(attempts) else MAX_RECONNECT_DELAY
  }

  /** The delays doubled from one second and capped at ten. */
  lemma ReconnectDelays()
    ensures ReconnectDelay(0) == 1000 && ReconnectDelay(1) == 2000
    ensures ReconnectDelay(2) == 4000 && ReconnectDelay(3) == 8000
    ensures ReconnectDelay(4) == 10000
  {
    assert Pow2(3) == 8;
    assert Pow2(4) == 16;
  }

  /** The delays scheduled by `n` closes in a row, starting from `attempts` failed attempts. */
  function ScheduleAfterCloses(attempts: nat, n: nat): seq<nat>
    decreases n
  {
    if n == 0 then []
    else if attempts >= MAX_RECONNECT_ATTEMPTS then ScheduleAfterCloses(attempts, n - 1)
    else [ReconnectDelay(attempts)] + ScheduleAfterCloses(attempts + 1, n - 1)
  }

  /**
   * Between two successful opens, closes schedule reconnects after 1, 2, 4,
   * 8 and 10 seconds and then none at all.
   */
  lemma {:induction false} ScheduleFromAttempts(attempts: nat, n: nat)
    requires attempts <= MAX_RECONNECT_ATTEMPTS
    ensures ScheduleAfterCloses(attempts, n)
            == seq(Min(attempts + n, MAX_RECONNECT_ATTEMPTS) - attempts, i requires 0 <= i => ReconnectDelay(attempts + i))
    decreases n
  {
    if n > 0 && attempts < MAX_RECONNECT_ATTEMPTS {
      ScheduleFromAttempts(attempts + 1, n - 1);
      var count := Min(attempts + n, MAX_RECONNECT_ATTEMPTS) - attempts;
      var tail := seq(count - 1, i requires 0 <= i => ReconnectDelay(attempts + 1 + i));
      var whole := seq(count, i requires 0 <= i => ReconnectDelay(attempts + i));
      assert ScheduleAfterCloses(attempts, n) == [ReconnectDelay(attempts)] + tail;
      assert whole == [ReconnectDelay(attempts)] + tail by {
        forall i | 1 <= i < count
          ensures whole[i] == tail[i - 1]
        {
          assert attempts + 1 + (i - 1) == attempts + i;
        }
      }
    } else if n > 0 {
      ScheduleFromAttempts(attempts, n - 1);
    }
  }

  function Min(a: int, b: int): int {
    if a < b then a else b
  }

  /** From a fresh open, any number of closes schedules at most the five delays, in this order. */
  lemma ScheduleFromOpen(n: nat)
    ensures ScheduleAfterCloses(0, n) == [1000, 2000, 4000, 8000, 10000][..Min(n, 5)]
  {
    ScheduleFromAttempts(0, n);
    ReconnectDelays();
  }

  /** The subscription messages sent when the socket opens, one per configuration, in order. */
  function SubscriptionsFor(configs: seq<SearchConfig>): (r: seq<Subscription>)
    ensures |r| == |configs|
    ensures forall i :: 0 <= i < |configs| ==> r[i] == Subscription(configs[i].urlPattern, configs[i].kind.Name())
  {
    seq(|configs|, i requires 0 <= i < |configs| => Subscription(configs[i].urlPattern, configs[i].kind.Name()))
  }

  /** Each subscriber, in order, called once with the batch. */
  function DeliveriesTo(subscribers: seq<nat>, tweets: seq<Tweet>, kind: TweetType): (r: seq<Delivery>)
    ensures |r| == |subscribers|
    ensures forall i :: 0 <= i < |r| ==> r[i] == Delivery(subscribers[i], tweets, kind)
  {
    seq(|subscribers|, i requires 0 <= i < |subscribers| => Delivery(subscribers[i], tweets, kind))
  }

  /** The batch an incoming message carries, when it is processed at all. */
  function Batch(msg: Incoming, now: int): (r: Option<(TweetType, seq<Tweet>)>)
    ensures r.Some? <==> msg.Envelope? && msg.kind == "tweets" && msg.data.Array? && TweetTypeNamed(msg.queryType).Some?
    ensures r.Some? ==> r.value.0.Name() == msg.queryType && |r.value.1| == |msg.data.items|
  {
    if msg.Envelope? && msg.kind == "tweets" && msg.data.Array? then
      match TweetTypeNamed(msg.queryType)
      // an unknown query type has no cache entry: spreading it throws, and the handler's catch swallows it
      case None => None
      case Some(kind) => Some((kind, TransformBatch(msg.data.items, kind, now)))
    else None
  }

  /**
   * The intended `getCachedTweets` order: newest first by creation time,
   * with the same tweets.
   */
  function CachedOrder(cache: seq<Tweet>): (r: seq<Tweet>)
  {
    SortDesc(cache, CreatedAtOf)
  }

  lemma CachedOrderIsNewestFirst(cache: seq<Tweet>)
    ensures SortedDesc(CachedOrder(cache), CreatedAtOf)
    ensures multiset(CachedOrder(cache)) == multiset(cache)
  {
    SortDescPermutes(cache, CreatedAtOf);
    SortDescSorted(cache, CreatedAtOf);
  }

  /**
   * `getCachedTweets` as written: its comparator subtracts
   * `new Date(created_at).getTime()` values, but `created_at` holds the
   * milliseconds as a decimal string, which is not a date string, so both
   * times are NaN and every comparison reports "equal". The engine's stable
   * sort then keeps the arrival order.
   */
  function NaNComparatorKey(t: Tweet): int {
    0
  }

  function CachedOrderAsWritten(cache: seq<Tweet>): (r: seq<Tweet>)
    ensures multiset(r) == multiset(cache)
  {
    SortDescPermutes(cache, NaNComparatorKey);
    SortDesc(cache, NaNComparatorKey)
  }

  /** The as-written order is the arrival order, whatever the times. */
  lemma CachedOrderAsWrittenIsArrival(cache: seq<Tweet>)
    ensures CachedOrderAsWritten(cache) == cache
  {
    SortConstantKey(cache, NaNComparatorKey, 0);
  }

  /** An older tweet that arrived first stays first: the as-written result is not newest first. */
  lemma CachedOrderAsWrittenNotNewestFirst(older: Tweet, newer: Tweet)
    requires older.createdAt < newer.createdAt
    ensures !SortedDesc(CachedOrderAsWritten([older, newer]), CreatedAtOf)
    ensures SortedDesc(CachedOrder([older, newer]), CreatedAtOf)
  {
    CachedOrderAsWrittenIsArrival([older, newer]);
    CachedOrderIsNewestFirst([older, newer]);
  }

  /** Subscribing and then calling the returned function leaves the list as `unsubscribe` would. */
  lemma SubscribeThenUnsubscribe(subscribers: seq<nat>, callback: nat)
    ensures RemoveAll(subscribers + [callback], callback) == RemoveAll(subscribers, callback)
    ensures callback !in subscribers ==> RemoveAll(subscribers + [callback], callback) == subscribers
  {
    RemoveAllAppend(subscribers, [callback], callback);
    assert RemoveAll([callback], callback) == [];
  }

  // ---------------------------------------------------------------------
  // The service
  // ---------------------------------------------------------------------

  class Service {
    var ws: Socket
    var reconnectAttempts: nat
    /** The ready state of every socket created so far (`new WebSocket(...)`), in creation order. */
    var sockets: seq<ReadyState>
    /** Delays of the reconnect timers scheduled so far, in order. */
    var timers: seq<nat>
    /** Messages sent on the socket, in order. */
    var sent: seq<Subscription>
    var subscribers: seq<nat>
    var pumpCache: seq<Tweet>
    var dexCache: seq<Tweet>
    /** Subscriber invocations so far, in order. */
    var deliveries: seq<Delivery>

    /** Between two opens at most five reconnects are attempted, and `this.ws` is a socket that was created. */
    predicate Valid()
      reads this
    {
      && reconnectAttempts <= MAX_RECONNECT_ATTEMPTS
      && (ws.Socket? ==> ws.gen < |sockets|)
    }

    /** `this.ws?.readyState === WebSocket.OPEN` */
    predicate IsOpen()
      reads this
    {
      ws.Socket? && ws.gen < |sockets| && sockets[ws.gen] == Open
    }

    function Cached(kind: TweetType): seq<Tweet>
      reads this
    {
      match kind
      case PumpFun => pumpCache
      case DexScreener => dexCache
    }

    /** The singleton's constructor: it connects only in a browser. */
    constructor(inBrowser: bool)
      ensures Valid() && reconnectAttempts == 0
      ensures ws == (if inBrowser then Socket(0) else NoSocket)
      ensures sockets == (if inBrowser then [Connecting] else [])
      ensures timers == [] && sent == [] && subscribers == [] && deliveries == []
      ensures pumpCache == [] && dexCache == []
    {
      reconnectAttempts := 0;
      timers := [];
      sent := [];
      subscribers := [];
      pumpCache := [];
      dexCache := [];
      deliveries := [];
      if inBrowser {
        ws := Socket(0);
        sockets := [Connecting];
      } else {
        ws := NoSocket;
        sockets := [];
      }
    }

    /** `connect()`: a no-op while the current socket is open, otherwise a new, connecting socket replaces it. */
    method Connect()
      requires Valid()
      modifies this
      ensures Valid()
      ensures old(IsOpen()) ==> ws == old(ws) && sockets == old(sockets)
      ensures !old(IsOpen()) ==> ws == Socket(|old(sockets)|) && sockets == old(sockets) + [Connecting]
      ensures reconnectAttempts == old(reconnectAttempts) && timers == old(timers) && sent == old(sent)
      ensures subscribers == old(subscribers) && deliveries == old(deliveries)
      ensures pumpCache == old(pumpCache) && dexCache == old(dexCache)
    {
      if IsOpen() {
        return;
      }
      ws := Socket(|sockets|);
      sockets := sockets + [Connecting];
    }

    /**
     * The `open` event of socket `gen`, which need not be the current one:
     * that socket is open, the attempts start over and, when the current
     * socket is open, one subscription per configuration is sent on it, in
     * configuration order.
     */
    method OnOpen(gen: nat)
      requires Valid() && gen < |sockets|
      modifies this
      ensures Valid() && reconnectAttempts == 0
      ensures sockets == old(sockets)[gen := Open] && ws == old(ws)
      ensures old(ws) == Socket(gen) ==> sent == old(sent) + SubscriptionsFor(SEARCH_CONFIGS)
      ensures old(ws).Socket? && old(ws).gen != gen ==>
        sent == old(sent) + (if old(sockets)[old(ws).gen] == Open then SubscriptionsFor(SEARCH_CONFIGS) else [])
      ensures old(ws).NoSocket? ==> sent == old(sent)
      ensures timers == old(timers)
      ensures subscribers == old(subscribers) && deliveries == old(deliveries)
      ensures pumpCache == old(pumpCache) && dexCache == old(dexCache)
    {
      sockets := sockets[gen := Open];
      reconnectAttempts := 0;
      if !IsOpen() {
        return;
      }
      var out := sent;
      for i := 0 to |SEARCH_CONFIGS|
        invariant out == sent + SubscriptionsFor(SEARCH_CONFIGS[..i])
      {
        var config := SEARCH_CONFIGS[i];
        out := out + [Subscription(config.urlPattern, config.kind.Name())];
        assert SEARCH_CONFIGS[..i + 1] == SEARCH_CONFIGS[..i] + [config];
      }
      assert SEARCH_CONFIGS[..|SEARCH_CONFIGS|] == SEARCH_CONFIGS;
      sent := out;
    }

    /**
     * The `close` event of socket `gen`, current or already replaced, and
     * `handleReconnect`: that socket is closed and `this.ws` is left as it
     * is; below five attempts a reconnect is scheduled after the current
     * delay and the attempt counted; at five nothing is scheduled.
     */
    method OnClose(gen: nat)
      requires Valid() && gen < |sockets|
      modifies this
      ensures Valid()
      ensures sockets == old(sockets)[gen := Closed] && ws == old(ws)
      ensures old(ws).Socket? && old(ws).gen != gen ==> IsOpen() == old(IsOpen())
      ensures timers == old(timers) + ScheduleAfterCloses(old(reconnectAttempts), 1)
      ensures reconnectAttempts == Min(old(reconnectAttempts) + 1, MAX_RECONNECT_ATTEMPTS)
      ensures sent == old(sent)
      ensures subscribers == old(subscribers) && deliveries == old(deliveries)
      ensures pumpCache == old(pumpCache) && dexCache == old(dexCache)
    {
      sockets := sockets[gen := Closed];
      if reconnectAttempts >= MAX_RECONNECT_ATTEMPTS {
        return;
      }
      var delay := ReconnectDelay(reconnectAttempts);
      reconnectAttempts := reconnectAttempts + 1;
      timers := timers + [delay];
    }

    /**
     * The `message` event of any socket, current or replaced. A `tweets` envelope with an array of
     * tweets and a known query type appends the transformed batch to that
     * type's cache and calls every subscriber once, in order, with it;
     * anything else changes nothing.
     */
    method OnMessage(msg: Incoming, now: int)
      modifies this
      ensures Batch(msg, now).None? ==>
        pumpCache == old(pumpCache) && dexCache == old(dexCache) && deliveries == old(deliveries)
      ensures Batch(msg, now).Some? ==>
        var (kind, tweets) := Batch(msg, now).value;
        && Cached(kind) == old(Cached(kind)) + tweets
        && (kind == PumpFun ==> dexCache == old(dexCache))
        && (kind == DexScreener ==> pumpCache == old(pumpCache))
        && deliveries == old(deliveries) + DeliveriesTo(subscribers, tweets, kind)
      ensures ws == old(ws) && reconnectAttempts == old(reconnectAttempts) && sockets == old(sockets)
      ensures timers == old(timers) && sent == old(sent) && subscribers == old(subscribers)
    {
      var batch := Batch(msg, now);
      if batch.None? {
        return;
      }
      var (kind, tweets) := batch.value;
      match kind {
        case PumpFun => pumpCache := pumpCache + tweets;
        case DexScreener => dexCache := dexCache + tweets;
      }
      // forEach: each subscriber in turn
      var calls := deliveries;
      for i := 0 to |subscribers|
        invariant calls == deliveries + DeliveriesTo(subscribers[..i], tweets, kind)
      {
        calls := calls + [Delivery(subscribers[i], tweets, kind)];
        assert subscribers[..i + 1] == subscribers[..i] + [subscribers[i]];
      }
      assert subscribers[..|subscribers|] == subscribers;
      deliveries := calls;
    }

    /** `subscribe(callback)`: the callback is added at the end. */
    method Subscribe(callback: nat)
      modifies this
      ensures subscribers == old(subscribers) + [callback]
      ensures ws == old(ws) && reconnectAttempts == old(reconnectAttempts) && sockets == old(sockets)
      ensures timers == old(timers) && sent == old(sent) && deliveries == old(deliveries)
      ensures pumpCache == old(pumpCache) && dexCache == old(dexCache)
    {
      subscribers := subscribers + [callback];
    }

    /** `unsubscribe(callback)` and the function `subscribe` returns: every occurrence goes, the rest keep their order. */
    method Unsubscribe(callback: nat)
      modifies this
      ensures subscribers == RemoveAll(old(subscribers), callback)
      ensures callback !in subscribers
      ensures forall c :: c != callback ==> (c in subscribers <==> c in old(subscribers))
      ensures ws == old(ws) && reconnectAttempts == old(reconnectAttempts) && sockets == old(sockets)
      ensures timers == old(timers) && sent == old(sent) && deliveries == old(deliveries)
      ensures pumpCache == old(pumpCache) && dexCache == old(dexCache)
    {
      subscribers := RemoveAll(subscribers, callback);
    }

    /**
     * `getCachedTweets(type)` as written: the cache of that type sorted in
     * place by the comparator above, which leaves it, and the result, in
     * arrival order.
     */
    method GetCachedTweets(kind: TweetType) returns (r: seq<Tweet>)
      modifies this
      ensures r == CachedOrderAsWritten(old(Cached(kind))) && Cached(kind) == r
      ensures r == old(Cached(kind))
      ensures kind == PumpFun ==> dexCache == old(dexCache)
      ensures kind == DexScreener ==> pumpCache == old(pumpCache)
      ensures ws == old(ws) && reconnectAttempts == old(reconnectAttempts) && sockets == old(sockets)
      ensures timers == old(timers) && sent == old(sent) && subscribers == old(subscribers)
      ensures deliveries == old(deliveries)
    {
      match kind
      case PumpFun =>
        CachedOrderAsWrittenIsArrival(pumpCache);
        pumpCache := CachedOrderAsWritten(pumpCache);
        r := pumpCache;
      case DexScreener =>
        CachedOrderAsWrittenIsArrival(dexCache);
        dexCache := CachedOrderAsWritten(dexCache);
        r := dexCache;
    }

    /** `disconnect()`: the current socket is closed, and then no socket, no subscribers and both caches empty. */
    method Disconnect()
      requires Valid()
      modifies this
      ensures Valid()
      ensures ws == NoSocket && subscribers == [] && pumpCache == [] && dexCache == []
      ensures sockets == if old(ws).Socket? then old(sockets)[old(ws).gen := AfterClose(old(sockets)[old(ws).gen])] else old(sockets)
      ensures reconnectAttempts == old(reconnectAttempts)
      ensures timers == old(timers) && sent == old(sent) && deliveries == old(deliveries)
    {
      if ws.Socket? {
        sockets := sockets[ws.gen := AfterClose(sockets[ws.gen])];
      }
      ws := NoSocket;
      subscribers := [];
      pumpCache := [];
      dexCache := [];
    }

    /**
     * `reconnect()`: the current socket is closed, the attempts start over
     * and a new, connecting socket replaces it. The old socket keeps its
     * handlers, so its later events still reach `OnOpen`, `OnClose` and
     * `OnMessage`.
     */
    method Reconnect()
      requires Valid()
      modifies this
      ensures Valid() && reconnectAttempts == 0
      ensures ws == Socket(|old(sockets)|)
      ensures sockets ==
        (if old(ws).Socket? then old(sockets)[old(ws).gen := AfterClose(old(sockets)[old(ws).gen])] else old(sockets)) + [Connecting]
      ensures timers == old(timers) && sent == old(sent) && deliveries == old(deliveries)
      ensures subscribers == old(subscribers) && pumpCache == old(pumpCache) && dexCache == old(dexCache)
    {
      if ws.Socket? {
        sockets := sockets[ws.gen := AfterClose(sockets[ws.gen])];
      }
      reconnectAttempts := 0;
      Connect();
    }
  }

  /**
   * `reconnect()` on a socket that has opened, the new socket's `open`
   * event, and then the replaced socket's `close` event: the new socket
   * stays current and open, the close still counts an attempt and
   * schedules a reconnect after one second, and the scheduled `connect()`
   * returns without creating a third socket.
   */
  method ReplacedSocketCloseKeepsNewOne() returns (service: Service)
    ensures service.ws == Socket(1) && service.sockets == [Closed, Open] && service.IsOpen()
    ensures service.reconnectAttempts == 1 && service.timers == [1000]
    ensures service.sent == SubscriptionsFor(SEARCH_CONFIGS) + SubscriptionsFor(SEARCH_CONFIGS)
  {
    service := new Service(true);
    service.OnOpen(0);
    service.Reconnect();
    service.OnOpen(1);
    service.OnClose(0);
    service.Connect();
  }
}

=== FILE: types.dfy ===
/**
 * Shapes shared by the clients, the feed and the stream service: tokens,
 * tweets, the trading settings handed to the clients and the result of a
 * transaction. `Step` is the outcome of an awaited call that may throw.
 */
module Types {
  import opened Wrappers

  /** 'pumpfun' | 'dexscreener' */
  datatype TweetType = PumpFun | DexScreener {
    function Name(): string {
      match this
      case PumpFun => "pumpfun"
      case DexScreener => "dexscreener"
    }
  }

  /** The tweet type named by a message's `queryType`, if it is one of the two. */
  function TweetTypeNamed(name: string): (r: Option<TweetType>)
    ensures r.Some? <==> name == "pumpfun" || name == "dexscreener"
    ensures r.Some? ==> r.value.Name() == name
  {
    if name == "pumpfun" then Some(PumpFun)
    else if name == "dexscreener" then Some(DexScreener)
    else None
  }

  /** Token metadata; `price` is absent when the asset search reports none. */
  datatype TokenInfo = TokenInfo(
    symbol: string,
    name: string,
    imageUrl: string,
    price: Option<real>,
    marketCap: real,
    createdTimestamp: int,
    mintAddress: Option<string>)

  datatype UrlEntity = UrlEntity(displayUrl: string, expandedUrl: string, url: string)

  datatype User = User(
    name: string,
    screenName: string,
    profileImageUrl: string,
    followersCount: int,
    verified: bool)

  /** A tweet as the feed keeps it; `createdAt` is the creation time in milliseconds. */
  datatype Tweet = Tweet(
    id: string,
    text: string,
    createdAt: int,
    user: User,
    urls: seq<UrlEntity>,
    sourceType: TweetType,
    retweetCount: int,
    favoriteCount: int,
    viewsCount: Option<int>,
    bookmarkCount: Option<int>,
    quoted: Option<Tweet>,
    mintAddress: Option<string>,
    tokenInfo: Option<TokenInfo>)

  /** The sort key of the feed and the stream cache: the creation time in milliseconds. */
  function CreatedAtOf(t: Tweet): int {
    t.createdAt
  }

  /**
   * The settings object a trading client holds. `buyAmount` and `slippage`
   * are read by the pump.fun client's `autoBuy` only; absent is `undefined`.
   */
  datatype ClientSettings = ClientSettings(
    autoBuyEnabled: bool,
    followerCheckEnabled: bool,
    minFollowers: real,
    creationTimeEnabled: bool,
    maxCreationTime: real,
    buyAmount: Option<real>,
    slippage: Option<real>)

  /** `{ success, signature?, error? }` */
  datatype TxResult = TxResult(success: bool, signature: Option<string>, error: Option<string>)

  /** An awaited call either returns a value or throws; `message` is absent when the thrown value is not an `Error`. */
  datatype Step<+T> = Done(value: T) | Threw(message: Option<string>)

  /** `s || fallback` for an optional string: absent and empty both fall back. */
  function OrElse(s: Option<string>, fallback: string): (r: string)
    ensures s.Some? && s.value != [] ==> r == s.value
    ensures s.None? || s.value == [] ==> r == fallback
  {
    if s.Some? && s.value != [] then s.value else fallback
  }

  /** A number that is present and non-zero, as a JavaScript condition sees it. */
  predicate Truthy(n: Option<int>) {
    n.Some? && n.value != 0
  }

  /** `result.success && result.signature`: a success that carries a non-empty signature. */
  predicate SucceededWithSignature(r: TxResult) {
    r.success && r.signature.Some? && r.signature.value != []
  }

  /** A failed result carrying only an error message. */
  function Failed(message: string): TxResult {
    TxResult(false, None, Some(message))
  }

  /** The result a `catch` block builds: the error's message, or the fallback for a non-`Error` value. */
  function Caught(message: Option<string>, fallback: string): TxResult {
    Failed(message.GetOr(fallback))
  }
}

=== FILE: utils.dfy ===
/**
 * The Python helpers (`utils.py`): a depth-first search for a field in a
 * parsed JSON value, the transaction confirmation loop, and the readers of
 * the pump.fun coin API and the token balance.
 *
 * Replies of the network and the chain are parameters; the pause between
 * confirmation attempts is left out.
 */
module Utils {
  import opened Wrappers

  /** A parsed JSON value as Python holds it; an object keeps its members in order. */
  datatype PyValue =
    | PyNone
    | PyBool(b: bool)
    | PyNumber(n: real)
    | PyString(s: string)
    | PyList(items: seq<PyValue>)
    | PyDict(entries: seq<(string, PyValue)>)

  /** Python truthiness: `None`, `False`, zero and empty containers are falsy. */
  predicate Truthy(v: PyValue) {
    match v
    case PyNone => false
    case PyBool(b) => b
    case PyNumber(n) => n != 0.0
    case PyString(s) => |s| > 0
    case PyList(items) => |items| > 0
    case PyDict(entries) => |entries| > 0
  }

  predicate HasKey(entries: seq<(string, PyValue)>, key: string) {
    exists i :: 0 <= i < |entries| && entries[i].0 == key
  }

  /** `d[key]` for a key the object has. */
  function ValueOf(entries: seq<(string, PyValue)>, key: string): (r: PyValue)
    requires HasKey(entries, key)
    ensures exists i :: 0 <= i < |entries| && entries[i] == (key, r)
  {
    if entries[0].0 == key then entries[0].1
    else
      assert HasKey(entries[1..], key) by {
        var i :| 0 <= i < |entries| && entries[i].0 == key;
        assert entries[1..][i - 1].0 == key;
      }
      var r := ValueOf(entries[1..], key);
      assert exists i :: 0 <= i < |entries[1..]| && entries[1..][i] == (key, r);
      var i :| 0 <= i < |entries[1..]| && entries[1..][i] == (key, r);
      assert entries[i + 1] == (key, r);
      r
  }

  /**
   * `find_data(data, field)`: an object holding `field` answers with its
   * value, even `None`; otherwise the object's values, or a list's items,
   * are searched in order, and the first answer that is not `None` wins.
   * Anything else, and a search that finds nothing, gives `None`.
   */
  function FindData(v: PyValue, field: string): (r: PyValue)
    ensures v.PyDict? && HasKey(v.entries, field) ==> r == ValueOf(v.entries, field)
    ensures !v.PyDict? && !v.PyList? ==> r == PyNone
    decreases v
  {
    match v
    case PyDict(entries) => if HasKey(entries, field) then ValueOf(entries, field) else FindInValues(entries, field)
    case PyList(items) => FindInItems(items, field)
    case _ => PyNone
  }

  function FindInValues(entries: seq<(string, PyValue)>, field: string): PyValue
    decreases entries
  {
    if |entries| == 0 then PyNone
    else
      var e := entries[0];
      assert e in entries && e.1 < e;
      var result := FindData(e.1, field);
      if result != PyNone then result else FindInValues(entries[1..], field)
  }

  function FindInItems(items: seq<PyValue>, field: string): PyValue
    decreases items
  {
    if |items| == 0 then PyNone
    else
      var result := FindData(items[0], field);
      if result != PyNone then result else FindInItems(items[1..], field)
  }

  /**
   * `x` is a value the search can reach: the value of `field` in an
   * object nested in `v`, where no enclosing object has a `field` member
   * of its own (an object holding `field` is not looked into).
   */
  predicate Visible(v: PyValue, field: string, x: PyValue)
    decreases v
  {
    match v
    case PyDict(entries) => if HasKey(entries, field) then ValueOf(entries, field) == x else ValuesVisible(entries, field, x)
    case PyList(items) => ItemsVisible(items, field, x)
    case _ => false
  }

  predicate ValuesVisible(entries: seq<(string, PyValue)>, field: string, x: PyValue)
    decreases entries
  {
    if |entries| == 0 then false
    else
      var e := entries[0];
      assert e in entries && e.1 < e;
      Visible(e.1, field, x) || ValuesVisible(entries[1..], field, x)
  }

  predicate ItemsVisible(items: seq<PyValue>, field: string, x: PyValue)
    decreases items
  {
    |items| > 0 && (Visible(items[0], field, x) || ItemsVisible(items[1..], field, x))
  }

  /** What the search finds, when it finds something, is a reachable value of `field`. */
  lemma {:induction false} FindDataSound(v: PyValue, field: string)
    ensures FindData(v, field) != PyNone ==> Visible(v, field, FindData(v, field))
    decreases v
  {
    match v
    case PyDict(entries) =>
      if !HasKey(entries, field) {
        FindInValuesSound(entries, field);
      }
    case PyList(items) =>
      FindInItemsSound(items, field);
    case _ =>
  }

  lemma {:induction false} FindInValuesSound(entries: seq<(string, PyValue)>, field: string)
    ensures FindInValues(entries, field) != PyNone ==> ValuesVisible(entries, field, FindInValues(entries, field))
    decreases entries
  {
    if |entries| > 0 {
      var e := entries[0];
      assert e in entries && e.1 < e;
      FindDataSound(e.1, field);
      FindInValuesSound(entries[1..], field);
    }
  }

  lemma {:induction false} FindInItemsSound(items: seq<PyValue>, field: string)
    ensures FindInItems(items, field) != PyNone ==> ItemsVisible(items, field, FindInItems(items, field))
    decreases items
  {
    if |items| > 0 {
      FindDataSound(items[0], field);
      FindInItemsSound(items[1..], field);
    }
  }

  /** The search misses nothing it can reach: a reachable value other than `None` means an answer other than `None`. */
  lemma {:induction false} FindDataComplete(v: PyValue, field: string, x: PyValue)
    requires x != PyNone && Visible(v, field, x)
    ensures FindData(v, field) != PyNone
    decreases v
  {
    match v
    case PyDict(entries) =>
      if !HasKey(entries, field) {
        FindInValuesComplete(entries, field, x);
      }
    case PyList(items) =>
      FindInItemsComplete(items, field, x);
  }

  lemma {:induction false} FindInValuesComplete(entries: seq<(string, PyValue)>, field: string, x: PyValue)
    requires x != PyNone && ValuesVisible(entries, field, x)
    ensures FindInValues(entries, field) != PyNone
    decreases entries
  {
    var e := entries[0];
    assert e in entries && e.1 < e;
    if Visible(e.1, field, x) {
      FindDataComplete(e.1, field, x);
    } else {
      FindInValuesComplete(entries[1..], field, x);
    }
  }

  lemma {:induction false} FindInItemsComplete(items: seq<PyValue>, field: string, x: PyValue)
    requires x != PyNone && ItemsVisible(items, field, x)
    ensures FindInItems(items, field) != PyNone
    decreases items
  {
    if Visible(items[0], field, x) {
      FindDataComplete(items[0], field, x);
    } else {
      FindInItemsComplete(items[1..], field, x);
    }
  }

  /** An object holding `field` answers with its value even when that is `None`, hiding what is nested inside. */
  lemma OwnNoneHidesNested(field: string, other: string, x: PyValue)
    requires other != field
    ensures FindData(PyDict([(field, PyNone), (other, PyDict([(field, x)]))]), field) == PyNone
  {
    var entries := [(field, PyNone), (other, PyDict([(field, x)]))];
    assert HasKey(entries, field) by {
      assert entries[0].0 == field;
    }
  }

  // ---------------------------------------------------------------------
  // confirm_txn
  // ---------------------------------------------------------------------

  const MAX_RETRIES: nat := 20

  /** One attempt to read the transaction: it raises, or gives the `err` of the transaction's meta. */
  datatype Poll = PollRaised | PollMeta(err: PyValue)

  /** How `confirm_txn` ends (`True`, `False`, `None`), or that it is still polling when the attempts given run out. */
  datatype Confirmation = Confirmed | TxFailed | GaveUp | StillPolling

  /**
   * The outcome of `confirm_txn` over the attempts `polls`, with `retries`
   * exceptions counted so far: `err` of `None` confirms, a truthy `err`
   * fails, an exception counts a retry, and a falsy `err` that is not
   * `None` polls again without counting.
   */
  function Confirm(polls: seq<Poll>, retries: nat, maxRetries: nat): (r: Confirmation)
    ensures retries >= maxRetries ==> r == GaveUp
    ensures r == Confirmed ==> PollMeta(PyNone) in polls
    ensures r == TxFailed ==> exists p :: p in polls && p.PollMeta? && Truthy(p.err)
    decreases |polls|
  {
    if retries >= maxRetries then GaveUp
    else if |polls| == 0 then StillPolling
    else
      match polls[0]
      case PollRaised => Confirm(polls[1..], retries + 1, maxRetries)
      case PollMeta(err) =>
        if err == PyNone then Confirmed
        else if Truthy(err) then TxFailed
        else Confirm(polls[1..], retries, maxRetries)
  }

  function CountRaised(polls: seq<Poll>): (r: nat)
    ensures r <= |polls|
  {
    if |polls| == 0 then 0 else (if polls[0].PollRaised? then 1 else 0) + CountRaised(polls[1..])
  }

  /** `confirm_txn(txn_sig, max_retries)`, reading the attempts from `polls`. */
  method ConfirmTxn(polls: seq<Poll>, maxRetries: nat) returns (r: Confirmation)
    ensures r == Confirm(polls, 0, maxRetries)
  {
    var retries := 0;
    var k := 0;
    while retries < maxRetries
      invariant 0 <= k <= |polls|
      invariant Confirm(polls[k..], retries, maxRetries) == Confirm(polls, 0, maxRetries)
      decreases |polls| - k
    {
      if k == |polls| {
        return StillPolling;
      }
      assert polls[k..][0] == polls[k] && polls[k..][1..] == polls[k + 1..];
      match polls[k] {
        case PollRaised =>
          retries := retries + 1;
        case PollMeta(err) =>
          if err == PyNone {
            return Confirmed;
          }
          if Truthy(err) {
            return TxFailed;
          }
      }
      k := k + 1;
    }
    return GaveUp;
  }

  /** Giving up needs as many exceptions as retries are left: other attempts never count. */
  lemma {:induction false} GaveUpCountsExceptions(polls: seq<Poll>, retries: nat, maxRetries: nat)
    requires Confirm(polls, retries, maxRetries) == GaveUp
    ensures retries + CountRaised(polls) >= maxRetries
    decreases |polls|
  {
    if retries < maxRetries {
      if polls[0].PollRaised? {
        GaveUpCountsExceptions(polls[1..], retries + 1, maxRetries);
      } else {
        GaveUpCountsExceptions(polls[1..], retries, maxRetries);
      }
    }
  }

  /** Exceptions on every attempt end the loop after exactly `maxRetries` of them. */
  lemma {:induction false} ExceptionsGiveUp(polls: seq<Poll>, retries: nat, maxRetries: nat)
    requires retries + |polls| >= maxRetries
    requires forall i :: 0 <= i < |polls| ==> polls[i] == PollRaised
    ensures Confirm(polls, retries, maxRetries) == GaveUp
    decreases |polls|
  {
    if retries < maxRetries {
      ExceptionsGiveUp(polls[1..], retries + 1, maxRetries);
    }
  }

  /** A falsy `err` that is not `None` (such as `{}` or `0`) never ends the loop, however often it comes. */
  lemma {:induction false} FalsyErrNeverEnds(polls: seq<Poll>, retries: nat, maxRetries: nat)
    requires retries < maxRetries
    requires forall i :: 0 <= i < |polls| ==> polls[i].PollMeta? && polls[i].err != PyNone && !Truthy(polls[i].err)
    ensures Confirm(polls, retries, maxRetries) == StillPolling
    decreases |polls|
  {
    if |polls| > 0 {
      FalsyErrNeverEnds(polls[1..], retries, maxRetries);
    }
  }

  /** An `err` of `None` confirms, provided fewer exceptions than the limit and only falsy errors came before it. */
  lemma {:induction false} ConfirmedAfter(before: seq<Poll>, after: seq<Poll>, retries: nat, maxRetries: nat)
    requires retries + CountRaised(before) < maxRetries
    requires forall i :: 0 <= i < |before| ==> before[i].PollRaised? || (before[i].err != PyNone && !Truthy(before[i].err))
    ensures Confirm(before + [PollMeta(PyNone)] + after, retries, maxRetries) == Confirmed
    decreases |before|
  {
    var polls := before + [PollMeta(PyNone)] + after;
    if |before| == 0 {
      assert polls[0] == PollMeta(PyNone);
    } else {
      assert polls[0] == before[0];
      assert polls[1..] == before[1..] + [PollMeta(PyNone)] + after;
      if before[0].PollRaised? {
        ConfirmedAfter(before[1..], after, retries + 1, maxRetries);
      } else {
        ConfirmedAfter(before[1..], after, retries, maxRetries);
      }
    }
  }

  // ---------------------------------------------------------------------
  // get_coin_data and get_token_balance
  // ---------------------------------------------------------------------

  /** An HTTP exchange: the request raised, or a status and a body (`None` when it is not JSON). */
  datatype HttpReply = RequestRaised | Response(status: int, body: Option<PyValue>)

  /** `get_coin_data(mint_str)`: the parsed body of a 200 reply; `None` for any other status or any exception. */
  function GetCoinData(reply: HttpReply): (r: PyValue)
    ensures reply.Response? && reply.status == 200 && reply.body.Some? ==> r == reply.body.value
    ensures reply.RequestRaised? || reply.status != 200 || reply.body.None? ==> r == PyNone
  {
    match reply
    case RequestRaised => PyNone
    case Response(status, body) => if status == 200 && body.Some? then body.value else PyNone
  }

  /**
   * `get_token_balance(base_mint)`: `float` of the first `uiAmount` found
   * in the reply; `None` when the request fails, nothing is found, or the
   * value is not a number.
   */
  function GetTokenBalance(reply: HttpReply): (r: Option<real>)
    ensures reply.RequestRaised? || reply.body.None? ==> r.None?
    ensures r.Some? ==> reply.Response? && reply.body.Some?
                        && Visible(reply.body.value, "uiAmount", FindData(reply.body.value, "uiAmount"))
    ensures reply.Response? && reply.body.Some? ==>
      match FindData(reply.body.value, "uiAmount")
      case PyNumber(n) => r == Some(n)
      case PyBool(b) => r == Some(if b then 1.0 else 0.0)
      case _ => r.None?
  {
    match reply
    case RequestRaised => None
    case Response(_, None) => None
    case Response(_, Some(json)) =>
      FindDataSound(json, "uiAmount");
      match FindData(json, "uiAmount")
      case PyNumber(n) => Some(n)
      case PyBool(b) => Some(if b then 1.0 else 0.0)
      case _ => None
  }
}

=== FILE: wrappers.dfy ===
/** Option and Result values shared by every module of the model. */
module Wrappers {

  /** A value that may be absent (`undefined`/`null` in TypeScript, `None` in Python). */
  datatype Option<+T> = None | Some(value: T) {
    function GetOr(default: T): T {
      match this
      case Some(v) => v
      case None() => default
    }
  }

  /** The outcome of an operation that either yields a value or fails with an error. */
  datatype Result<+R, +E> = Success(value: R) | Failure(error: E)
}
